=== FILE: README.md ===
# PeakDeFi deployment scripts and test fixture, in Dafny

This project models the JavaScript that stands the PeakDeFi (Betoken) contracts
up:

- the Truffle test fixture `eth/test/truffle-fixture.js`, compiled from
  CoffeeScript;
- the five Buidler scripts `deploy-rinkeby-factory.js`,
  `deploy-mainnet-factory.js`, `deploy-mainnet-fork.js`,
  `deploy-rinkeby-fund.js` and `deploy-mainnet-fund.js`.

It has two parts.

**The fixture's mock-environment lists** (modules `CoffeeJs`, `MockEnv`,
`FixtureEnv`). These are pure functions over any type of address:

- the token list (configured tokens, DAI, the ETH sentinel);
- the price list, built with CoffeeScript's range `[1..n]`;
- the underlying-to-cToken map `compoundTokens`;
- the price oracle's cToken list;
- the two mint loops;
- the fund's token and cToken lists, built with the inclusive slice `xs[..k]`,
  which compiles to `xs.slice(0, +k + 1 || 9e9)`.

For at least one configured token the lists are proved index-aligned. The
zero-token case is stated separately, as the code computes it:

- `[1..0]` counts down, so there are four prices for two tokens;
- `xs[..-1]` is the whole list, so the fund gets ETH twice and DAI once.

**The scripts as step sequences** (modules `Steps`, `Traces`, `Build`,
`Runner`, `FundProtocol`, `Roles`, `Views`, the `*Sections` modules and one
module per script). Every `await` is one `Step`, as is every synchronous
`setAsDeployed` or `console.log` between them. A step names the binding it
initialises and the bindings it reads.

A script is built with `Build.Then`. `Then` admits a step only when everything
the step reads is already bound, so each script is reference-before-use by
construction. `Traces.WFIsRefsBeforeUse` shows that this step-by-step check
means the same as the whole-sequence statement.

`Runner.Run` is `main()` followed by `.then(exit 0).catch(exit 1)`. It is a fold
over the steps that returns a `Result`: the first reference error or rejected
`await` ends the run. Which calls reject is a parameter. `Runner` proves three
things about it:

- a well-formed script stops exactly at its first rejection;
- it has printed only the lines before that rejection;
- it exits with 0 exactly when no awaited call rejects.

`Then` also keeps the step sequence itself (`Traces.Sequence`), so a section's
contract can say exactly which steps it appends. It also maintains four
monitors, which each script's contract is stated over:

- the stage of the fund-creation protocol (`FundProtocol`);
- the stage at every fund notice (the log lines about the fund and proxy, and
  the fund's registration);
- the role events (`Roles`): signer grants and renouncements on PeakReward,
  minter grants on PEAK, and order-template deployments and ownership
  renouncements;
- the custody of order templates.

`Views` shows that the monitors are the plain folds over the step sequence.
This lets the declarative lemmas apply to every script:

- the protocol recogniser accepts exactly the protocol's prefixes;
- a party is a signer exactly when its last signer event added it;
- custody is kept exactly when every template renounces ownership as the next
  awaited step.

Each script is reproduced as written, including where the scripts disagree:

| script | factory | minter grant | fund phases | `nextPhase` |
|---|---|---|---|---|
| Rinkeby factory | 10 args, zero address for 1inch | sent by the deployer | none | none |
| Mainnet factory | 10 args, 1inch from config | none (a TODO) | none | none |
| Mainnet fork | 9 args, no PeakStaking; two-argument PeakReward; no signer renouncement | sent from `0xbD0e…5DE3` | 3 | no |
| Rinkeby fund | existing | none | 3 | no |
| Mainnet fund | existing | none | 4 | yes |
| Test fixture | 10 args, zero address for 1inch; the mocks built with `new`, templates, logic contracts, PeakStaking, PeakReward and the fund registered; factory-made tokens and cTokens, the fund template and BetokenFactory not | sent by the deployer | 4 | yes, then the fund is registered |

The scripts contain no dependency graph, no phase-order check and no
`beginOperation` call; each is a fixed straight-line sequence of awaited
steps, and phase order is enforced only by the contracts on chain. The model
adds none of these: it proves properties of the scripts' concrete sequences.

## Model

| member | source | states |
|---|---|---|
| Traces.WFIsRefsBeforeUse | eth/scripts/deploy-mainnet-fund.js:8-21 | A trace passes the step-by-step check exactly when every step reads only bindings that earlier steps initialised, in both directions |
| Build.Deployed | eth/scripts/deploy-rinkeby-factory.js:30 | `C.new(args)` with bound arguments binds its handle and changes no fund stage, notice, role event or custody |
| Build.Logged | eth/scripts/deploy-rinkeby-factory.js:43 | A log line about anything but the fund or proxy binds nothing and is not a fund notice |
| Build.Sent | eth/test/truffle-fixture.js:69 | A non-role, non-protocol call on a bound receiver binds only the receipt field it keeps |
| Build.Attached | eth/test/truffle-fixture.js:66 | `C.at(address)` for any handle but the fund's binds that handle and is no protocol event |
| Build.Registered | eth/test/truffle-fixture.js:90 | `C.setAsDeployed(x)` on a bound `x` adds only the registry entry and is not a fund notice |
| Build.Resolved | eth/test/truffle-fixture.js:63 | `C.deployed()` after registration binds the script's handle on the registered instance |
| Build.Funded | eth/test/truffle-fixture.js:92-96 | Sending ether from `accounts[0]` to a bound contract binds nothing and touches no monitor |
| Runner.RunStopsAtFirstRejection | eth/scripts/deploy-mainnet-fund.js:24-29 | A reference-before-use script fails at its first rejecting awaited step, having printed the lines of the steps before it, or succeeds having printed all its lines |
| Runner.NoReferenceError | eth/scripts/deploy-rinkeby-fund.js:31-36 | A well-formed script can fail only by a rejected call, never by reading an unbound name |
| Runner.ExitCodeContract | eth/scripts/deploy-rinkeby-factory.js:112-117 | A well-formed script exits with 0 exactly when none of its awaited steps rejects |
| Runner.AbortsAtFirstRejection | eth/scripts/deploy-mainnet-factory.js:100-105 | On failure the fault is an awaited step that rejects with no rejecting step before it, and the printed lines are exactly those of the steps before it |
| CoffeeJs.Range | eth/test/truffle-fixture.js:83 | `[a..b]` has `abs(b - a) + 1` entries, counting up from `a` when `a <= b` and down otherwise |
| CoffeeJs.RangeLoop | eth/test/truffle-fixture.js:83-86 | The compiled `for` loop with its direction test collects exactly the range `[from..to]` |
| CoffeeJs.ThroughKeeps | eth/test/truffle-fixture.js:197 | `slice(0, +k + 1 or-else 9e9)` is the first `k + 1` entries for an index inside the list, the whole list for `k = -1`, and the list without its last `-(k + 1)` entries for `k < -1` |
| MockEnv.UnderlyingsAreAllButEth | eth/test/truffle-fixture.js:116 | `tokenAddrs[..length - 2]` is the configured tokens and DAI, that is, everything but the ETH sentinel |
| MockEnv.PricesAligned | eth/test/truffle-fixture.js:80-87 | For `n >= 1` the price list is as long as the token list, with `10·PRECISION` per configured token, `PRECISION` for DAI, `20·PRECISION` for ETH |
| MockEnv.PricesAtZero | eth/test/truffle-fixture.js:83-87 | For `n = 0` the descending range gives four prices for the two tokens |
| MockEnv.AssignFresh | eth/test/truffle-fixture.js:117-120 | Assigning other keys leaves a key's lookup as it was |
| MockEnv.AssignDistinct | eth/test/truffle-fixture.js:117-120 | With distinct keys, the sequential assignments leave each key bound to its own value |
| MockEnv.AssignKeys | eth/test/truffle-fixture.js:115-120 | The assignments add exactly the assigned keys |
| MockEnv.CompoundTokensContents | eth/test/truffle-fixture.js:115-121 | Every token but ETH maps to the cToken created for it, ETH maps to CEther, and there are no other keys |
| MockEnv.OracleCTokensAligned | eth/test/truffle-fixture.js:123-126 | The oracle's cToken list is index-aligned with the token list: entry `i` is the cToken created for token `i`, and the last is CEther |
| MockEnv.MintTargets | eth/test/truffle-fixture.js:128-142 | Both mint loops mint one trillion tokens of each token but ETH, once and in list order, to the Kyber mock and to the token's own cToken |
| MockEnv.FundTokensAligned | eth/test/truffle-fixture.js:210 | For `n >= 1` `tokenAddrs[..length - 3]` is the configured tokens, and the fund's token list is those plus ETH, without DAI |
| MockEnv.FundListsAligned | eth/test/truffle-fixture.js:195-210 | For `n >= 1` the fund's token and cToken lists have `n + 1` entries, are index-aligned, end in ETH and CEther, and leave out DAI |
| MockEnv.FundListsAtZero | eth/test/truffle-fixture.js:195-210 | For `n = 0` the 9e9 fallback gives `[DAI, ETH, ETH]` and `[cDAI, CEther, CEther]` |
| FixtureEnv.TokensDistinct | eth/test/truffle-fixture.js:74-79 | The fixture's token list has no repeated entry |
| FixtureEnv.OracleListAligned | eth/test/truffle-fixture.js:123-126 | The fixture's oracle gets `cToken(k)` for token `k` and CEther for ETH, and no entry is `undefined` |
| FixtureEnv.DaiCToken | eth/test/truffle-fixture.js:165 | `compoundTokens[TestDAI.address]` is the last cToken created, never `undefined` |
| FixtureEnv.FundListsOf | eth/test/truffle-fixture.js:195-210 | `initFund2` gets the configured tokens and ETH with cTokens `0..n-1` and CEther when `n >= 1`, and the duplicated lists when `n = 0` |
| FixtureEnv.PricesOf | eth/test/truffle-fixture.js:80-89 | The fixture's Kyber price list: for `n >= 1` one entry per token, `10·PRECISION` for each configured token, `PRECISION` for DAI, `20·PRECISION` for ETH; for `n = 0` four entries for two tokens |
| FixtureEnv.MintListsOf | eth/test/truffle-fixture.js:128-142 | Both mint lists have `n + 1` entries: entry `j` mints one trillion of the `j`-th configured token (DAI last) to the Kyber mock, and to the `j`-th cToken respectively |
| FixtureEnv.OracleListWithin | eth/test/truffle-fixture.js:126 | The oracle's list reads only created cTokens and CEther |
| FixtureEnv.FundListsWithin | eth/test/truffle-fixture.js:210 | The fund's lists read only bound tokens and cTokens |
| FundProtocol.Phases | eth/scripts/deploy-mainnet-fund.js:14-17 | `initFund1..k` has `k` calls, the `i`-th being `initFund<i+1>` |
| FundProtocol.SpellingReachesStage | eth/scripts/deploy-mainnet-fund.js:11-18 | The recogniser takes each protocol prefix to the stage it stands for |
| FundProtocol.StageDeterminesEvents | eth/scripts/deploy-mainnet-fund.js:11-18 | Events that do not break the recogniser are exactly the protocol prefix of the stage they reach |
| FundProtocol.StageSpellsProtocol | eth/scripts/deploy-mainnet-fund.js:11-18 | The recogniser reaches a stage exactly when the events are that stage's protocol prefix, in both directions |
| FundProtocol.CompletedMeansProtocol | eth/scripts/deploy-rinkeby-fund.js:20-25 | Ending at `k` init phases (and `nextPhase` when required) happens exactly when the events are preview, commit, bind, `initFund1..k` (and `nextPhase`) |
| Roles.SignersByLastEvent | eth/scripts/deploy-rinkeby-factory.js:73-74 | A party is a signer exactly when its last signer event added it, or it is the deployer and no event touched it |
| Roles.CustodyPendingIsLast | eth/scripts/deploy-rinkeby-factory.js:80-81 | The template custody waits on is the last awaited step's template, if that step deployed one |
| Roles.RenouncedSoFarShrinks | eth/scripts/deploy-rinkeby-factory.js:80-93 | A prefix of awaited steps that renounce in time still does, and its last step keeps custody |
| Roles.CustodyTracksRenouncements | eth/scripts/deploy-rinkeby-factory.js:80-93 | Custody is kept exactly when, among awaited steps, every template deployment is followed by its renouncement unless it is the last, and every renouncement follows its template |
| Roles.CustodyMeansRenouncedRightAfter | eth/scripts/deploy-mainnet-factory.js:68-81 | With no template waiting, custody is kept exactly when every template renounces ownership as the very next awaited step, and nothing else renounces |
| Views.StageView | eth/scripts/deploy-mainnet-fund.js:11-18 | The incremental fund stage is the recogniser run over the trace's protocol events |
| Views.NoticesView | eth/scripts/deploy-mainnet-fund.js:20-21 | The incremental notice stages are the stages the protocol events before each notice reach |
| Views.RolesView | eth/scripts/deploy-rinkeby-factory.js:52-93 | The incremental role events are the role events of the trace's steps |
| Views.CustodyView | eth/scripts/deploy-rinkeby-factory.js:80-93 | The incremental custody is custody folded over the trace's steps |
| Views.NoticeSeesStage | eth/scripts/deploy-mainnet-fund.js:20-21 | A notice at step `i` records the stage the protocol events before `i` reached |
| Views.NoticesFollowProtocol | eth/scripts/deploy-mainnet-fund.js:20-21 | When every notice saw the completed protocol, the protocol events before any notice are exactly the protocol |
| Views.FinalStageMeansProtocol | eth/scripts/deploy-mainnet-fund.js:11-18 | A trace ending at the completed stage made exactly the protocol's calls |
| Views.ProtocolBeforeNotices | eth/scripts/deploy-rinkeby-fund.js:20-28 | A trace ending at, and noticing only, the completed stage made exactly the protocol's calls, all before its first notice |
| Views.CustodyKept | eth/scripts/deploy-rinkeby-factory.js:78-93 | A trace with custody closed and kept renounced every template right after deploying it |
| FundSections.PreviewAndCommit | eth/scripts/deploy-mainnet-fund.js:11-12 | `createFund.call()` then `createFund()` binds the previewed address and takes the protocol from idle to committed |
| FundSections.BindFund | eth/scripts/deploy-mainnet-fund.js:13 | `BetokenFund.at(previewed)` binds the fund and takes the protocol from committed to bound with no phases |
| FundSections.InitPhase | eth/scripts/deploy-mainnet-fund.js:14 | `initFund<p>(fund, ...)` right after phase `p - 1` advances the protocol by exactly one phase |
| FundSections.FundCreated | eth/scripts/deploy-mainnet-fund.js:11-13 | Preview, commit and bind take an idle protocol to bound with no phases and bind the address and the fund |
| FundSections.InitPhases | eth/scripts/deploy-mainnet-fund.js:14-17 | One `initFund<p>` per argument list, in order: the trace gains exactly the calls `initFund1..k(fund, args)` sent by `accounts[0]`, and the protocol reaches that many phases |
| FundSections.InitCallsAt | eth/scripts/deploy-mainnet-fund.js:14-17 | The `i`-th of the phase calls is `initFund<i+1>` on the factory with the fund and the `i`-th argument list, and none deploys a contract |
| FundSections.FundOpened | eth/scripts/deploy-rinkeby-fund.js:17-22 | The attach at `config.BETOKEN_FACTORY_ADDR`, the `createFund.call()` preview, `createFund()` and the fund's attach, in that order; the fund is bound with no phase begun and no notice or role event |
| FundSections.FundFromConfiguredFactory | eth/scripts/deploy-rinkeby-fund.js:17-25 | The fund scripts' opening starts by attaching BetokenFactory at `config.BETOKEN_FACTORY_ADDR`, deploys no contract, binds only that factory, the previewed address and the fund, and reaches one phase per list |
| FundSections.FundScriptClosed | eth/scripts/deploy-rinkeby-fund.js:17-28 | A trace made of the configured factory's deploy-free opening and deploy-free closing steps, at the completed stage at every notice, made exactly the protocol's calls before its first notice, starts with the factory and deploys nothing |
| FundSections.AdvancePhase | eth/scripts/deploy-mainnet-fund.js:18 | `nextPhase()` after `k` phases takes the protocol to advanced |
| FundSections.Announce | eth/scripts/deploy-mainnet-fund.js:20-21 | The two closing log lines are two fund notices of the stage reached, and bind the proxy address |
| FundSections.FundRegistered | eth/test/truffle-fixture.js:214 | Appends exactly `BetokenFund.setAsDeployed(fund)`, one fund notice of the stage reached |
| SuiteSections.CoreContracts | eth/scripts/deploy-rinkeby-factory.js:30-38 | The fund template, the three logic contracts and the MiniMe factory are deployed in that order, with no constructor arguments and no role event |
| SuiteSections.LogicContracts | eth/scripts/deploy-rinkeby-factory.js:33-35 | Exactly `BetokenLogic.new()`, `BetokenLogic2.new()`, `BetokenLogic3.new()` in that order, with no role event |
| SuiteSections.SignerGranted | eth/scripts/deploy-rinkeby-factory.js:52 | `reward.addSigner(x)` adds `x` to PeakReward's signers |
| SuiteSections.StakingAndReward | eth/scripts/deploy-rinkeby-factory.js:49-52 | Exactly four steps: PeakStaking deployed on the PEAK token, then PeakReward with the given arguments (which may read PeakStaking), then `staking.init(reward)`, then `reward.addSigner(staking)`; PeakStaking ends a signer |
| SuiteSections.MinterGranted | eth/scripts/deploy-rinkeby-factory.js:57 | `addMinter(staking)` records a minter grant to PeakStaking by the given sender and leaves the signers alone |
| SuiteSections.FactoryAndSigner | eth/scripts/deploy-rinkeby-factory.js:60-73 | Exactly BetokenFactory deployed with the given arguments, then `reward.addSigner(factory)`: the factory joins PeakReward's signers |
| SuiteSections.DeployerSteppedDown | eth/scripts/deploy-rinkeby-factory.js:74 | Exactly `renounceSigner(accounts[0])` on PeakReward, which removes the deploying account from the signers |
| SuiteSections.TemplateBuilt | eth/scripts/deploy-rinkeby-factory.js:80 | Exactly the template's `new()`, which leaves that template waiting in custody |
| SuiteSections.TemplateRenounced | eth/scripts/deploy-rinkeby-factory.js:81 | Exactly `renounceOwnership()` on the waiting template, which closes custody and keeps it as it was |
| SuiteSections.TemplateRegistered | eth/test/truffle-fixture.js:149-151 | The fixture's `setAsDeployed` of a template adds exactly its registration; the scripts add nothing; either way custody stays as it was |
| SuiteSections.OrderTemplate | eth/test/truffle-fixture.js:149-151 | One template: exactly its deployment, its registration when asked, and its renouncement; it records its two role events and leaves custody as it was |
| SuiteSections.OrderTemplates | eth/scripts/deploy-rinkeby-factory.js:79-93 | The four templates' steps in Short CERC20, Short CEther, Long CERC20, Long CEther order, each renounced at once, with custody unchanged |
| SuiteSections.BuildOrderFactory | eth/scripts/deploy-rinkeby-factory.js:96-107 | Exactly CompoundOrderFactory's deployment, whose first four arguments are the templates in order; it is recorded as a role event |
| SuiteSections.FactoryTakesOver | eth/scripts/deploy-rinkeby-factory.js:60-76 | Exactly: BetokenFactory deployed, `addSigner(factory)`, `renounceSigner(accounts[0])`, then the factory's log line; the factory joins the signers and the deploying account leaves them |
| SuiteSections.OrderSuite | eth/scripts/deploy-rinkeby-factory.js:78-109 | The four templates' steps, then CompoundOrderFactory deployed on the templates and the configured addresses, then its log line as the last step |
| RinkebyFactory.MockPeak | eth/scripts/deploy-rinkeby-factory.js:41-43 | The mock PEAK token is deployed, then `1e9 · 1e8` (one billion PEAK at 8 decimals) is minted to `accounts[0]`, then it is logged; only its handle is bound |
| RinkebyFactory.PeakSuite | eth/scripts/deploy-rinkeby-factory.js:46-57 | PeakStaking becomes a signer and then the PEAK minter, granted by the deployer |
| RinkebyFactory.FactorySuite | eth/scripts/deploy-rinkeby-factory.js:29-76 | Up to the order templates: no protocol call, the roles are the staking signer, the deployer's minter grant, the factory signer and the deployer's renouncement, leaving staking and factory as the signers |
| RinkebyFactory.Script | eth/scripts/deploy-rinkeby-factory.js:4-110 | The script makes no protocol call; its role events are the staking signer, the minter grant, the factory signer, the deployer's renouncement, the four templates, then the order factory; the final signers are staking and factory; every template renounces right after deployment |
| MainnetFactory.PeakSuite | eth/scripts/deploy-mainnet-factory.js:37-45 | PeakStaking becomes a signer, and no minter grant is made |
| MainnetFactory.FactorySuite | eth/scripts/deploy-mainnet-factory.js:26-64 | Up to the order templates: no protocol call, the roles are the staking signer, the factory signer and the deployer's renouncement, leaving staking and factory as the signers |
| MainnetFactory.Script | eth/scripts/deploy-mainnet-factory.js:4-98 | The script makes no protocol call and no minter grant; the signer events are staking, factory, then the deployer's renouncement, leaving staking and factory; every template renounces right after deployment |
| MainnetFork.PeakSuite | eth/scripts/deploy-mainnet-fork.js:29-37 | PeakStaking becomes a signer, then the PEAK minter by a grant sent from `0xbD0e…5DE3` |
| MainnetFork.FactorySuite | eth/scripts/deploy-mainnet-fork.js:17-52 | Up to the factory, the roles are the staking signer, the minter grant from the hard-coded address and the factory signer, and the deployer stays a signer |
| MainnetFork.Script | eth/scripts/deploy-mainnet-fork.js:3-64 | Its protocol calls are preview, commit, bind and `initFund1..3` with no `nextPhase`, all before both log lines; those two log lines and the proxy-address read close the script, as its only notices; the signers end as deployer, staking and factory |
| RinkebyFund.Script | eth/scripts/deploy-rinkeby-fund.js:3-29 | It starts by attaching the configured BetokenFactory and no step deploys a contract; its protocol calls are preview, commit, bind and `initFund1..3`, all before both log lines; the fund log, the proxy-address read and the proxy log close the script, as its only notices; it makes no role call |
| MainnetFund.Script | eth/scripts/deploy-mainnet-fund.js:3-22 | It starts by attaching the configured BetokenFactory and no step deploys a contract; its protocol calls are preview, commit, bind, `initFund1..4` and `nextPhase`, all before both log lines; the fund log, the proxy-address read and the proxy log close the script, as its only notices; it makes no role call |
| FixtureSections.SetAsDeployed | eth/test/truffle-fixture.js:62-63 | `C.setAsDeployed(await C.new())` then `C.deployed()` binds the registry entry and the handle |
| FixtureSections.DeployedAndRegistered | eth/test/truffle-fixture.js:89-90 | A deployment followed by its registration binds the handle and the registry entry |
| FixtureSections.DaiMinted | eth/test/truffle-fixture.js:65-69 | TestDAI is created by the token factory as "DAI Stable Coin"/"DAI"/18, bound at the address the factory logs, and `1e7 · PRECISION` is minted to `accounts[0]` |
| FixtureSections.NewTokenMinted | eth/test/truffle-fixture.js:179-181 | `newToken(info)` on the token factory, `TestToken.at` the logged address, then `mint(accounts[0], amount)`: exactly these three steps, binding the address and the handle |
| FixtureSections.TokenCreated | eth/test/truffle-fixture.js:75-76 | Exactly `newToken(tokensInfo[j].name, tokensInfo[j].symbol, tokensInfo[j].decimals)` on the token factory, whose address is kept as the `j`-th token |
| FixtureSections.TokenStepsAt | eth/test/truffle-fixture.js:74-77 | Step `j` of the token loop creates the token from entry `j` of `tokensInfo` and keeps it as the `j`-th address, so the tokens are in configuration order |
| FixtureSections.TokensCreated | eth/test/truffle-fixture.js:74-77 | The loop appends exactly one `newToken` per configured token, in order (see `TokenStepsAt`), and binds every token address `0..n-1` |
| FixtureSections.TestTokens | eth/test/truffle-fixture.js:51-77 | The token factory, DAI and every configured token are bound, with no role or protocol event |
| FixtureSections.MockKyber | eth/test/truffle-fixture.js:89-96 | TestKyberNetwork is deployed with exactly the token list and the price list (aligned by `FixtureEnv.PricesOf`), registered, and then sent one ether |
| FixtureSections.CompoundCore | eth/test/truffle-fixture.js:100-113 | The comptroller, the cToken factory and CEther are bound |
| FixtureSections.CTokenCreated | eth/test/truffle-fixture.js:119 | Exactly `newToken(token, comptroller)` on the cToken factory, whose cToken is kept as the `k`-th |
| FixtureSections.CTokenStepsAt | eth/test/truffle-fixture.js:116-120 | Step `k` of the cToken loop creates the `k`-th cToken for the `k`-th underlying, one step per underlying |
| FixtureSections.CTokensCreated | eth/test/truffle-fixture.js:116-120 | The loop appends exactly one `newToken(u, comptroller)` per underlying `u` of `tokenAddrs[..length - 2]` (every token but ETH, see `MockEnv.UnderlyingsAreAllButEth`), the `k`-th kept as cToken `k`, and binds all `n + 1` |
| FixtureSections.MockOracle | eth/test/truffle-fixture.js:123-127 | TestPriceOracle is deployed with exactly the mapped cToken list (see `FixtureEnv.OracleListAligned`), the price list and CEther, then registered |
| FixtureSections.Minted | eth/test/truffle-fixture.js:132-133 | `TestToken.at(token)` then `mint(to, amount)` appends exactly those two steps and binds that iteration's handle |
| FixtureSections.KyberMinted | eth/test/truffle-fixture.js:128-134 | The Kyber mint loop appends exactly the attach-and-mint steps of the Kyber mint list (see `FixtureEnv.MintListsOf`), reads only bound names and touches no monitor |
| FixtureSections.MarketsMinted | eth/test/truffle-fixture.js:135-142 | The market mint loop appends exactly the attach-and-mint steps of the market mint list, each token minted to its own cToken (see `FixtureEnv.MintListsOf`), and touches no monitor |
| FixtureSections.MintStepsAt | eth/test/truffle-fixture.js:128-142 | A mint loop over `l` entries performs `2l` steps: step `2j` attaches the `j`-th token and step `2j + 1` mints the `j`-th amount to the `j`-th recipient |
| Fixture.MockSuite | eth/test/truffle-fixture.js:51-127 | The mock tokens, Kyber, the Compound suite and the oracle bind every token and cToken with no role or protocol event |
| Fixture.Markets | eth/test/truffle-fixture.js:128-142 | Both mint loops, Kyber first: exactly the attach-and-mint steps of the Kyber list then of the market list, with every monitor unchanged |
| Fixture.OrderFactoryMocksWithin | eth/test/truffle-fixture.js:165 | CompoundOrderFactory's arguments are all bound, cDAI included |
| Fixture.OrderPart | eth/test/truffle-fixture.js:145-166 | The MiniMe factory, the four templates, each renounced at once, then CompoundOrderFactory built from them |
| Fixture.LogicRegistered | eth/test/truffle-fixture.js:168-173 | Exactly: each of the three logic contracts deployed and then registered, in order |
| Fixture.Suite | eth/test/truffle-fixture.js:51-173 | Up to the logic contracts: the template and order-factory role events only, and the deployer is the only signer |
| Fixture.ReferralTokenCreated | eth/test/truffle-fixture.js:177-178 | Exactly `createCloneToken(ZERO_ADDR, 0, "Peak Referral Token", 18, "PRT", true)` on the MiniMe factory and `MiniMeToken.at` its address, binding both |
| Fixture.PeakTokenMinted | eth/test/truffle-fixture.js:179-181 | The PEAK test token is created as "MarketPeak"/"PEAK"/8, bound, and `1e9 · 1e8` is minted to `accounts[0]` |
| Fixture.PeakTokens | eth/test/truffle-fixture.js:175-181 | Exactly seven steps: the Uniswap oracle mock deployed and registered, the referral token created and bound, the PEAK token created, bound and minted; it binds exactly those names |
| Fixture.PeakRoles | eth/test/truffle-fixture.js:182-188 | Exactly seven steps in order: PeakStaking deployed and registered, the minter grant to it, then PeakReward deployed, registered, `init`, and `addSigner(staking)`; the minter grant precedes PeakReward's deployment, and PeakStaking ends a signer |
| Fixture.FactoryPart | eth/test/truffle-fixture.js:190-193 | Appends exactly the fund template, BetokenFactory over the mock DAI, the mock Kyber and the zero address for 1inch, then `addSigner(factory)`; the factory joins the signers |
| Fixture.FixturePhasesWithin | eth/test/truffle-fixture.js:209-212 | The four init argument lists read only bound names |
| Fixture.FundPart | eth/test/truffle-fixture.js:206-214 | Preview, commit, bind, four init phases and `nextPhase`, then `BetokenFund.setAsDeployed(fund)` as the last step, the one notice, of the advanced stage |
| Fixture.Script | eth/test/truffle-fixture.js:49-215 | Its protocol calls are exactly preview, commit, bind, `initFund1..4` and `nextPhase`, all before the fund's registration, which is the last step and the only notice; the template events come first, then the minter grant, then staking and factory join the signers and the deployer stays one; every template renounces right after deployment |

## Left out

- Network, chain and file I/O are left out: web3, `artifacts.require`,
  `require` of the configuration documents, and the gas and confirmations of a
  transaction. A step records only what it reads and binds. Which awaited
  calls reject is a parameter of `Runner.Run`.
- The Solidity contracts' own behaviour is left out: phase guards, signer and
  minter checks, Kyber and Compound. Each call is an opaque step that succeeds
  or rejects.
- `bnToString`/BigNumber formatting and the floating-point `PRECISION = 1e18`
  are left out. Amounts are exact naturals.
- JavaScript's single assignment of `const` bindings is not modelled. The model
  is reference-before-use only. The fixture reuses its loop variables `token`
  and `tokenObj` on every iteration (`eth/test/truffle-fixture.js:75`, `118`,
  `131-132`, `139-140`); the model gives each iteration's handle a name of its
  own (`MintHandle(market, j)`, the `j`-th token or cToken address) instead of
  rebinding one name.
- Roles.Signers: starts from the deploying account as PeakReward's only
  signer. That PeakReward's constructor grants this role is Solidity behaviour,
  which is not modelled; every statement about the final signers rests on it.
- The model does not distinguish the configuration documents (`testnet.json`,
  `rinkeby.json`, `mainnet-fund.json`, …). `Config(KEY)` stands for the field
  of whichever document the script loads.
- `eth/scripts/get_kn_tokens.js`, `eth/buidler.config.js` and
  `eth/scripts/deploy-oracle.js` are not part of this model. They do network
  and file I/O, hold static configuration, and have an empty body,
  respectively.
- `artifacts.require` and `setAsDeployed` bookkeeping beyond binding a
  registry entry are left out.
- CoffeeJs.ThroughKeeps: the `k = -1` case holds only for lists of at most
  `9e9` entries. The fixture's lists are far shorter, and no list in the model
  carries a length bound.
- The exit-code, abort and no-reference-error statements are proved once, for
  every well-formed trace, in `Runner`. Each script's contract states
  well-formedness (`WF`) and does not repeat them.
- The scripts' contracts state the order of protocol calls and role events and
  the final signers. They do not restate every argument of every call. The
  arguments are constants in each script's module; examples are the factory's
  third slot, the six configured order-factory addresses and the initFund
  argument lists.

=== FILE: build.dfy ===
/**
 * Building a script one step at a time.  `Then` admits a step only when every
 * binding it reads is already initialised, so each script below is
 * reference-before-use by construction; it also
 * carries what the trace has done so far (the fund protocol's stage, the
 * stage at each fund notice, the role events, the custody of order templates)
 * so that a script's contract can state them.
 */
module Build {
  import opened Wrappers
  import opened Steps
  import opened Traces
  import opened FundProtocol
  import opened Roles

  /** The fund protocol's stage after the trace. */
  function StageOf(t: Trace): Stage {
    match t
    case Empty => Idle
    case Snoc(init, s) => var e := EventOf(s); if e.Some? then Next(StageOf(init), e.value) else StageOf(init)
  }

  /** The fund stage at each fund notice (log line or registration) of the trace. */
  function NoticesOf(t: Trace): seq<Stage> {
    match t
    case Empty => []
    case Snoc(init, s) => if IsNotice(s) then NoticesOf(init) + [StageOf(init)] else NoticesOf(init)
  }

  /** The trace's role events. */
  function RolesOf(t: Trace): seq<RoleEvent> {
    match t
    case Empty => []
    case Snoc(init, s) => var r := RoleEventOf(s); if r.Some? then RolesOf(init) + [r.value] else RolesOf(init)
  }

  /** The custody of order templates after the trace. */
  function CustodyOf(t: Trace): Custody {
    match t
    case Empty => Custody(None, true)
    case Snoc(init, s) => Watch(CustodyOf(init), s)
  }

  function Then(t: Trace, s: Step): (r: Trace)
    requires WF(t)
    requires UsesWithin(s, Defined(t))
    ensures WF(r) && Defined(r) == Extend(Defined(t), s)
    ensures StageOf(r) == (var e := EventOf(s); if e.Some? then Next(StageOf(t), e.value) else StageOf(t))
    ensures NoticesOf(r) == if IsNotice(s) then NoticesOf(t) + [StageOf(t)] else NoticesOf(t)
    ensures RolesOf(r) == (var e := RoleEventOf(s); if e.Some? then RolesOf(t) + [e.value] else RolesOf(t))
    ensures CustodyOf(r) == Watch(CustodyOf(t), s)
    ensures Sequence(r) == Sequence(t) + [s]
  {
    Snoc(t, s)
  }

  /**
   * `x = await C.new(args)` for an artifact that is neither an order template
   * nor the order factory: the scope gains `x` and nothing else is touched.
   */
  method Deployed(t0: Trace, x: Name, c: Contract, args: seq<Arg>) returns (t: Trace)
    requires WF(t0) && ArgsWithin(args, Defined(t0))
    requires !IsOrderTemplate(c) && !c.CompoundOrderFactory? && CustodyOf(t0).pending.None?
    ensures WF(t)
    ensures Defined(t) == Defined(t0) + {x}
    ensures StageOf(t) == StageOf(t0)
    ensures NoticesOf(t) == NoticesOf(t0)
    ensures RolesOf(t) == RolesOf(t0)
    ensures CustodyOf(t) == CustodyOf(t0)
    ensures Sequence(t) == Sequence(t0) + [Deploy(x, c, args)]
  {
    t := Then(t0, Deploy(x, c, args));
  }

  /** `console.log(`Deployed <c> at <v>`)` for anything but the fund and its proxy. */
  method Logged(t0: Trace, c: Contract, v: Arg) returns (t: Trace)
    requires WF(t0) && ArgWithin(v, Defined(t0)) && !c.BetokenFund? && !c.BetokenProxy?
    ensures WF(t)
    ensures Defined(t) == Defined(t0)
    ensures StageOf(t) == StageOf(t0)
    ensures NoticesOf(t) == NoticesOf(t0)
    ensures RolesOf(t) == RolesOf(t0)
    ensures CustodyOf(t) == CustodyOf(t0)
    ensures Sequence(t) == Sequence(t0) + [Log(c, v)]
  {
    t := Then(t0, Log(c, v));
  }

  /**
   * `await target.fn(args)` for a plain call (`init`, `mint`, `newToken`,
   * `createCloneToken`), neither a fund-protocol call nor a role call, binding
   * `result` when the script keeps a field of the receipt.
   */
  method Sent(t0: Trace, result: Option<Name>, target: Name, fn: Method, args: seq<Arg>, sender: Sender)
    returns (t: Trace)
    requires WF(t0) && target in Defined(t0) && ArgsWithin(args, Defined(t0))
    requires fn.Init? || fn.Mint? || fn.NewToken? || fn.CreateCloneToken?
    requires CustodyOf(t0).pending.None?
    ensures WF(t)
    ensures Defined(t) == if result.Some? then Defined(t0) + {result.value} else Defined(t0)
    ensures StageOf(t) == StageOf(t0)
    ensures NoticesOf(t) == NoticesOf(t0)
    ensures RolesOf(t) == RolesOf(t0)
    ensures CustodyOf(t) == CustodyOf(t0)
    ensures Sequence(t) == Sequence(t0) + [Send(result, target, fn, args, sender)]
  {
    t := Then(t0, Send(result, target, fn, args, sender));
  }

  /** `x = await C.at(address)` for any handle but the fund's, which the fund protocol binds. */
  method Attached(t0: Trace, x: Name, c: Contract, at: Arg) returns (t: Trace)
    requires WF(t0) && ArgWithin(at, Defined(t0)) && x != Fund && CustodyOf(t0).pending.None?
    ensures WF(t)
    ensures Defined(t) == Defined(t0) + {x}
    ensures StageOf(t) == StageOf(t0)
    ensures NoticesOf(t) == NoticesOf(t0)
    ensures RolesOf(t) == RolesOf(t0)
    ensures CustodyOf(t) == CustodyOf(t0)
    ensures Sequence(t) == Sequence(t0) + [Attach(x, c, at)]
  {
    t := Then(t0, Attach(x, c, at));
  }

  /** `C.setAsDeployed(x)` for any artifact but the fund, whose registration is a fund notice. */
  method Registered(t0: Trace, c: Contract, x: Name) returns (t: Trace)
    requires WF(t0) && x in Defined(t0) && !c.BetokenFund?
    ensures WF(t)
    ensures Defined(t) == Defined(t0) + {Registry(c)}
    ensures StageOf(t) == StageOf(t0)
    ensures NoticesOf(t) == NoticesOf(t0)
    ensures RolesOf(t) == RolesOf(t0)
    ensures CustodyOf(t) == CustodyOf(t0)
    ensures Sequence(t) == Sequence(t0) + [Register(c, x)]
  {
    t := Then(t0, Register(c, x));
  }

  /** `await C.deployed()`: the script's handle on the registered instance. */
  method Resolved(t0: Trace, c: Contract) returns (t: Trace)
    requires WF(t0) && Registry(c) in Defined(t0) && CustodyOf(t0).pending.None?
    ensures WF(t)
    ensures Defined(t) == Defined(t0) + {Instance(c)}
    ensures StageOf(t) == StageOf(t0)
    ensures NoticesOf(t) == NoticesOf(t0)
    ensures RolesOf(t) == RolesOf(t0)
    ensures CustodyOf(t) == CustodyOf(t0)
    ensures Sequence(t) == Sequence(t0) + [Resolve(Instance(c), c)]
  {
    t := Then(t0, Resolve(Instance(c), c));
  }

  /** `web3.eth.sendTransaction({ from: accounts[0], to: x, value: wei })`. */
  method Funded(t0: Trace, x: Name, wei: nat) returns (t: Trace)
    requires WF(t0) && Accounts in Defined(t0) && x in Defined(t0) && CustodyOf(t0).pending.None?
    ensures WF(t)
    ensures Defined(t) == Defined(t0)
    ensures StageOf(t) == StageOf(t0)
    ensures NoticesOf(t) == NoticesOf(t0)
    ensures RolesOf(t) == RolesOf(t0)
    ensures CustodyOf(t) == CustodyOf(t0)
    ensures Sequence(t) == Sequence(t0) + [Transfer(x, wei)]
  {
    t := Then(t0, Transfer(x, wei));
  }
}

=== FILE: coffee_js.dfy ===
/**
 * The two CoffeeScript 2.4.1 idioms the fixture's compiled JavaScript uses to
 * build lists, with the JavaScript semantics they compile to: the inclusive
 * range `[a..b]`, which counts down when `b < a`, and the inclusive slice
 * `xs[..k]`, compiled to `xs.slice(0, +k + 1 || 9e9)`, where JavaScript's `||`
 * replaces an end of 0 by 9e9 and `slice` reads a negative end from the back.
 */
module CoffeeJs {
  /** CoffeeScript's inclusive range `[a..b]`. */
  function Range(a: int, b: int): (r: seq<int>)
    ensures |r| == (if a <= b then b - a else a - b) + 1
    ensures forall i | 0 <= i < |r| :: r[i] == if a <= b then a + i else a - i
    decreases if a <= b then b - a else a - b
  {
    if a == b then [a]
    else [a] + Range(if a < b then a + 1 else a - 1, b)
  }

  /**
   * The loop `[from..to]` compiles to: `for (k = from; (from <= to ? k <= to :
   * k >= to); from <= to ? ++k : --k)`, collecting `k`.
   */
  method RangeLoop(from: int, to: int) returns (r: seq<int>)
    ensures r == Range(from, to)
  {
    r := [];
    var k := from;
    while if from <= to then k <= to else k >= to
      invariant if from <= to then from <= k <= to + 1 else to - 1 <= k <= from
      invariant |r| == if from <= to then k - from else from - k
      invariant forall i | 0 <= i < |r| :: r[i] == if from <= to then from + i else from - i
      decreases if from <= to then to - k else k - to
    {
      r := r + [k];
      k := if from <= to then k + 1 else k - 1;
    }
  }

  /** JavaScript's `x || y` on numbers: `y` when `x` is 0. */
  function OrElse(x: int, y: int): int {
    if x == 0 then y else x
  }

  /** `xs.slice(0, end)`: a negative end counts back from the length, and the end is clamped to the list. */
  function SliceTo<T>(xs: seq<T>, end: int): seq<T> {
    var stop := if end < 0 then |xs| + end else end;
    xs[..if stop < 0 then 0 else if stop > |xs| then |xs| else stop]
  }

  /** The literal `9e9` CoffeeScript uses for "to the end". */
  const ToTheEnd: int := 9_000_000_000

  /** CoffeeScript's `xs[..k]`, that is `xs.slice(0, +k + 1 || 9e9)`. */
  function Through<T>(xs: seq<T>, k: int): seq<T> {
    SliceTo(xs, OrElse(k + 1, ToTheEnd))
  }

  /**
   * `xs[..k]` is the first `k + 1` entries for an index inside the list; an
   * index of -1 gives the whole list (9e9 is past any list the fixture
   * builds), and an index below -1 drops `-(k + 1)` entries from the back.
   */
  lemma ThroughKeeps<T>(xs: seq<T>, k: int)
    ensures 0 <= k < |xs| ==> Through(xs, k) == xs[..k + 1]
    ensures k == -1 && |xs| <= ToTheEnd ==> Through(xs, k) == xs
    ensures k < -1 ==> Through(xs, k) == xs[..if |xs| + k + 1 < 0 then 0 else |xs| + k + 1]
  {
  }
}

=== FILE: fixture.dfy ===
/**
 * `truffle-fixture.js`: the whole test environment for `n` entries of
 * `kn_tokens.json`.  Mock tokens, Kyber and Compound come first; then the
 * four order templates, each registered and giving up ownership at once, and
 * CompoundOrderFactory over the mocks; the logic contracts; the PEAK side with
 * its referral token; BetokenFactory; and a fund taken through four init
 * phases and `nextPhase()`, registered last.  Unlike the deployment scripts
 * it registers the mocks it deploys with `new`, the templates, the logic
 * contracts, PeakStaking, PeakReward and the fund, but leaves unregistered the
 * tokens and cTokens made by factories (DAI, the referral token, PEAK among
 * them), the fund template and BetokenFactory; it passes the zero address for
 * 1inch and never renounces the deploying account's signer role.
 */
module Fixture {
  import opened Wrappers
  import opened Steps
  import opened Traces
  import opened FundProtocol
  import opened Roles
  import opened Build
  import opened Views
  import opened MockEnv
  import opened FixtureEnv
  import opened FixtureSections
  import opened SuiteSections
  import opened FundSections

  /** The mock tokens, Kyber network, Compound suite and price oracle, and both mint loops. */
  method MockSuite(n: nat) returns (t: Trace)
    ensures WF(t)
    ensures Accounts in Defined(t) && DaiAddr in Defined(t) && TokenFactory in Defined(t) && Kyber in Defined(t)
    ensures Comptroller in Defined(t) && PriceOracle in Defined(t)
    ensures TokensIn(n, Defined(t)) && CTokensIn(n, Defined(t))
    ensures StageOf(t) == Idle && NoticesOf(t) == []
    ensures RolesOf(t) == [] && CustodyOf(t) == Custody(None, true)
  {
    t := TestTokens(n);
    t := MockKyber(t, n);
    t := CompoundCore(t);
    t := CTokensCreated(t, n);
    t := MockOracle(t, n);
  }

  /** Both mint loops: every underlying to the Kyber mock, then to its own cToken. */
  method Markets(t0: Trace, n: nat) returns (t: Trace)
    requires WF(t0) && TokensIn(n, Defined(t0)) && CTokensIn(n, Defined(t0)) && Kyber in Defined(t0)
    requires CustodyOf(t0).pending.None?
    ensures WF(t)
    ensures Defined(t0) <= Defined(t)
    ensures StageOf(t) == StageOf(t0)
    ensures NoticesOf(t) == NoticesOf(t0)
    ensures RolesOf(t) == RolesOf(t0)
    ensures CustodyOf(t) == CustodyOf(t0)
    ensures Sequence(t) == Sequence(t0) + MintSteps(false, KyberMints(Tokens(n), Ref(Kyber)))
      + MintSteps(true, MarketMints(Tokens(n), CompoundMap(n)))
  {
    t := KyberMinted(t0, n);
    t := MarketsMinted(t, n);
  }

  /**
   * CompoundOrderFactory's arguments after the templates: DAI, Kyber, the
   * comptroller, the price oracle, `compoundTokens[TestDAI.address]`, CEther.
   */
  function OrderFactoryMocks(n: nat): seq<Arg> {
    [Ref(Dai), Ref(Kyber), Ref(Comptroller), Ref(PriceOracle), OrUndefined(Lookup(CompoundMap(n), Ref(Dai))), Ref(CEther)]
  }

  /** The mock arguments read the mocks, and cDAI is the last cToken created. */
  lemma OrderFactoryMocksWithin(n: nat, d: set<Name>)
    requires Templates <= d
    requires Dai in d && Kyber in d && Comptroller in d && PriceOracle in d && CTokensIn(n, d)
    ensures ArgsWithin(TemplateArgs + OrderFactoryMocks(n), d)
  {
    DaiCToken(n);
    var a := TemplateArgs + OrderFactoryMocks(n);
    assert forall i | 4 <= i < |a| :: a[i] == OrderFactoryMocks(n)[i - 4];
  }

  /** The registered MiniMe factory, the four registered templates, and CompoundOrderFactory, registered. */
  method OrderPart(t0: Trace, n: nat) returns (t: Trace)
    requires WF(t0) && Dai in Defined(t0) && Kyber in Defined(t0) && Comptroller in Defined(t0)
    requires PriceOracle in Defined(t0) && CTokensIn(n, Defined(t0))
    requires CustodyOf(t0).pending.None?
    ensures WF(t)
    ensures Defined(t0) + {MiniMe, OrderFactory} <= Defined(t)
    ensures StageOf(t) == StageOf(t0)
    ensures NoticesOf(t) == NoticesOf(t0)
    ensures RolesOf(t) == WithTemplateRoles(RolesOf(t0)) + [OrderFactoryBuilt(TemplateArgs)]
    ensures Signers(RolesOf(t)) == Signers(RolesOf(t0))
    ensures CustodyOf(t) == CustodyOf(t0)
  {
    t := SetAsDeployed(t0, MiniMeTokenFactory);
    t := OrderTemplates(t, true);
    OrderFactoryMocksWithin(n, Defined(t));
    t := BuildOrderFactory(t, OrderFactoryMocks(n));
    t := Registered(t, CompoundOrderFactory, OrderFactory);
  }

  /** The three logic contracts, each registered. */
  method LogicRegistered(t0: Trace) returns (t: Trace)
    requires WF(t0) && CustodyOf(t0).pending.None?
    ensures WF(t)
    ensures Defined(t0) + {Logic, Logic2, Logic3} <= Defined(t)
    ensures StageOf(t) == StageOf(t0)
    ensures NoticesOf(t) == NoticesOf(t0)
    ensures RolesOf(t) == RolesOf(t0)
    ensures CustodyOf(t) == CustodyOf(t0)
    ensures Sequence(t) == Sequence(t0) + [Deploy(Logic, BetokenLogic, [])] + [Register(BetokenLogic, Logic)]
      + [Deploy(Logic2, BetokenLogic2, [])] + [Register(BetokenLogic2, Logic2)]
      + [Deploy(Logic3, BetokenLogic3, [])] + [Register(BetokenLogic3, Logic3)]
  {
    t := DeployedAndRegistered(t0, BetokenLogic, []);
    t := DeployedAndRegistered(t, BetokenLogic2, []);
    t := DeployedAndRegistered(t, BetokenLogic3, []);
  }

  /** Everything before the PEAK side: mocks, mint loops, order suite, logic contracts. */
  method Suite(n: nat) returns (t: Trace)
    ensures WF(t)
    ensures Accounts in Defined(t) && Dai in Defined(t) && DaiAddr in Defined(t) && TokenFactory in Defined(t)
    ensures Kyber in Defined(t) && MiniMe in Defined(t) && OrderFactory in Defined(t)
    ensures Logic in Defined(t) && Logic2 in Defined(t) && Logic3 in Defined(t)
    ensures TokensIn(n, Defined(t)) && CTokensIn(n, Defined(t))
    ensures StageOf(t) == Idle && NoticesOf(t) == []
    ensures RolesOf(t) == WithTemplateRoles([]) + [OrderFactoryBuilt(TemplateArgs)]
    ensures Signers(RolesOf(t)) == {DeployerAccount}
    ensures CustodyOf(t) == Custody(None, true)
  {
    t := MockSuite(n);
    t := Markets(t, n);
    t := OrderPart(t, n);
    t := LogicRegistered(t);
  }

  /** `createCloneToken(ZERO_ADDR, 0, "Peak Referral Token", 18, "PRT", true)`: no parent, a fresh MiniMe token. */
  const ReferralCloneArgs: seq<Arg> :=
    [Address(ZeroAddr), Amount(0), Text("Peak Referral Token"), Amount(18), Text("PRT"), Flag(true)]

  /** `createCloneToken(ZERO_ADDR, 0, "Peak Referral Token", 18, "PRT", true)` on the MiniMe factory, and `MiniMeToken.at` it. */
  method ReferralTokenCreated(t0: Trace) returns (t: Trace)
    requires WF(t0) && MiniMe in Defined(t0) && CustodyOf(t0).pending.None?
    ensures WF(t)
    ensures Defined(t) == Defined(t0) + {ReferralTokenAddr} + {ReferralToken}
    ensures StageOf(t) == StageOf(t0)
    ensures NoticesOf(t) == NoticesOf(t0)
    ensures RolesOf(t) == RolesOf(t0)
    ensures CustodyOf(t) == CustodyOf(t0)
    ensures Sequence(t) == Sequence(t0) + [Send(Some(ReferralTokenAddr), MiniMe, CreateCloneToken, ReferralCloneArgs, Deployer)]
      + [Attach(ReferralToken, MiniMeToken, Ref(ReferralTokenAddr))]
  {
    t := Sent(t0, Some(ReferralTokenAddr), MiniMe, CreateCloneToken, ReferralCloneArgs, Deployer);
    t := Attached(t, ReferralToken, MiniMeToken, Ref(ReferralTokenAddr));
  }

  /** `newToken("MarketPeak", "PEAK", 8)`. */
  const PeakInfo: seq<Arg> := [Text("MarketPeak"), Text("PEAK"), Amount(8)]

  /** `newToken("MarketPeak", "PEAK", 8)` on the token factory, `TestToken.at` it, one billion PEAK to `accounts[0]`. */
  method PeakTokenMinted(t0: Trace) returns (t: Trace)
    requires WF(t0) && TokenFactory in Defined(t0) && Accounts in Defined(t0) && CustodyOf(t0).pending.None?
    ensures WF(t)
    ensures Defined(t) == Defined(t0) + {PeakTokenAddr} + {PeakTokenHandle}
    ensures StageOf(t) == StageOf(t0)
    ensures NoticesOf(t) == NoticesOf(t0)
    ensures RolesOf(t) == RolesOf(t0)
    ensures CustodyOf(t) == CustodyOf(t0)
    ensures Sequence(t) == Sequence(t0) + [Send(Some(PeakTokenAddr), TokenFactory, NewToken, PeakInfo, Deployer)]
      + [Attach(PeakTokenHandle, TestToken, Ref(PeakTokenAddr))]
      + [Send(None, PeakTokenHandle, Method.Mint, [FirstAccount, Amount(PeakSupply)], Deployer)]
  {
    t := NewTokenMinted(t0, PeakTokenAddr, PeakTokenHandle, PeakInfo, PeakSupply);
  }

  /** The registered TestUniswapOracle, the referral token, and the minted PEAK token. */
  method PeakTokens(t0: Trace) returns (t: Trace)
    requires WF(t0) && MiniMe in Defined(t0) && TokenFactory in Defined(t0) && Accounts in Defined(t0)
    requires CustodyOf(t0).pending.None?
    ensures WF(t)
    ensures Defined(t) == Defined(t0) + {Oracle, Registry(TestUniswapOracle)} + {ReferralTokenAddr} + {ReferralToken}
      + {PeakTokenAddr} + {PeakTokenHandle}
    ensures StageOf(t) == StageOf(t0)
    ensures NoticesOf(t) == NoticesOf(t0)
    ensures RolesOf(t) == RolesOf(t0)
    ensures CustodyOf(t) == CustodyOf(t0)
    ensures Sequence(t) == Sequence(t0) + [Deploy(Oracle, TestUniswapOracle, [])] + [Register(TestUniswapOracle, Oracle)]
      + [Send(Some(ReferralTokenAddr), MiniMe, CreateCloneToken, ReferralCloneArgs, Deployer)]
      + [Attach(ReferralToken, MiniMeToken, Ref(ReferralTokenAddr))]
      + [Send(Some(PeakTokenAddr), TokenFactory, NewToken, PeakInfo, Deployer)]
      + [Attach(PeakTokenHandle, TestToken, Ref(PeakTokenAddr))]
      + [Send(None, PeakTokenHandle, Method.Mint, [FirstAccount, Amount(PeakSupply)], Deployer)]
  {
    t := DeployedAndRegistered(t0, TestUniswapOracle, []);
    t := ReferralTokenCreated(t);
    t := PeakTokenMinted(t);
  }

  /** PeakReward's constructor arguments here: `accounts[0]`, staking, PEAK, DAI's address, the Uniswap oracle mock. */
  const RewardArgs: seq<Arg> := [FirstAccount, Ref(Staking), Ref(PeakTokenHandle), Ref(DaiAddr), Ref(Oracle)]

  /**
   * PeakStaking on the PEAK token, registered; the minter grant, sent by the
   * deploying account, before PeakReward exists; then PeakReward, registered,
   * `staking.init(reward)` and `reward.addSigner(staking)`.
   */
  method PeakRoles(t0: Trace) returns (t: Trace)
    requires WF(t0) && PeakTokenHandle in Defined(t0) && Accounts in Defined(t0) && DaiAddr in Defined(t0)
    requires Oracle in Defined(t0) && CustodyOf(t0).pending.None?
    ensures WF(t)
    ensures Defined(t0) + {Staking, Reward} <= Defined(t)
    ensures StageOf(t) == StageOf(t0)
    ensures NoticesOf(t) == NoticesOf(t0)
    ensures RolesOf(t) == RolesOf(t0) + [MinterAdded(PeakTokenHandle, Holder(Staking), Deployer)] + [SignerAdded(Holder(Staking))]
    ensures Signers(RolesOf(t)) == Signers(RolesOf(t0)) + {Holder(Staking)}
    ensures CustodyOf(t) == CustodyOf(t0)
    ensures Sequence(t) == Sequence(t0)
      + [Deploy(Staking, PeakStaking, [Ref(PeakTokenHandle)])] + [Register(PeakStaking, Staking)]
      + [Send(None, PeakTokenHandle, AddMinter, [Ref(Staking)], Deployer)]
      + [Deploy(Reward, PeakReward, RewardArgs)] + [Register(PeakReward, Reward)]
      + [Send(None, Staking, Init, [Ref(Reward)], Deployer)] + [Send(None, Reward, AddSigner, [Ref(Staking)], Deployer)]
  {
    t := DeployedAndRegistered(t0, PeakStaking, [Ref(PeakTokenHandle)]);
    t := MinterGranted(t, PeakTokenHandle, Deployer);
    t := DeployedAndRegistered(t, PeakReward, RewardArgs);
    t := Sent(t, None, Staking, Init, [Ref(Reward)], Deployer);
    t := SignerGranted(t, Staking);
  }

  /** The fund template, then BetokenFactory on the mocks, with the zero address for 1inch, joining the signers. */
  method FactoryPart(t0: Trace) returns (t: Trace)
    requires WF(t0) && Dai in Defined(t0) && Kyber in Defined(t0)
    requires Logic in Defined(t0) && Logic2 in Defined(t0) && Logic3 in Defined(t0)
    requires Reward in Defined(t0) && Staking in Defined(t0) && MiniMe in Defined(t0)
    requires CustodyOf(t0).pending.None?
    ensures WF(t)
    ensures Defined(t0) + {Factory} <= Defined(t)
    ensures StageOf(t) == StageOf(t0)
    ensures NoticesOf(t) == NoticesOf(t0)
    ensures RolesOf(t) == RolesOf(t0) + [SignerAdded(Holder(Factory))]
    ensures Signers(RolesOf(t)) == Signers(RolesOf(t0)) + {Holder(Factory)}
    ensures CustodyOf(t) == CustodyOf(t0)
    ensures Sequence(t) == Sequence(t0) + [Deploy(FundTemplate, BetokenFund, [])]
      + [Deploy(Factory, BetokenFactory, FactoryArgs(Ref(Dai), Ref(Kyber), Address(ZeroAddr)))]
      + [Send(None, Reward, AddSigner, [Ref(Factory)], Deployer)]
  {
    t := Deployed(t0, FundTemplate, BetokenFund, []);
    FactoryArgsWithin(Ref(Dai), Ref(Kyber), Address(ZeroAddr), Defined(t));
    t := FactoryAndSigner(t, FactoryArgs(Ref(Dai), Ref(Kyber), Address(ZeroAddr)));
  }

  /** `initFund3`'s settings here: the configured amounts, and `false` for "permissioned". */
  const ManagerSettings: seq<Arg> :=
    [Config(NEW_MANAGER_KAIRO), Config(MAX_NEW_MANAGERS_PER_CYCLE), Config(KAIRO_PRICE),
     Config(PEAK_MANAGER_STAKE_REQUIRED), Flag(false)]

  /** `initFund4`'s settings here: `accounts[0]` as developer, and CompoundOrderFactory. */
  const DevSettings: seq<Arg> := [FirstAccount, Config(DevFundingRate), Config(PhaseLengths), Ref(OrderFactory)]

  /** The four `initFund<p>` argument lists after the fund. */
  function FixturePhases(n: nat): seq<seq<Arg>> {
    [ShareTokenNames, [Array(FundTokenList(n)), Array(FundCTokenList(n))], ManagerSettings, DevSettings]
  }

  lemma FixturePhasesWithin(n: nat, d: set<Name>)
    requires TokensIn(n, d) && CTokensIn(n, d) && Accounts in d && OrderFactory in d
    ensures forall i | 0 <= i < |FixturePhases(n)| :: ArgsWithin(FixturePhases(n)[i], d)
  {
    FundListsWithin(n, d);
  }

  /** The fund: preview, commit, bind, four init phases, `nextPhase()`, then `BetokenFund.setAsDeployed(fund)`. */
  method FundPart(t0: Trace, n: nat) returns (t: Trace)
    requires WF(t0) && Factory in Defined(t0) && TokensIn(n, Defined(t0)) && CTokensIn(n, Defined(t0))
    requires Accounts in Defined(t0) && OrderFactory in Defined(t0)
    requires StageOf(t0) == Idle && CustodyOf(t0).pending.None?
    ensures WF(t)
    ensures StageOf(t) == Advanced(4)
    ensures NoticesOf(t) == NoticesOf(t0) + [Advanced(4)]
    ensures RolesOf(t) == RolesOf(t0)
    ensures CustodyOf(t) == CustodyOf(t0)
    ensures Registry(BetokenFund) in Defined(t)
    ensures Length(t) > 0 && Sequence(t)[Length(t) - 1] == Register(BetokenFund, Fund)
  {
    t := FundCreated(t0);
    FixturePhasesWithin(n, Defined(t));
    t := InitPhases(t, FixturePhases(n));
    t := AdvancePhase(t, 4);
    t := FundRegistered(t);
  }

  /**
   * The whole fixture.  Its protocol calls are exactly preview, commit,
   * bind, `initFund1..4` and `nextPhase()`, and the fund's registration comes
   * after all of them; the template and order-factory events come first, then
   * the minter grant, then PeakStaking and BetokenFactory join the signers,
   * and the deploying account stays one; every order template gives up
   * ownership as the very next awaited step after its deployment.
   */
  method Script(n: nat) returns (t: Trace)
    ensures WF(t)
    ensures Events(Sequence(t)) == Protocol(4, true)
    ensures forall i | 0 <= i < Length(t) && IsNotice(Sequence(t)[i]) :: Events(Sequence(t)[..i]) == Protocol(4, true)
    ensures RolesOf(t) ==
      WithTemplateRoles([]) + [OrderFactoryBuilt(TemplateArgs)]
      + [MinterAdded(PeakTokenHandle, Holder(Staking), Deployer)] + [SignerAdded(Holder(Staking))]
      + [SignerAdded(Holder(Factory))]
    ensures Signers(RolesOf(t)) == {DeployerAccount, Holder(Staking), Holder(Factory)}
    ensures RenouncedRightAfter(AwaitedSteps(Sequence(t)))
    ensures NoticesOf(t) == [Advanced(4)]
    ensures Registry(BetokenFund) in Defined(t)
    ensures Length(t) > 0 && Sequence(t)[Length(t) - 1] == Register(BetokenFund, Fund)
  {
    t := Suite(n);
    t := PeakTokens(t);
    t := PeakRoles(t);
    t := FactoryPart(t);
    t := FundPart(t, n);
    ProtocolBeforeNotices(t, 4, true);
    CustodyKept(t);
  }
}

=== FILE: fixture_env.dfy ===
/**
 * The test fixture's lists as script arguments: the generic lists of `MockEnv`
 * taken over `Arg`, with the token addresses the fixture binds.  `n` is the
 * length of `kn_tokens.json`.  A lookup that misses becomes JavaScript's
 * `undefined`.
 */
module FixtureEnv {
  import opened Wrappers
  import opened Steps
  import opened MockEnv

  /** `ETH_ADDR`, the sentinel address that stands for ether. */
  const EthAddr: string := "0xEeeeeEeeeEeEeeEeEeEeeEEEeeeeEeeeeeeeEEeE"
  const Eth: Arg := Address(EthAddr)

  const TokenFactory := Instance(TestTokenFactory)
  const CTokenFactory := Instance(TestCERC20Factory)
  const Kyber := Instance(TestKyberNetwork)
  const Comptroller := Instance(TestComptroller)
  const CEther := Instance(TestCEther)
  const PriceOracle := Instance(TestPriceOracle)

  /** The addresses `newToken` returned for the entries of `kn_tokens.json`. */
  function Configured(n: nat): (c: seq<Arg>)
    ensures |c| == n && forall j | 0 <= j < n :: c[j] == Ref(TokenAddr(j))
  {
    seq(n, (j: nat) => Ref(TokenAddr(j)))
  }

  /** The cTokens the cToken factory returned, one per underlying. */
  function Created(n: nat): (c: seq<Arg>)
    ensures |c| == n + 1 && forall k | 0 <= k < n + 1 :: c[k] == Ref(CTokenAddr(k))
  {
    seq(n + 1, (k: nat) => Ref(CTokenAddr(k)))
  }

  /** `tokenAddrs`. */
  function Tokens(n: nat): seq<Arg> {
    TokenAddrs(Configured(n), Ref(Dai), Eth)
  }

  /** JavaScript's value for a lookup: the entry, or `undefined`. */
  function OrUndefined(o: Option<Arg>): Arg {
    if o.Some? then o.value else Undefined
  }

  function OrUndefinedAll(os: seq<Option<Arg>>): (r: seq<Arg>)
    ensures |r| == |os|
  {
    seq(|os|, i requires 0 <= i < |os| => OrUndefined(os[i]))
  }

  /** `tokenPrices`, the amounts as arguments. */
  function Prices(n: nat): (r: seq<Arg>)
    ensures |r| == |TokenPrices(n)|
  {
    seq(|TokenPrices(n)|, i requires 0 <= i < |TokenPrices(n)| => Amount(TokenPrices(n)[i]))
  }

  /** The bound addresses are all different, so the token list has no repeated entry. */
  lemma TokensDistinct(n: nat)
    ensures Env(Configured(n), Ref(Dai), Eth)
  {
    var t := Tokens(n);
    forall i, j | 0 <= i < j < |t| ensures t[i] != t[j] {
      TokenAddrsLayout(Configured(n), Ref(Dai), Eth);
    }
  }

  lemma UnderlyingCount(n: nat)
    ensures Underlyings(Tokens(n)) == Configured(n) + [Ref(Dai)]
    ensures |Created(n)| == |Underlyings(Tokens(n))|
  {
    UnderlyingsAreAllButEth(Configured(n), Ref(Dai), Eth);
  }

  /** `compoundTokens`. */
  function CompoundMap(n: nat): map<Arg, Arg> {
    UnderlyingCount(n);
    CompoundTokens(Tokens(n), Created(n), Eth, Ref(CEther))
  }

  /** The price oracle's cToken list. */
  function OracleList(n: nat): seq<Arg> {
    OrUndefinedAll(OracleCTokens(CompoundMap(n), Tokens(n)))
  }

  /** `initFund2`'s token list. */
  function FundTokenList(n: nat): seq<Arg> {
    FundTokens(Tokens(n), Eth)
  }

  /** `initFund2`'s cToken list, `compoundTokensArray`. */
  function FundCTokenList(n: nat): seq<Arg> {
    OrUndefinedAll(FundCTokens(Tokens(n), CompoundMap(n), Ref(CEther)))
  }

  /** The configured tokens and DAI are bound in `d`. */
  predicate TokensIn(n: nat, d: set<Name>) {
    (forall j | 0 <= j < n :: TokenAddr(j) in d) && Dai in d
  }

  /** Every cToken and CEther are bound in `d`. */
  predicate CTokensIn(n: nat, d: set<Name>) {
    (forall k | 0 <= k < n + 1 :: CTokenAddr(k) in d) && CEther in d
  }

  /** The oracle gets `cToken(k)` for each token but ETH, in token order, and CEther for ETH: no entry is `undefined`. */
  lemma {:induction false} OracleListAligned(n: nat)
    ensures |OracleList(n)| == n + 2
    ensures forall k | 0 <= k < n + 1 :: OracleList(n)[k] == Ref(CTokenAddr(k))
    ensures OracleList(n)[n + 1] == Ref(CEther)
  {
    TokensDistinct(n);
    OracleCTokensAligned(Configured(n), Ref(Dai), Eth, Created(n), Ref(CEther));
  }

  /** `compoundTokens[TestDAI.address]`, the cDAI handed to CompoundOrderFactory, is the last cToken created. */
  lemma {:induction false} DaiCToken(n: nat)
    ensures Lookup(CompoundMap(n), Ref(Dai)) == Some(Ref(CTokenAddr(n)))
  {
    TokensDistinct(n);
    CompoundTokensContents(Configured(n), Ref(Dai), Eth, Created(n), Ref(CEther));
    TokenAddrsLayout(Configured(n), Ref(Dai), Eth);
  }

  /**
   * With at least one configured token the fund gets the configured tokens
   * and ETH, and cTokens `0..n-1` and CEther; with none it gets DAI, ETH, ETH
   * and cDAI, CEther, CEther.
   */
  lemma {:induction false} FundListsOf(n: nat)
    ensures n >= 1 ==> FundTokenList(n) == Configured(n) + [Eth]
    ensures n >= 1 ==>
      |FundCTokenList(n)| == n + 1
      && (forall k | 0 <= k < n :: FundCTokenList(n)[k] == Ref(CTokenAddr(k)))
      && FundCTokenList(n)[n] == Ref(CEther)
    ensures n == 0 ==> FundTokenList(n) == [Ref(Dai), Eth, Eth]
    ensures n == 0 ==> FundCTokenList(n) == [Ref(CTokenAddr(0)), Ref(CEther), Ref(CEther)]
  {
    TokensDistinct(n);
    if n >= 1 {
      FundListsAligned(Configured(n), Ref(Dai), Eth, Created(n), Ref(CEther));
    } else {
      assert Configured(0) == [] && Created(0) == [Ref(CTokenAddr(0))];
      FundListsAtZero(Ref(Dai), Eth, Ref(CTokenAddr(0)), Ref(CEther));
    }
  }

  /**
   * The Kyber mock's price list: with configured tokens, one price per entry of
   * `tokenAddrs`, `10·PRECISION` for each configured token, `PRECISION` for
   * DAI and `20·PRECISION` for ETH; with none, four prices for two tokens.
   */
  lemma {:induction false} PricesOf(n: nat)
    ensures n >= 1 ==>
      |Prices(n)| == |Tokens(n)| == n + 2
      && (forall i | 0 <= i < n :: Prices(n)[i] == Amount(10 * PRECISION))
      && Prices(n)[n] == Amount(PRECISION) && Prices(n)[n + 1] == Amount(20 * PRECISION)
    ensures n == 0 ==>
      |Tokens(n)| == 2
      && Prices(n) == [Amount(10 * PRECISION), Amount(10 * PRECISION), Amount(PRECISION), Amount(20 * PRECISION)]
  {
    if n >= 1 {
      PricesAligned(Configured(n), Ref(Dai), Eth);
    } else {
      PricesAtZero(Ref(Dai), Eth);
      assert Configured(0) == [];
    }
  }

  /**
   * The two mint loops' lists: entry `l` mints one trillion of token `l` of
   * `tokenAddrs` (a configured token, or DAI at `n`) to the Kyber mock, and
   * to cToken `l`.
   */
  lemma {:induction false} MintListsOf(n: nat)
    ensures |KyberMints(Tokens(n), Ref(Kyber))| == |MarketMints(Tokens(n), CompoundMap(n))| == n + 1
    ensures forall l | 0 <= l < n + 1 ::
      KyberMints(Tokens(n), Ref(Kyber))[l] == MockEnv.Mint(Tokens(n)[l], Some(Ref(Kyber)), MintAmount)
      && MarketMints(Tokens(n), CompoundMap(n))[l] == MockEnv.Mint(Tokens(n)[l], Some(Ref(CTokenAddr(l))), MintAmount)
    ensures forall l | 0 <= l < n :: Tokens(n)[l] == Ref(TokenAddr(l))
    ensures Tokens(n)[n] == Ref(Dai)
  {
    TokensDistinct(n);
    UnderlyingCount(n);
    MintTargets(Configured(n), Ref(Dai), Eth, Created(n), Ref(CEther), Ref(Kyber));
    TokenAddrsLayout(Configured(n), Ref(Dai), Eth);
  }

  // ------------------------------------------------- what the lists read

  lemma TokensWithin(n: nat, d: set<Name>)
    requires TokensIn(n, d)
    ensures ArgsWithin(Tokens(n), d)
    ensures ArgsWithin(Underlyings(Tokens(n)), d)
  {
    TokenAddrsLayout(Configured(n), Ref(Dai), Eth);
    UnderlyingCount(n);
  }

  lemma OracleListWithin(n: nat, d: set<Name>)
    requires CTokensIn(n, d)
    ensures ArgsWithin(OracleList(n), d)
  {
    OracleListAligned(n);
  }

  lemma FundListsWithin(n: nat, d: set<Name>)
    requires TokensIn(n, d) && CTokensIn(n, d)
    ensures ArgsWithin(FundTokenList(n), d) && ArgsWithin(FundCTokenList(n), d)
  {
    FundListsOf(n);
  }
}

=== FILE: fixture_sections.dfy ===
/**
 * The blocks of the test fixture: the mock token factory and DAI, one token
 * per entry of `kn_tokens.json`, the mock Kyber network, the mock Compound
 * suite with one cToken per underlying, the mock price oracle, and the two
 * mint loops.  Every loop reads only the list it walks and what earlier
 * blocks bound.
 */
module FixtureSections {
  import opened Wrappers
  import opened Steps
  import opened Traces
  import opened FundProtocol
  import opened Roles
  import opened Build
  import opened MockEnv
  import opened FixtureEnv

  /** `C.setAsDeployed(await C.new())`, then `await C.deployed()`. */
  method SetAsDeployed(t0: Trace, c: Contract) returns (t: Trace)
    requires WF(t0) && CustodyOf(t0).pending.None?
    requires !IsOrderTemplate(c) && !c.CompoundOrderFactory? && !c.BetokenFund?
    ensures WF(t)
    ensures Defined(t) == Defined(t0) + {Unnamed(c), Registry(c), Instance(c)}
    ensures StageOf(t) == StageOf(t0)
    ensures NoticesOf(t) == NoticesOf(t0)
    ensures RolesOf(t) == RolesOf(t0)
    ensures CustodyOf(t) == CustodyOf(t0)
    ensures Sequence(t) == Sequence(t0) + [Deploy(Unnamed(c), c, [])] + [Register(c, Unnamed(c))] + [Resolve(Instance(c), c)]
  {
    t := Deployed(t0, Unnamed(c), c, []);
    t := Registered(t, c, Unnamed(c));
    t := Resolved(t, c);
  }

  /** `x = await C.new(args)`, then `C.setAsDeployed(x)`. */
  method DeployedAndRegistered(t0: Trace, c: Contract, args: seq<Arg>) returns (t: Trace)
    requires WF(t0) && ArgsWithin(args, Defined(t0)) && CustodyOf(t0).pending.None?
    requires !IsOrderTemplate(c) && !c.CompoundOrderFactory? && !c.BetokenFund?
    ensures WF(t)
    ensures Defined(t) == Defined(t0) + {Instance(c), Registry(c)}
    ensures StageOf(t) == StageOf(t0)
    ensures NoticesOf(t) == NoticesOf(t0)
    ensures RolesOf(t) == RolesOf(t0)
    ensures CustodyOf(t) == CustodyOf(t0)
    ensures Sequence(t) == Sequence(t0) + [Deploy(Instance(c), c, args)] + [Register(c, Instance(c))]
  {
    t := Deployed(t0, Instance(c), c, args);
    t := Registered(t, c, Instance(c));
  }

  /**
   * `addr = (await tokenFactory.newToken(info...)).logs[0].args.addr`,
   * `handle = await TestToken.at(addr)`, then `handle.mint(accounts[0], amount)`.
   */
  method NewTokenMinted(t0: Trace, addr: Name, handle: Name, info: seq<Arg>, amount: nat) returns (t: Trace)
    requires WF(t0) && TokenFactory in Defined(t0) && Accounts in Defined(t0) && ArgsWithin(info, Defined(t0)) && handle != Fund
    requires CustodyOf(t0).pending.None?
    ensures WF(t)
    ensures Defined(t) == Defined(t0) + {addr} + {handle}
    ensures StageOf(t) == StageOf(t0)
    ensures NoticesOf(t) == NoticesOf(t0)
    ensures RolesOf(t) == RolesOf(t0)
    ensures CustodyOf(t) == CustodyOf(t0)
    ensures Sequence(t) == Sequence(t0) + [Send(Some(addr), TokenFactory, NewToken, info, Deployer)]
      + [Attach(handle, TestToken, Ref(addr))] + [Send(None, handle, Method.Mint, [FirstAccount, Amount(amount)], Deployer)]
  {
    t := Sent(t0, Some(addr), TokenFactory, NewToken, info, Deployer);
    t := Attached(t, handle, TestToken, Ref(addr));
    assert Accounts in Defined(t);
    t := Sent(t, None, handle, Method.Mint, [FirstAccount, Amount(amount)], Deployer);
  }

  /** Ten million DAI, `1e7 * PRECISION`. */
  const DaiSupply: nat := 10_000_000 * PRECISION

  /** `newToken("DAI Stable Coin", "DAI", 18)`. */
  const DaiInfo: seq<Arg> := [Text("DAI Stable Coin"), Text("DAI"), Amount(18)]

  /** `newToken("DAI Stable Coin", "DAI", 18)`, `TestToken.at` its address, and ten million DAI to `accounts[0]`. */
  method DaiMinted(t0: Trace) returns (t: Trace)
    requires WF(t0) && TokenFactory in Defined(t0) && Accounts in Defined(t0) && CustodyOf(t0).pending.None?
    ensures WF(t)
    ensures Defined(t) == Defined(t0) + {DaiAddr} + {Dai}
    ensures StageOf(t) == StageOf(t0)
    ensures NoticesOf(t) == NoticesOf(t0)
    ensures RolesOf(t) == RolesOf(t0)
    ensures CustodyOf(t) == CustodyOf(t0)
    ensures Sequence(t) == Sequence(t0) + [Send(Some(DaiAddr), TokenFactory, NewToken, DaiInfo, Deployer)]
      + [Attach(Dai, TestToken, Ref(DaiAddr))] + [Send(None, Dai, Method.Mint, [FirstAccount, Amount(DaiSupply)], Deployer)]
  {
    t := NewTokenMinted(t0, DaiAddr, Dai, DaiInfo, DaiSupply);
  }

  /** `newToken(tokensInfo[j].name, tokensInfo[j].symbol, tokensInfo[j].decimals)`, its address kept as the `j`-th token. */
  function TokenStep(j: nat): Step {
    Send(Some(TokenAddr(j)), TokenFactory, NewToken, [Listed(j, TokenName), Listed(j, TokenSymbol), Listed(j, TokenDecimals)], Deployer)
  }

  /** The first `n` iterations of the loop over `tokensInfo`, in order. */
  function TokenSteps(n: nat): seq<Step> {
    if n == 0 then [] else TokenSteps(n - 1) + [TokenStep(n - 1)]
  }

  /** Step `j` of the token loop creates the token from `tokensInfo[j]` and keeps it as `TokenAddr(j)`. */
  lemma {:induction false} TokenStepsAt(n: nat)
    ensures |TokenSteps(n)| == n
    ensures forall j | 0 <= j < n :: TokenSteps(n)[j] == TokenStep(j)
  {
    if n > 0 {
      TokenStepsAt(n - 1);
      assert forall j | 0 <= j < n - 1 :: TokenSteps(n)[j] == TokenSteps(n - 1)[j];
    }
  }

  /** Iteration `j` of the token loop: after the first `j` iterations, the trace holds the first `j + 1`. */
  method TokenIteration(t0: Trace, s0: seq<Step>, j: nat) returns (t: Trace)
    requires WF(t0) && TokenFactory in Defined(t0) && CustodyOf(t0).pending.None?
    requires Sequence(t0) == s0 + TokenSteps(j) && forall i | 0 <= i < j :: TokenAddr(i) in Defined(t0)
    ensures WF(t)
    ensures Defined(t) == Defined(t0) + {TokenAddr(j)}
    ensures forall i | 0 <= i < j + 1 :: TokenAddr(i) in Defined(t)
    ensures StageOf(t) == StageOf(t0) && NoticesOf(t) == NoticesOf(t0)
    ensures RolesOf(t) == RolesOf(t0) && CustodyOf(t) == CustodyOf(t0)
    ensures Sequence(t) == s0 + TokenSteps(j + 1)
  {
    t := TokenCreated(t0, j);
  }

  /** `newToken(tokensInfo[j].name, tokensInfo[j].symbol, tokensInfo[j].decimals)`, keeping the returned address. */
  method TokenCreated(t0: Trace, j: nat) returns (t: Trace)
    requires WF(t0) && TokenFactory in Defined(t0) && CustodyOf(t0).pending.None?
    ensures WF(t)
    ensures Defined(t) == Defined(t0) + {TokenAddr(j)}
    ensures StageOf(t) == StageOf(t0)
    ensures NoticesOf(t) == NoticesOf(t0)
    ensures RolesOf(t) == RolesOf(t0)
    ensures CustodyOf(t) == CustodyOf(t0)
    ensures Sequence(t) == Sequence(t0)
      + [Send(Some(TokenAddr(j)), TokenFactory, NewToken, [Listed(j, TokenName), Listed(j, TokenSymbol), Listed(j, TokenDecimals)], Deployer)]
  {
    t := Sent(t0, Some(TokenAddr(j)), TokenFactory, NewToken,
      [Listed(j, TokenName), Listed(j, TokenSymbol), Listed(j, TokenDecimals)], Deployer);
  }

  /** The loop over `tokensInfo`: `newToken(name, symbol, decimals)` for each entry, keeping the returned address. */
  method TokensCreated(t0: Trace, n: nat) returns (t: Trace)
    requires WF(t0) && TokenFactory in Defined(t0) && CustodyOf(t0).pending.None?
    ensures WF(t)
    ensures Defined(t0) <= Defined(t)
    ensures forall j | 0 <= j < n :: TokenAddr(j) in Defined(t)
    ensures StageOf(t) == StageOf(t0)
    ensures NoticesOf(t) == NoticesOf(t0)
    ensures RolesOf(t) == RolesOf(t0)
    ensures CustodyOf(t) == CustodyOf(t0)
    ensures Sequence(t) == Sequence(t0) + TokenSteps(n)
  {
    t := t0;
    var j := 0;
    while j < n
      invariant j <= n
      invariant WF(t) && Defined(t0) <= Defined(t)
      invariant forall i | 0 <= i < j :: TokenAddr(i) in Defined(t)
      invariant StageOf(t) == StageOf(t0) && NoticesOf(t) == NoticesOf(t0)
      invariant RolesOf(t) == RolesOf(t0) && CustodyOf(t) == CustodyOf(t0)
      invariant Sequence(t) == Sequence(t0) + TokenSteps(j)
    {
      t := TokenIteration(t, Sequence(t0), j);
      j := j + 1;
    }
  }

  /** The accounts, the registered token factory, DAI with its ten million, then the configured tokens. */
  method TestTokens(n: nat) returns (t: Trace)
    ensures WF(t)
    ensures Accounts in Defined(t) && DaiAddr in Defined(t) && TokenFactory in Defined(t) && TokensIn(n, Defined(t))
    ensures StageOf(t) == Idle && NoticesOf(t) == []
    ensures RolesOf(t) == [] && CustodyOf(t) == Custody(None, true)
  {
    t := Then(Empty, GetAccounts(Accounts));
    t := SetAsDeployed(t, TestTokenFactory);
    t := DaiMinted(t);
    t := TokensCreated(t, n);
  }

  /** One ether, `1 * PRECISION` wei. */
  const OneEther: nat := PRECISION

  /** `TestKyberNetwork.new(tokenAddrs, tokenPrices)`, registered, then one ether sent to it. */
  method MockKyber(t0: Trace, n: nat) returns (t: Trace)
    requires WF(t0) && Accounts in Defined(t0) && TokensIn(n, Defined(t0)) && CustodyOf(t0).pending.None?
    ensures WF(t)
    ensures Defined(t) == Defined(t0) + {Kyber, Registry(TestKyberNetwork)}
    ensures StageOf(t) == StageOf(t0)
    ensures NoticesOf(t) == NoticesOf(t0)
    ensures RolesOf(t) == RolesOf(t0)
    ensures CustodyOf(t) == CustodyOf(t0)
    ensures Sequence(t) == Sequence(t0) + [Deploy(Kyber, TestKyberNetwork, [Array(Tokens(n)), Array(Prices(n))])]
      + [Register(TestKyberNetwork, Kyber)] + [Transfer(Kyber, OneEther)]
  {
    TokensWithin(n, Defined(t0));
    t := DeployedAndRegistered(t0, TestKyberNetwork, [Array(Tokens(n)), Array(Prices(n))]);
    t := Funded(t, Kyber, OneEther);
  }

  /** TestComptroller, the registered cToken factory, TestCEther on the comptroller with one ether. */
  method CompoundCore(t0: Trace) returns (t: Trace)
    requires WF(t0) && Accounts in Defined(t0) && CustodyOf(t0).pending.None?
    ensures WF(t)
    ensures Defined(t0) <= Defined(t)
    ensures Comptroller in Defined(t) && CTokenFactory in Defined(t) && CEther in Defined(t)
    ensures StageOf(t) == StageOf(t0)
    ensures NoticesOf(t) == NoticesOf(t0)
    ensures RolesOf(t) == RolesOf(t0)
    ensures CustodyOf(t) == CustodyOf(t0)
  {
    t := DeployedAndRegistered(t0, TestComptroller, []);
    t := SetAsDeployed(t, TestCERC20Factory);
    t := DeployedAndRegistered(t, TestCEther, [Ref(Comptroller)]);
    t := Funded(t, CEther, OneEther);
  }

  /** `newToken(token, comptroller)` on the cToken factory, its cToken kept as the `k`-th. */
  function CTokenStep(k: nat, token: Arg): Step {
    Send(Some(CTokenAddr(k)), CTokenFactory, NewToken, [token, Ref(Comptroller)], Deployer)
  }

  /** The cToken loop over the underlyings `u`: one `newToken` per underlying, in order. */
  function CTokenSteps(u: seq<Arg>): seq<Step>
    decreases |u|
  {
    if |u| == 0 then [] else CTokenSteps(u[..|u| - 1]) + [CTokenStep(|u| - 1, u[|u| - 1])]
  }

  /** Step `k` of the cToken loop creates `CTokenAddr(k)` for the `k`-th underlying and no other. */
  lemma {:induction false} CTokenStepsAt(u: seq<Arg>)
    ensures |CTokenSteps(u)| == |u|
    ensures forall k | 0 <= k < |u| :: CTokenSteps(u)[k] == CTokenStep(k, u[k])
    decreases |u|
  {
    if |u| > 0 {
      var init := u[..|u| - 1];
      CTokenStepsAt(init);
      assert forall k | 0 <= k < |init| :: CTokenSteps(u)[k] == CTokenSteps(init)[k] && init[k] == u[k];
    }
  }

  /** Appending iteration `k` to the first `k` iterations of the cToken loop. */
  lemma CTokenStepsSnoc(s0: seq<Step>, u: seq<Arg>, k: nat)
    requires k < |u|
    ensures s0 + CTokenSteps(u[..k]) + [CTokenStep(k, u[k])] == s0 + CTokenSteps(u[..k + 1])
  {
    assert u[..k + 1][..k] == u[..k];
  }

  /** `compoundTokens[token] = newToken(token, comptroller).cToken`, the `k`-th cToken created. */
  method CTokenCreated(t0: Trace, k: nat, token: Arg) returns (t: Trace)
    requires WF(t0) && ArgWithin(token, Defined(t0)) && CTokenFactory in Defined(t0) && Comptroller in Defined(t0)
    requires CustodyOf(t0).pending.None?
    ensures WF(t)
    ensures Defined(t) == Defined(t0) + {CTokenAddr(k)}
    ensures StageOf(t) == StageOf(t0)
    ensures NoticesOf(t) == NoticesOf(t0)
    ensures RolesOf(t) == RolesOf(t0)
    ensures CustodyOf(t) == CustodyOf(t0)
    ensures Sequence(t) == Sequence(t0) + [Send(Some(CTokenAddr(k)), CTokenFactory, NewToken, [token, Ref(Comptroller)], Deployer)]
  {
    t := Sent(t0, Some(CTokenAddr(k)), CTokenFactory, NewToken, [token, Ref(Comptroller)], Deployer);
  }

  /** Iteration `k` of the cToken loop: after the first `k` iterations, the trace holds the first `k + 1`. */
  method CTokenIteration(t0: Trace, s0: seq<Step>, u: seq<Arg>, k: nat) returns (t: Trace)
    requires k < |u| && WF(t0) && ArgWithin(u[k], Defined(t0)) && CTokenFactory in Defined(t0) && Comptroller in Defined(t0)
    requires CustodyOf(t0).pending.None? && Sequence(t0) == s0 + CTokenSteps(u[..k])
    requires forall i | 0 <= i < k :: CTokenAddr(i) in Defined(t0)
    ensures WF(t)
    ensures Defined(t) == Defined(t0) + {CTokenAddr(k)}
    ensures forall i | 0 <= i < k + 1 :: CTokenAddr(i) in Defined(t)
    ensures StageOf(t) == StageOf(t0) && NoticesOf(t) == NoticesOf(t0)
    ensures RolesOf(t) == RolesOf(t0) && CustodyOf(t) == CustodyOf(t0)
    ensures Sequence(t) == s0 + CTokenSteps(u[..k + 1])
  {
    CTokenStepsSnoc(s0, u, k);
    t := CTokenCreated(t0, k, u[k]);
  }

  /**
   * The loop over `tokenAddrs[..tokenAddrs.length - 2]`: `newToken(token,
   * comptroller)` on the cToken factory for each underlying, keeping the cToken.
   */
  method CTokensCreated(t0: Trace, n: nat) returns (t: Trace)
    requires WF(t0) && TokensIn(n, Defined(t0)) && CTokenFactory in Defined(t0) && Comptroller in Defined(t0)
    requires CustodyOf(t0).pending.None?
    ensures WF(t)
    ensures Defined(t0) <= Defined(t)
    ensures forall k | 0 <= k < n + 1 :: CTokenAddr(k) in Defined(t)
    ensures StageOf(t) == StageOf(t0)
    ensures NoticesOf(t) == NoticesOf(t0)
    ensures RolesOf(t) == RolesOf(t0)
    ensures CustodyOf(t) == CustodyOf(t0)
    ensures Sequence(t) == Sequence(t0) + CTokenSteps(Underlyings(Tokens(n)))
  {
    var u := Underlyings(Tokens(n));
    UnderlyingCount(n);
    TokensWithin(n, Defined(t0));
    t := t0;
    var k := 0;
    while k < |u|
      invariant k <= |u|
      invariant WF(t) && Defined(t0) <= Defined(t)
      invariant forall i | 0 <= i < k :: CTokenAddr(i) in Defined(t)
      invariant StageOf(t) == StageOf(t0) && NoticesOf(t) == NoticesOf(t0)
      invariant RolesOf(t) == RolesOf(t0) && CustodyOf(t) == CustodyOf(t0)
      invariant Sequence(t) == Sequence(t0) + CTokenSteps(u[..k])
    {
      ArgWithinGrows(u[k], Defined(t0), Defined(t));
      t := CTokenIteration(t, Sequence(t0), u, k);
      k := k + 1;
    }
    assert u[..k] == u;
  }

  /** `TestPriceOracle.new(compoundTokenAddrs, tokenPrices, cEther)`, registered. */
  method MockOracle(t0: Trace, n: nat) returns (t: Trace)
    requires WF(t0) && CTokensIn(n, Defined(t0)) && CustodyOf(t0).pending.None?
    ensures WF(t)
    ensures Defined(t) == Defined(t0) + {PriceOracle, Registry(TestPriceOracle)}
    ensures StageOf(t) == StageOf(t0)
    ensures NoticesOf(t) == NoticesOf(t0)
    ensures RolesOf(t) == RolesOf(t0)
    ensures CustodyOf(t) == CustodyOf(t0)
    ensures Sequence(t) == Sequence(t0) + [Deploy(PriceOracle, TestPriceOracle, [Array(OracleList(n)), Array(Prices(n)), Ref(CEther)])]
      + [Register(TestPriceOracle, PriceOracle)]
  {
    OracleListWithin(n, Defined(t0));
    t := DeployedAndRegistered(t0, TestPriceOracle, [Array(OracleList(n)), Array(Prices(n)), Ref(CEther)]);
  }

  /** `tokenObj = await TestToken.at(m.token)` as the `l`-th handle of the Kyber (false) or market (true) loop. */
  function MintHandleAt(market: bool, l: nat, m: Mint<Arg>): Step {
    Attach(MintHandle(market, l), TestToken, m.token)
  }

  /** `tokenObj.mint(m.to, m.amount)` on that handle. */
  function MintCall(market: bool, l: nat, m: Mint<Arg>): Step {
    Send(None, MintHandle(market, l), Method.Mint, [OrUndefined(m.to), Amount(m.amount)], Deployer)
  }

  /** The steps of a mint loop over `ms`: the handle, then the mint, for each entry in turn. */
  function MintSteps(market: bool, ms: seq<Mint<Arg>>): seq<Step>
    decreases |ms|
  {
    if |ms| == 0 then []
    else
      var l := |ms| - 1;
      MintSteps(market, ms[..l]) + [MintHandleAt(market, l, ms[l])] + [MintCall(market, l, ms[l])]
  }

  /** Iteration `l` of a mint loop is steps `2l` and `2l + 1`: the `l`-th entry's handle, then its mint. */
  lemma {:induction false} MintStepsAt(market: bool, ms: seq<Mint<Arg>>)
    ensures |MintSteps(market, ms)| == 2 * |ms|
    ensures forall l | 0 <= l < |ms| ::
      MintSteps(market, ms)[2 * l] == MintHandleAt(market, l, ms[l])
      && MintSteps(market, ms)[2 * l + 1] == MintCall(market, l, ms[l])
    decreases |ms|
  {
    if |ms| > 0 {
      var k := |ms| - 1;
      var init := ms[..k];
      MintStepsAt(market, init);
      var p := MintSteps(market, init);
      var whole := MintSteps(market, ms);
      assert whole == p + [MintHandleAt(market, k, ms[k])] + [MintCall(market, k, ms[k])];
      forall l | 0 <= l < |ms|
        ensures whole[2 * l] == MintHandleAt(market, l, ms[l]) && whole[2 * l + 1] == MintCall(market, l, ms[l])
      {
        if l < k {
          assert init[l] == ms[l];
          assert whole[2 * l] == p[2 * l] && whole[2 * l + 1] == p[2 * l + 1];
        }
      }
    }
  }

  /** Appending one iteration's two steps to a trace that already holds the first `l` iterations. */
  lemma MintStepsSnoc(s0: seq<Step>, market: bool, ms: seq<Mint<Arg>>, l: nat)
    requires l < |ms|
    ensures s0 + MintSteps(market, ms[..l]) + [MintHandleAt(market, l, ms[l])] + [MintCall(market, l, ms[l])]
      == s0 + MintSteps(market, ms[..l + 1])
  {
    assert ms[..l + 1][..l] == ms[..l];
  }

  /** `tokenObj = await TestToken.at(m.token)` as the `l`-th handle of its loop, then `tokenObj.mint(m.to, m.amount)`. */
  method Minted(t0: Trace, market: bool, l: nat, m: Mint<Arg>) returns (t: Trace)
    requires WF(t0) && ArgWithin(m.token, Defined(t0)) && ArgWithin(OrUndefined(m.to), Defined(t0))
    requires CustodyOf(t0).pending.None?
    ensures WF(t)
    ensures Defined(t) == Defined(t0) + {MintHandle(market, l)}
    ensures StageOf(t) == StageOf(t0)
    ensures NoticesOf(t) == NoticesOf(t0)
    ensures RolesOf(t) == RolesOf(t0)
    ensures CustodyOf(t) == CustodyOf(t0)
    ensures Sequence(t) == Sequence(t0) + [MintHandleAt(market, l, m)] + [MintCall(market, l, m)]
  {
    t := Attached(t0, MintHandle(market, l), TestToken, m.token);
    ArgWithinGrows(OrUndefined(m.to), Defined(t0), Defined(t));
    t := Sent(t, None, MintHandle(market, l), Method.Mint, [OrUndefined(m.to), Amount(m.amount)], Deployer);
  }

  /** The `l`-th Kyber mint reads a bound token and the Kyber mock. */
  lemma KyberMintWithin(n: nat, l: nat, d0: set<Name>, d: set<Name>)
    requires TokensIn(n, d0) && Kyber in d0 && d0 <= d && l < n + 1
    ensures |KyberMints(Tokens(n), Ref(Kyber))| == n + 1
    ensures var m := KyberMints(Tokens(n), Ref(Kyber))[l]; ArgWithin(m.token, d) && ArgWithin(OrUndefined(m.to), d)
  {
    UnderlyingCount(n);
    TokensWithin(n, d0);
    ArgWithinGrows(Underlyings(Tokens(n))[l], d0, d);
  }

  /** The `l`-th market mint reads a bound token and the cToken created for it. */
  lemma MarketMintWithin(n: nat, l: nat, d0: set<Name>, d: set<Name>)
    requires TokensIn(n, d0) && CTokensIn(n, d0) && d0 <= d && l < n + 1
    ensures |MarketMints(Tokens(n), CompoundMap(n))| == n + 1
    ensures var m := MarketMints(Tokens(n), CompoundMap(n))[l]; ArgWithin(m.token, d) && ArgWithin(OrUndefined(m.to), d)
  {
    UnderlyingCount(n);
    TokensDistinct(n);
    MintTargets(Configured(n), Ref(Dai), Eth, Created(n), Ref(CEther), Ref(Kyber));
    TokensWithin(n, d0);
    ArgWithinGrows(Underlyings(Tokens(n))[l], d0, d);
  }

  /** The loop minting one trillion of every underlying to the Kyber mock. */
  method KyberMinted(t0: Trace, n: nat) returns (t: Trace)
    requires WF(t0) && TokensIn(n, Defined(t0)) && Kyber in Defined(t0) && CustodyOf(t0).pending.None?
    ensures WF(t)
    ensures Defined(t0) <= Defined(t)
    ensures StageOf(t) == StageOf(t0)
    ensures NoticesOf(t) == NoticesOf(t0)
    ensures RolesOf(t) == RolesOf(t0)
    ensures CustodyOf(t) == CustodyOf(t0)
    ensures Sequence(t) == Sequence(t0) + MintSteps(false, KyberMints(Tokens(n), Ref(Kyber)))
  {
    var ms := KyberMints(Tokens(n), Ref(Kyber));
    UnderlyingCount(n);
    t := t0;
    var l := 0;
    while l < |ms|
      invariant l <= |ms|
      invariant WF(t) && Defined(t0) <= Defined(t)
      invariant StageOf(t) == StageOf(t0) && NoticesOf(t) == NoticesOf(t0)
      invariant RolesOf(t) == RolesOf(t0) && CustodyOf(t) == CustodyOf(t0)
      invariant Sequence(t) == Sequence(t0) + MintSteps(false, ms[..l])
    {
      MintStepsSnoc(Sequence(t0), false, ms, l);
      KyberMintWithin(n, l, Defined(t0), Defined(t));
      t := Minted(t, false, l, ms[l]);
      l := l + 1;
    }
    assert ms[..l] == ms;
  }

  /** The loop minting one trillion of every underlying to its own cToken, `compoundTokens[token]`. */
  method MarketsMinted(t0: Trace, n: nat) returns (t: Trace)
    requires WF(t0) && TokensIn(n, Defined(t0)) && CTokensIn(n, Defined(t0)) && CustodyOf(t0).pending.None?
    ensures WF(t)
    ensures Defined(t0) <= Defined(t)
    ensures StageOf(t) == StageOf(t0)
    ensures NoticesOf(t) == NoticesOf(t0)
    ensures RolesOf(t) == RolesOf(t0)
    ensures CustodyOf(t) == CustodyOf(t0)
    ensures Sequence(t) == Sequence(t0) + MintSteps(true, MarketMints(Tokens(n), CompoundMap(n)))
  {
    UnderlyingCount(n);
    var ms := MarketMints(Tokens(n), CompoundMap(n));
    t := t0;
    var m := 0;
    while m < |ms|
      invariant m <= |ms|
      invariant WF(t) && Defined(t0) <= Defined(t)
      invariant StageOf(t) == StageOf(t0) && NoticesOf(t) == NoticesOf(t0)
      invariant RolesOf(t) == RolesOf(t0) && CustodyOf(t) == CustodyOf(t0)
      invariant Sequence(t) == Sequence(t0) + MintSteps(true, ms[..m])
    {
      MintStepsSnoc(Sequence(t0), true, ms, m);
      MarketMintWithin(n, m, Defined(t0), Defined(t));
      t := Minted(t, true, m, ms[m]);
      m := m + 1;
    }
    assert ms[..m] == ms;
  }
}

=== FILE: fund_protocol.dfy ===
/**
 * The fund-creation protocol every script that creates a fund follows:
 * preview the new fund's address with `createFund.call()`, commit with
 * `createFund()`, bind `BetokenFund.at(previewed address)`, then
 * `initFund1 .. initFundk` against that fund, and `nextPhase()` where the
 * script has it.  `StageAfter` recognises the protocol one event at a time;
 * `StageSpellsProtocol` shows it accepts exactly the protocol's prefixes.
 * Nothing here guards the scripts: phase checks live in the contracts.
 */
module FundProtocol {
  import opened Wrappers
  import opened Steps

  const Fund := Instance(BetokenFund)
  const Factory := Instance(BetokenFactory)

  /** A step's part in the protocol; `Stray` is a protocol call made the wrong way. */
  datatype FundEvent = Preview | Commit | Bind | Initialise(phase: nat) | Advance | Stray

  function EventOf(s: Step): Option<FundEvent> {
    match s
    case Call(out, target, CreateFund) =>
      Some(if out == FundAddr && target == Factory then Preview else Stray)
    case Send(_, target, CreateFund, args, _) =>
      Some(if target == Factory && args == [] then Commit else Stray)
    case Attach(out, c, at) =>
      if out == Fund then Some(if c == BetokenFund && at == Ref(FundAddr) then Bind else Stray) else None
    case Send(_, target, InitFund(p), args, _) =>
      Some(if target == Factory && |args| > 0 && args[0] == Ref(Fund) then Initialise(p) else Stray)
    case Send(_, target, NextPhase, _, _) =>
      Some(if target == Fund then Advance else Stray)
    case _ => None
  }

  /** The protocol events of a step sequence, in order. */
  function Events(ss: seq<Step>): seq<FundEvent> {
    if |ss| == 0 then []
    else
      var e := EventOf(ss[|ss| - 1]);
      Events(ss[..|ss| - 1]) + (if e.Some? then [e.value] else [])
  }

  /** `initFund1 .. initFundk`. */
  function Phases(k: nat): (es: seq<FundEvent>)
    ensures |es| == k
    ensures forall i | 0 <= i < k :: es[i] == Initialise(i + 1)
  {
    if k == 0 then [] else Phases(k - 1) + [Initialise(k)]
  }

  function Protocol(k: nat, advance: bool): seq<FundEvent> {
    [Preview, Commit, Bind] + Phases(k) + (if advance then [Advance] else [])
  }

  datatype Stage = Idle | Previewed | Committed | Bound(phases: nat) | Advanced(phases: nat) | Broken

  function Next(st: Stage, e: FundEvent): Stage {
    match st
    case Idle => if e == Preview then Previewed else Broken
    case Previewed => if e == Commit then Committed else Broken
    case Committed => if e == Bind then Bound(0) else Broken
    case Bound(k) =>
      if e == Initialise(k + 1) then Bound(k + 1)
      else if e == Advance then Advanced(k)
      else Broken
    case _ => Broken
  }

  function StageAfter(es: seq<FundEvent>): Stage {
    if |es| == 0 then Idle else Next(StageAfter(es[..|es| - 1]), es[|es| - 1])
  }

  /** The events that lead to a stage: the protocol's prefix it stands for. */
  function Spelling(st: Stage): seq<FundEvent>
    requires st != Broken
  {
    match st
    case Idle => []
    case Previewed => [Preview]
    case Committed => [Preview, Commit]
    case Bound(k) => Protocol(k, false)
    case Advanced(k) => Protocol(k, true)
  }

  lemma {:induction false} StageAfterSnoc(es: seq<FundEvent>, e: FundEvent)
    ensures StageAfter(es + [e]) == Next(StageAfter(es), e)
  {
    assert (es + [e])[..|es|] == es;
  }

  /** One more init phase, or `nextPhase`, extends the protocol by one event. */
  lemma ProtocolSnoc(k: nat)
    ensures Protocol(k + 1, false) == Protocol(k, false) + [Initialise(k + 1)]
    ensures Protocol(k, true) == Protocol(k, false) + [Advance]
    ensures Protocol(0, false) == [Preview, Commit] + [Bind]
  {
  }

  /** An event the recogniser accepts extends the spelling of its stage by that event. */
  lemma SpellingSnoc(st: Stage, e: FundEvent)
    requires st != Broken && Next(st, e) != Broken
    ensures Spelling(st) + [e] == Spelling(Next(st, e))
  {
    match st
    case Idle =>
    case Previewed =>
    case Committed =>
      ProtocolSnoc(0);
    case Bound(k) =>
      ProtocolSnoc(k);
  }

  /** The stage and the event whose acceptance leads to a stage other than `Idle`. */
  function Before(st: Stage): (r: (Stage, FundEvent))
    requires st != Broken && st != Idle
    ensures r.0 != Broken && Next(r.0, r.1) == st
  {
    match st
    case Previewed => (Idle, Preview)
    case Committed => (Previewed, Commit)
    case Bound(k) => if k == 0 then (Committed, Bind) else (Bound(k - 1), Initialise(k))
    case Advanced(k) => (Bound(k), Advance)
  }

  lemma {:induction false} SpellingReachesStage(st: Stage)
    requires st != Broken
    ensures StageAfter(Spelling(st)) == st
    decreases |Spelling(st)|
  {
    if st != Idle {
      var prev, e := Before(st).0, Before(st).1;
      SpellingSnoc(prev, e);
      SpellingReachesStage(prev);
      StageAfterSnoc(Spelling(prev), e);
    }
  }

  lemma {:induction false} StageDeterminesEvents(es: seq<FundEvent>)
    requires StageAfter(es) != Broken
    ensures es == Spelling(StageAfter(es))
  {
    if |es| > 0 {
      var init, e := es[..|es| - 1], es[|es| - 1];
      assert es == init + [e];
      assert StageAfter(init) != Broken;
      StageDeterminesEvents(init);
      SpellingSnoc(StageAfter(init), e);
    }
  }

  /** The recogniser is in a stage exactly when the events spell that stage's protocol prefix. */
  lemma StageSpellsProtocol(es: seq<FundEvent>, st: Stage)
    requires st != Broken
    ensures StageAfter(es) == st <==> es == Spelling(st)
  {
    SpellingReachesStage(st);
    if StageAfter(es) == st {
      StageDeterminesEvents(es);
    }
  }

  /** The instance of `StageSpellsProtocol` the scripts use: `k` init phases, with or without `nextPhase`. */
  lemma CompletedMeansProtocol(es: seq<FundEvent>, k: nat, advance: bool)
    ensures StageAfter(es) == (if advance then Advanced(k) else Bound(k)) <==> es == Protocol(k, advance)
  {
    StageSpellsProtocol(es, if advance then Advanced(k) else Bound(k));
  }

  /** Log lines and the registration that announce the fund. */
  predicate IsNotice(s: Step) {
    (s.Log? && (s.subject == BetokenFund || s.subject == BetokenProxy))
    || (s.Register? && s.contract == BetokenFund)
  }
}

=== FILE: fund_sections.dfy ===
/**
 * The fund-creation block shared by the fixture, the two fund scripts and the
 * mainnet-fork script: `createFund.call()`, `createFund()`,
 * `BetokenFund.at(previewed)`, then one `initFund<p>` per phase and, in the
 * newer scripts, `nextPhase()`.
 */
module FundSections {
  import opened Wrappers
  import opened Steps
  import opened Traces
  import opened FundProtocol
  import opened Roles
  import opened Build
  import opened Views

  /** `createFund.call()` previews the new fund's address; `createFund()` commits. */
  method PreviewAndCommit(t0: Trace) returns (t: Trace)
    requires WF(t0) && Factory in Defined(t0)
    requires StageOf(t0) == Idle && CustodyOf(t0).pending.None?
    ensures WF(t)
    ensures Defined(t) == Defined(t0) + {FundAddr}
    ensures StageOf(t) == Committed
    ensures NoticesOf(t) == NoticesOf(t0)
    ensures RolesOf(t) == RolesOf(t0)
    ensures CustodyOf(t) == CustodyOf(t0)
    ensures Sequence(t) == Sequence(t0) + [Call(FundAddr, Factory, CreateFund)] + [Send(None, Factory, CreateFund, [], Deployer)]
  {
    t := Then(t0, Call(FundAddr, Factory, CreateFund));
    t := Then(t, Send(None, Factory, CreateFund, [], Deployer));
  }

  /** `BetokenFund.at(previewed)`: the fund handle is bound to the previewed address. */
  method BindFund(t0: Trace) returns (t: Trace)
    requires WF(t0) && FundAddr in Defined(t0)
    requires StageOf(t0) == Committed && CustodyOf(t0).pending.None?
    ensures WF(t)
    ensures Defined(t) == Defined(t0) + {Fund}
    ensures StageOf(t) == Bound(0)
    ensures NoticesOf(t) == NoticesOf(t0)
    ensures RolesOf(t) == RolesOf(t0)
    ensures CustodyOf(t) == CustodyOf(t0)
    ensures Sequence(t) == Sequence(t0) + [Attach(Fund, BetokenFund, Ref(FundAddr))]
  {
    t := Then(t0, Attach(Fund, BetokenFund, Ref(FundAddr)));
  }

  lemma ArgsWithinCons(a: Arg, args: seq<Arg>, d: set<Name>)
    requires ArgWithin(a, d) && ArgsWithin(args, d)
    ensures ArgsWithin([a] + args, d)
  {
    assert forall i | 1 <= i < |args| + 1 :: ([a] + args)[i] == args[i - 1];
  }

  /** `factory.initFund<p>(fund.address, args...)`. */
  function InitCall(p: nat, args: seq<Arg>): Step {
    Send(None, Factory, InitFund(p), [Ref(Fund)] + args, Deployer)
  }

  /** `initFund1(fund, phases[0]...)` through `initFund<k>(fund, phases[k-1]...)`, one call per list. */
  function InitCalls(phases: seq<seq<Arg>>): seq<Step>
    decreases |phases|
  {
    if |phases| == 0 then [] else InitCalls(phases[..|phases| - 1]) + [InitCall(|phases|, phases[|phases| - 1])]
  }

  /** The `i`-th call is `initFund<i+1>` on the `i`-th list; none of them deploys anything. */
  lemma {:induction false} InitCallsAt(phases: seq<seq<Arg>>)
    ensures |InitCalls(phases)| == |phases|
    ensures forall i | 0 <= i < |phases| :: InitCalls(phases)[i] == InitCall(i + 1, phases[i])
    ensures DeploysNothing(InitCalls(phases))
  {
    if |phases| > 0 {
      var init := phases[..|phases| - 1];
      InitCallsAt(init);
      assert forall i | 0 <= i < |init| :: init[i] == phases[i];
    }
  }

  /** `factory.initFund<p>(fund.address, args...)`, the phase after the last one done. */
  method InitPhase(t0: Trace, p: nat, args: seq<Arg>) returns (t: Trace)
    requires WF(t0) && Factory in Defined(t0) && Fund in Defined(t0) && ArgsWithin(args, Defined(t0))
    requires 0 < p && StageOf(t0) == Bound(p - 1) && CustodyOf(t0).pending.None?
    ensures WF(t)
    ensures Defined(t) == Defined(t0)
    ensures StageOf(t) == Bound(p)
    ensures NoticesOf(t) == NoticesOf(t0)
    ensures RolesOf(t) == RolesOf(t0)
    ensures CustodyOf(t) == CustodyOf(t0)
    ensures Sequence(t) == Sequence(t0) + [InitCall(p, args)]
  {
    ArgsWithinCons(Ref(Fund), args, Defined(t0));
    t := Then(t0, InitCall(p, args));
  }

  /** The fund created and bound: preview, commit, `BetokenFund.at(previewed)`. */
  method FundCreated(t0: Trace) returns (t: Trace)
    requires WF(t0) && Factory in Defined(t0)
    requires StageOf(t0) == Idle && CustodyOf(t0).pending.None?
    ensures WF(t)
    ensures Defined(t) == Defined(t0) + {FundAddr} + {Fund}
    ensures StageOf(t) == Bound(0)
    ensures NoticesOf(t) == NoticesOf(t0)
    ensures RolesOf(t) == RolesOf(t0)
    ensures CustodyOf(t) == CustodyOf(t0)
    ensures Sequence(t) == Sequence(t0) + [Call(FundAddr, Factory, CreateFund)] + [Send(None, Factory, CreateFund, [], Deployer)]
      + [Attach(Fund, BetokenFund, Ref(FundAddr))]
  {
    t := PreviewAndCommit(t0);
    t := BindFund(t);
  }

  /**
   * `initFund1(fund, phases[0]...)` through `initFund<k>(fund, phases[k-1]...)`
   * in order, after a freshly bound fund.
   */
  method InitPhases(t0: Trace, phases: seq<seq<Arg>>) returns (t: Trace)
    requires WF(t0) && Factory in Defined(t0) && Fund in Defined(t0)
    requires forall i | 0 <= i < |phases| :: ArgsWithin(phases[i], Defined(t0))
    requires StageOf(t0) == Bound(0) && CustodyOf(t0).pending.None?
    ensures WF(t)
    ensures Defined(t) == Defined(t0)
    ensures StageOf(t) == Bound(|phases|)
    ensures NoticesOf(t) == NoticesOf(t0)
    ensures RolesOf(t) == RolesOf(t0)
    ensures CustodyOf(t) == CustodyOf(t0)
    ensures Sequence(t) == Sequence(t0) + InitCalls(phases)
  {
    t := t0;
    var p := 0;
    while p < |phases|
      invariant p <= |phases|
      invariant WF(t) && Defined(t) == Defined(t0) && StageOf(t) == Bound(p)
      invariant NoticesOf(t) == NoticesOf(t0) && RolesOf(t) == RolesOf(t0) && CustodyOf(t) == CustodyOf(t0)
      invariant Sequence(t) == Sequence(t0) + InitCalls(phases[..p])
    {
      assert phases[..p + 1][..p] == phases[..p];
      t := InitPhase(t, p + 1, phases[p]);
      p := p + 1;
    }
    assert phases[..p] == phases;
  }

  /** `BetokenFactory.at(config.BETOKEN_FACTORY_ADDR)`: the factory already on chain. */
  const ConfiguredFactory: Step := Attach(Factory, BetokenFactory, Config(BETOKEN_FACTORY_ADDR))

  /** The factory attached at its configured address, then the fund created and bound. */
  method FundOpened() returns (t: Trace)
    ensures WF(t)
    ensures Defined(t) == {Factory, FundAddr, Fund}
    ensures StageOf(t) == Bound(0)
    ensures NoticesOf(t) == [] && RolesOf(t) == [] && CustodyOf(t) == Custody(None, true)
    ensures Sequence(t) == [ConfiguredFactory] + [Call(FundAddr, Factory, CreateFund)]
      + [Send(None, Factory, CreateFund, [], Deployer)] + [Attach(Fund, BetokenFund, Ref(FundAddr))]
  {
    t := Attached(Empty, Factory, BetokenFactory, Config(BETOKEN_FACTORY_ADDR));
    t := FundCreated(t);
  }

  /**
   * The fund scripts' opening: the factory attached at its configured address,
   * the fund created and bound, and one `initFund<p>` per phase.  Nothing is
   * deployed: the only bindings are the factory, the previewed address and the
   * fund.
   */
  method FundFromConfiguredFactory(phases: seq<seq<Arg>>) returns (t: Trace)
    requires forall i | 0 <= i < |phases| :: ArgsWithin(phases[i], {Factory, FundAddr, Fund})
    ensures WF(t)
    ensures Defined(t) == {Factory, FundAddr, Fund}
    ensures StageOf(t) == Bound(|phases|)
    ensures NoticesOf(t) == [] && RolesOf(t) == [] && CustodyOf(t) == Custody(None, true)
    ensures Length(t) > 0 && Sequence(t)[0] == ConfiguredFactory
    ensures DeploysNothing(Sequence(t))
  {
    t := FundOpened();
    var opening := Sequence(t);
    assert DeploysNothing(opening);
    t := InitPhases(t, phases);
    InitCallsAt(phases);
    DeploysNothingAppend(opening, InitCalls(phases));
  }

  /** Steps that deploy nothing keep a deploy-free trace opened by the configured factory so. */
  lemma OpeningKept(ss: seq<Step>, tail: seq<Step>)
    requires |ss| > 0 && ss[0] == ConfiguredFactory && DeploysNothing(ss) && DeploysNothing(tail)
    ensures |ss + tail| > 0 && (ss + tail)[0] == ConfiguredFactory && DeploysNothing(ss + tail)
  {
    DeploysNothingAppend(ss, tail);
  }

  /**
   * How the two fund scripts close: a trace made of a deploy-free opening from
   * the configured factory and deploy-free closing steps, ending at the
   * completed stage and having seen only that stage at its notices, made
   * exactly the protocol's calls, all before its first notice.
   */
  lemma FundScriptClosed(t: Trace, opening: seq<Step>, closing: seq<Step>, k: nat, advance: bool)
    requires Sequence(t) == opening + closing
    requires |opening| > 0 && opening[0] == ConfiguredFactory && DeploysNothing(opening) && DeploysNothing(closing)
    requires StageOf(t) == (if advance then Advanced(k) else Bound(k))
    requires forall j | 0 <= j < |NoticesOf(t)| :: NoticesOf(t)[j] == (if advance then Advanced(k) else Bound(k))
    ensures Events(Sequence(t)) == Protocol(k, advance)
    ensures forall i | 0 <= i < Length(t) && IsNotice(Sequence(t)[i]) :: Events(Sequence(t)[..i]) == Protocol(k, advance)
    ensures Length(t) > 0 && Sequence(t)[0] == ConfiguredFactory && DeploysNothing(Sequence(t))
  {
    ProtocolBeforeNotices(t, k, advance);
    OpeningKept(opening, closing);
  }

  /** The initFund arguments after the fund of the Rinkeby fund script and the mainnet fork, three phases. */
  const ShareTokenNames: seq<Arg> := [Text("Kairo"), Text("KRO"), Text("Betoken Shares"), Text("BTKS")]
  const ConfiguredTokenLists: seq<Arg> := [Config(KYBER_TOKENS), Config(COMPOUND_CTOKENS)]
  const ConfiguredDevSettings: seq<Arg> :=
    [Config(DEVELOPER_ACCOUNT), Config(DevFundingRate), Config(PhaseLengths), Config(COMPOUND_FACTORY_ADDR)]
  const ThreePhases: seq<seq<Arg>> := [ShareTokenNames, ConfiguredTokenLists, ConfiguredDevSettings]

  /** The three lists read no binding. */
  lemma ThreePhasesWithin(d: set<Name>)
    ensures forall i | 0 <= i < |ThreePhases| :: ArgsWithin(ThreePhases[i], d)
  {
  }

  /** `fund.nextPhase()`. */
  method AdvancePhase(t0: Trace, k: nat) returns (t: Trace)
    requires WF(t0) && Fund in Defined(t0)
    requires StageOf(t0) == Bound(k) && CustodyOf(t0).pending.None?
    ensures WF(t)
    ensures Defined(t) == Defined(t0)
    ensures StageOf(t) == Advanced(k)
    ensures NoticesOf(t) == NoticesOf(t0)
    ensures RolesOf(t) == RolesOf(t0)
    ensures CustodyOf(t) == CustodyOf(t0)
    ensures Sequence(t) == Sequence(t0) + [Send(None, Fund, NextPhase, [], Deployer)]
  {
    t := Then(t0, Send(None, Fund, NextPhase, [], Deployer));
  }

  /** The closing steps: the fund's address is logged, the proxy address is read from the fund, then logged. */
  const AnnounceSteps: seq<Step> :=
    [Log(BetokenFund, Ref(FundAddr)), Call(ProxyAddr, Fund, ProxyAddrOf), Log(BetokenProxy, Ref(ProxyAddr))]

  /** The two closing log lines: the fund's address, then the proxy address read from the fund. */
  method Announce(t0: Trace) returns (t: Trace)
    requires WF(t0) && Fund in Defined(t0) && FundAddr in Defined(t0)
    requires CustodyOf(t0).pending.None?
    ensures WF(t)
    ensures Defined(t) == Defined(t0) + {ProxyAddr}
    ensures StageOf(t) == StageOf(t0)
    ensures NoticesOf(t) == NoticesOf(t0) + [StageOf(t0), StageOf(t0)]
    ensures RolesOf(t) == RolesOf(t0)
    ensures CustodyOf(t) == CustodyOf(t0)
    ensures Sequence(t) == Sequence(t0) + AnnounceSteps
  {
    t := Then(t0, Log(BetokenFund, Ref(FundAddr)));
    t := Then(t, Call(ProxyAddr, Fund, ProxyAddrOf));
    t := Then(t, Log(BetokenProxy, Ref(ProxyAddr)));
  }

  /** `BetokenFund.setAsDeployed(fund)`, the fixture's closing fund notice. */
  method FundRegistered(t0: Trace) returns (t: Trace)
    requires WF(t0) && Fund in Defined(t0)
    ensures WF(t)
    ensures Defined(t) == Defined(t0) + {Registry(BetokenFund)}
    ensures StageOf(t) == StageOf(t0)
    ensures NoticesOf(t) == NoticesOf(t0) + [StageOf(t0)]
    ensures RolesOf(t) == RolesOf(t0)
    ensures CustodyOf(t) == CustodyOf(t0)
    ensures Sequence(t) == Sequence(t0) + [Register(BetokenFund, Fund)]
  {
    t := Then(t0, Register(BetokenFund, Fund));
  }
}

=== FILE: mainnet_factory.dfy ===
/**
 * `deploy-mainnet-factory.js`: the factory suite on mainnet, reading the PEAK
 * token, its Uniswap oracle and the 1inch address from the configuration.
 * Unlike the Rinkeby script it grants no minter role: the source leaves that
 * step as a TODO, so PeakStaking never becomes a PEAK minter here.
 */
module MainnetFactory {
  import opened Wrappers
  import opened Steps
  import opened Traces
  import opened FundProtocol
  import opened Roles
  import opened Build
  import opened Views
  import opened SuiteSections

  /** PeakReward's constructor arguments here: wallet, staking, PEAK, DAI and the oracle, all but staking from the configuration. */
  const RewardArgs: seq<Arg> :=
    [Config(MARKETPEAK_WALLET_ADDR), Ref(Staking), Config(PEAK_ADDR), Config(DAI_ADDR), Config(PEAK_UNISWAP_ORACLE_ADDR)]

  /** PeakStaking and PeakReward with their log lines. */
  method PeakSuite(t0: Trace) returns (t: Trace)
    requires WF(t0) && CustodyOf(t0).pending.None?
    ensures WF(t)
    ensures Defined(t) == Defined(t0) + {Staking, Reward}
    ensures StageOf(t) == StageOf(t0)
    ensures NoticesOf(t) == NoticesOf(t0)
    ensures RolesOf(t) == RolesOf(t0) + [SignerAdded(Holder(Staking))]
    ensures Signers(RolesOf(t)) == Signers(RolesOf(t0)) + {Holder(Staking)}
    ensures CustodyOf(t) == CustodyOf(t0)
  {
    t := StakingAndReward(t0, Config(PEAK_ADDR), RewardArgs);
    t := Logged(t, PeakStaking, Ref(Staking));
    t := Logged(t, PeakReward, Ref(Reward));
  }

  /**
   * Everything before the order templates: the core contracts, PeakStaking
   * and PeakReward, then BetokenFactory taking over PeakReward's signer role
   * from the deploying account.
   */
  method FactorySuite() returns (t: Trace)
    ensures WF(t)
    ensures StageOf(t) == Idle && NoticesOf(t) == []
    ensures RolesOf(t) == [SignerAdded(Holder(Staking))] + [SignerAdded(Holder(Factory)), SignerRenounced(DeployerAccount)]
    ensures Signers(RolesOf(t)) == {Holder(Staking), Holder(Factory)}
    ensures CustodyOf(t) == Custody(None, true)
  {
    t := Then(Empty, GetAccounts(Accounts));
    t := CoreContracts(t);
    t := PeakSuite(t);
    assert RolesOf(t) == [SignerAdded(Holder(Staking))];
    FactoryArgsWithin(Config(DAI_ADDR), Config(KYBER_ADDR), Config(ONEINCH_ADDR), Defined(t));
    t := FactoryTakesOver(t, FactoryArgs(Config(DAI_ADDR), Config(KYBER_ADDR), Config(ONEINCH_ADDR)));
  }

  /**
   * The whole script.  It never touches the fund protocol; PeakStaking and
   * then BetokenFactory become PeakReward's signers and the deploying account
   * stops being one; no role event is a minter grant; every order template
   * gives up ownership as the very next awaited step after its deployment.
   */
  method Script() returns (t: Trace)
    ensures WF(t)
    ensures Events(Sequence(t)) == [] && NoticesOf(t) == []
    ensures RolesOf(t) ==
      WithTemplateRoles([SignerAdded(Holder(Staking))] + [SignerAdded(Holder(Factory)), SignerRenounced(DeployerAccount)])
      + [OrderFactoryBuilt(TemplateArgs)]
    ensures Signers(RolesOf(t)) == {Holder(Staking), Holder(Factory)}
    ensures RenouncedRightAfter(AwaitedSteps(Sequence(t)))
  {
    t := FactorySuite();
    t := OrderSuite(t);
    NoFundProtocol(t);
    CustodyKept(t);
  }
}

=== FILE: mainnet_fork.dfy ===
/**
 * `deploy-mainnet-fork.js`: the factory suite and a fund in one script, as run
 * against a fork of mainnet.  It differs from the two factory scripts and the
 * fund scripts in ways the model keeps: it never reads the accounts; PeakReward
 * gets only the wallet and the staking contract; the PEAK minter grant is sent
 * from a hard-coded address; BetokenFactory gets nine arguments, without
 * PeakStaking; nobody renounces a signer role; there are no order templates;
 * and the fund gets three init phases and no `nextPhase()`.
 */
module MainnetFork {
  import opened Wrappers
  import opened Steps
  import opened Traces
  import opened FundProtocol
  import opened Roles
  import opened Build
  import opened Views
  import opened SuiteSections
  import opened FundSections

  /** The account the PEAK minter grant is sent from (`minterAddr`). */
  const MinterAddr: string := "0xbD0e2a92771383FC95ddDd49cC3892a4dc4f5DE3"

  /** PeakReward's two constructor arguments here: the wallet and the staking contract. */
  const RewardArgs: seq<Arg> := [Config(MARKETPEAK_WALLET_ADDR), Ref(Staking)]

  /** BetokenFactory's nine constructor arguments here: no PeakStaking between PeakReward and the MiniMe factory. */
  const ForkFactoryArgs: seq<Arg> :=
    [Config(DAI_ADDR), Config(KYBER_ADDR), Config(ONEINCH_ADDR), Ref(FundTemplate),
     Ref(Logic), Ref(Logic2), Ref(Logic3), Ref(Reward), Ref(MiniMe)]

  lemma ForkFactoryArgsWithin(d: set<Name>)
    requires FundTemplate in d && Logic in d && Logic2 in d && Logic3 in d && Reward in d && MiniMe in d
    ensures ArgsWithin(ForkFactoryArgs, d)
  {
  }

  /**
   * PeakStaking and PeakReward wired together, then `PeakToken.at(PEAK_ADDR)`
   * and `addMinter(staking)` sent from `minterAddr`.
   */
  method PeakSuite(t0: Trace) returns (t: Trace)
    requires WF(t0) && CustodyOf(t0).pending.None?
    ensures WF(t)
    ensures Defined(t) == Defined(t0) + {Staking, Reward} + {PeakTokenHandle}
    ensures StageOf(t) == StageOf(t0)
    ensures NoticesOf(t) == NoticesOf(t0)
    ensures RolesOf(t) == RolesOf(t0) + [SignerAdded(Holder(Staking))] + [MinterAdded(PeakTokenHandle, Holder(Staking), From(MinterAddr))]
    ensures Signers(RolesOf(t)) == Signers(RolesOf(t0)) + {Holder(Staking)}
    ensures CustodyOf(t) == CustodyOf(t0)
  {
    t := StakingAndReward(t0, Config(PEAK_ADDR), RewardArgs);
    t := Attached(t, PeakTokenHandle, PeakToken, Config(PEAK_ADDR));
    t := MinterGranted(t, PeakTokenHandle, From(MinterAddr));
  }

  /** The contracts up to BetokenFactory and its signer grant. */
  method FactorySuite() returns (t: Trace)
    ensures WF(t)
    ensures Factory in Defined(t)
    ensures StageOf(t) == Idle && NoticesOf(t) == []
    ensures RolesOf(t) ==
      [SignerAdded(Holder(Staking)), MinterAdded(PeakTokenHandle, Holder(Staking), From(MinterAddr)), SignerAdded(Holder(Factory))]
    ensures Signers(RolesOf(t)) == {DeployerAccount, Holder(Staking), Holder(Factory)}
    ensures CustodyOf(t) == Custody(None, true)
  {
    t := CoreContracts(Empty);
    t := PeakSuite(t);
    assert RolesOf(t) == [SignerAdded(Holder(Staking)), MinterAdded(PeakTokenHandle, Holder(Staking), From(MinterAddr))];
    ForkFactoryArgsWithin(Defined(t));
    t := FactoryAndSigner(t, ForkFactoryArgs);
  }

  /**
   * The whole script.  Its protocol calls are exactly preview, commit, bind
   * and `initFund1..3`, with no `nextPhase()`; both log lines come after all
   * of them; PeakStaking and BetokenFactory join PeakReward's signers while
   * the deploying account stays one.
   */
  method Script() returns (t: Trace)
    ensures WF(t)
    ensures Events(Sequence(t)) == Protocol(3, false)
    ensures forall i | 0 <= i < Length(t) && IsNotice(Sequence(t)[i]) :: Events(Sequence(t)[..i]) == Protocol(3, false)
    ensures RolesOf(t) ==
      [SignerAdded(Holder(Staking)), MinterAdded(PeakTokenHandle, Holder(Staking), From(MinterAddr)), SignerAdded(Holder(Factory))]
    ensures Signers(RolesOf(t)) == {DeployerAccount, Holder(Staking), Holder(Factory)}
    ensures NoticesOf(t) == [Bound(3), Bound(3)]
    ensures Length(t) >= 3 && Sequence(t)[Length(t) - 3..] == AnnounceSteps
  {
    t := FactorySuite();
    t := FundCreated(t);
    ThreePhasesWithin(Defined(t));
    t := InitPhases(t, ThreePhases);
    var before := Sequence(t);
    t := Announce(t);
    EndsWith(t, before, AnnounceSteps);
    ProtocolBeforeNotices(t, 3, false);
  }
}

=== FILE: mainnet_fund.dfy ===
/**
 * `deploy-mainnet-fund.js`: a fund created from the configured BetokenFactory,
 * with four init phases read from the configuration, then `nextPhase()`.
 */
module MainnetFund {
  import opened Wrappers
  import opened Steps
  import opened Traces
  import opened FundProtocol
  import opened Roles
  import opened Build
  import opened Views
  import opened FundSections

  const TokenNames: seq<Arg> :=
    [Config(REPUTATION_TOKEN_NAME), Config(REPUTATION_TOKEN_SYMBOL), Config(SHARE_TOKEN_NAME), Config(SHARE_TOKEN_SYMBOL)]
  const ManagerSettings: seq<Arg> :=
    [Config(NEW_MANAGER_KAIRO), Config(MAX_NEW_MANAGERS_PER_CYCLE), Config(KAIRO_PRICE),
     Config(PEAK_MANAGER_STAKE_REQUIRED), Config(IS_PERMISSIONED)]

  /** `initFund1..4`'s arguments after the fund. */
  const FourPhases: seq<seq<Arg>> := [TokenNames, ConfiguredTokenLists, ManagerSettings, ConfiguredDevSettings]

  /** The four lists are read from the configuration and read no binding. */
  lemma FourPhasesWithin(d: set<Name>)
    ensures forall i | 0 <= i < |FourPhases| :: ArgsWithin(FourPhases[i], d)
  {
  }

  /**
   * The whole script.  Its protocol calls are exactly preview, commit, bind,
   * `initFund1..4`, `nextPhase()`; both log lines come after all of them; it
   * makes no role call; it binds only the factory, the previewed address, the
   * fund and the proxy address, so it deploys nothing.
   */
  method Script() returns (t: Trace)
    ensures WF(t)
    ensures Events(Sequence(t)) == Protocol(4, true)
    ensures forall i | 0 <= i < Length(t) && IsNotice(Sequence(t)[i]) :: Events(Sequence(t)[..i]) == Protocol(4, true)
    ensures RolesOf(t) == []
    ensures Defined(t) == {Factory, FundAddr, Fund, ProxyAddr}
    ensures Length(t) > 0 && Sequence(t)[0] == ConfiguredFactory
    ensures DeploysNothing(Sequence(t))
    ensures NoticesOf(t) == [Advanced(4), Advanced(4)]
    ensures Length(t) >= 3 && Sequence(t)[Length(t) - 3..] == AnnounceSteps
  {
    FourPhasesWithin({Factory, FundAddr, Fund});
    t := FundFromConfiguredFactory(FourPhases);
    var opening := Sequence(t);
    t := AdvancePhase(t, 4);
    var advanced := Sequence(t);
    t := Announce(t);
    var closing := [Send(None, Fund, NextPhase, [], Deployer)] + AnnounceSteps;
    assert Sequence(t) == opening + closing;
    FundScriptClosed(t, opening, closing, 4, true);
    EndsWith(t, advanced, AnnounceSteps);
  }
}

=== FILE: mock_env.dfy ===
/**
 * The lists the test fixture builds for its mock Kyber and Compound
 * environment, over any type of address `T`: the token list, the price list,
 * the underlying-to-cToken map, the oracle's cToken list, the mint targets,
 * and the fund's token and cToken lists.  `configured` are the addresses the
 * token factory returned for the entries of `kn_tokens.json`, in order;
 * `created` are the cTokens the cToken factory returned, in order.
 */
module MockEnv {
  import opened Wrappers
  import opened CoffeeJs

  /** `PRECISION = 1e18`, as an exact number. */
  const PRECISION: nat := 1_000_000_000_000_000_000

  /** `tokenAddrs`: every configured token, then DAI, then the ETH sentinel. */
  function TokenAddrs<T(==)>(configured: seq<T>, dai: T, eth: T): seq<T> {
    configured + [dai, eth]
  }

  /** `tokenPrices`: `10·PRECISION` for each `i` in `[1..n]`, then `PRECISION` and `20·PRECISION`. */
  function TokenPrices(n: nat): seq<nat> {
    seq(|Range(1, n)|, _ => 10 * PRECISION) + [PRECISION, 20 * PRECISION]
  }

  /** `compoundTokens[keys[i]] = vals[i]`, one assignment after another. */
  function Assign<T(==)>(m: map<T, T>, keys: seq<T>, vals: seq<T>): map<T, T>
    requires |keys| == |vals|
    decreases |keys|
  {
    if |keys| == 0 then m else Assign(m[keys[0] := vals[0]], keys[1..], vals[1..])
  }

  /** The tokens that get a cToken and are minted: `tokenAddrs[..tokenAddrs.length - 2]`. */
  function Underlyings<T(==)>(tokenAddrs: seq<T>): seq<T> {
    Through(tokenAddrs, |tokenAddrs| - 2)
  }

  /** `compoundTokens`: a cToken for every underlying, in order, then `compoundTokens[ETH_ADDR] = CEther`. */
  function CompoundTokens<T(==)>(tokenAddrs: seq<T>, created: seq<T>, eth: T, cEther: T): map<T, T>
    requires |created| == |Underlyings(tokenAddrs)|
  {
    Assign(map[], Underlyings(tokenAddrs), created)[eth := cEther]
  }

  /** `compoundTokens[x]`, which is `undefined` for a missing key. */
  function Lookup<T(==)>(m: map<T, T>, x: T): Option<T> {
    if x in m then Some(m[x]) else None
  }

  function LookupAll<T(==)>(m: map<T, T>, xs: seq<T>): seq<Option<T>> {
    seq(|xs|, i requires 0 <= i < |xs| => Lookup(m, xs[i]))
  }

  /** `compoundTokenAddrs = tokenAddrs.map(x => compoundTokens[x])`, the price oracle's cToken list. */
  function OracleCTokens<T(==)>(m: map<T, T>, tokenAddrs: seq<T>): seq<Option<T>> {
    LookupAll(m, tokenAddrs)
  }

  /** A `mint(to, amount)` sent to `token`; `to` is `undefined` when the lookup giving it missed. */
  datatype Mint<T> = Mint(token: T, to: Option<T>, amount: nat)

  /** One trillion tokens, `1e12 * PRECISION`. */
  const MintAmount: nat := 1_000_000_000_000 * PRECISION

  /** The Kyber mint loop: every underlying is minted to the Kyber mock. */
  function KyberMints<T(==)>(tokenAddrs: seq<T>, kyber: T): seq<Mint<T>> {
    var u := Underlyings(tokenAddrs);
    seq(|u|, i requires 0 <= i < |u| => Mint(u[i], Some(kyber), MintAmount))
  }

  /** The market mint loop: every underlying is minted to `compoundTokens[token]`. */
  function MarketMints<T(==)>(tokenAddrs: seq<T>, m: map<T, T>): seq<Mint<T>> {
    var u := Underlyings(tokenAddrs);
    seq(|u|, i requires 0 <= i < |u| => Mint(u[i], Lookup(m, u[i]), MintAmount))
  }

  /** The fund's tokens: `tokenAddrs[..tokenAddrs.length - 3].concat([ETH_ADDR])`. */
  function FundTokens<T(==)>(tokenAddrs: seq<T>, eth: T): seq<T> {
    Through(tokenAddrs, |tokenAddrs| - 3) + [eth]
  }

  /** `compoundTokensArray`: the cTokens of `tokenAddrs[..tokenAddrs.length - 3]`, then CEther. */
  function FundCTokens<T(==)>(tokenAddrs: seq<T>, m: map<T, T>, cEther: T): seq<Option<T>> {
    LookupAll(m, Through(tokenAddrs, |tokenAddrs| - 3)) + [Some(cEther)]
  }

  predicate Distinct<T(==)>(xs: seq<T>) {
    forall i, j | 0 <= i < j < |xs| :: xs[i] != xs[j]
  }

  /** The fixture's addresses: the configured tokens, DAI and the ETH sentinel are all different. */
  predicate Env<T(==)>(configured: seq<T>, dai: T, eth: T) {
    Distinct(TokenAddrs(configured, dai, eth))
  }

  // ---------------------------------------------------------------- the lists

  /** The token list is the configured tokens in order, then DAI at index `n`, then ETH at `n + 1`. */
  lemma TokenAddrsLayout<T>(configured: seq<T>, dai: T, eth: T)
    ensures var t := TokenAddrs(configured, dai, eth); var n := |configured|;
      |t| == n + 2 && t[..n] == configured && t[n] == dai && t[n + 1] == eth
      && (forall i | 0 <= i < n :: t[i] == configured[i])
  {
  }

  /** The underlyings are all of the token list but the ETH sentinel. */
  lemma {:induction false} UnderlyingsAreAllButEth<T>(configured: seq<T>, dai: T, eth: T)
    ensures Underlyings(TokenAddrs(configured, dai, eth)) == configured + [dai]
  {
    var t := TokenAddrs(configured, dai, eth);
    ThroughKeeps(t, |t| - 2);
    assert t[..|configured| + 1] == configured + [dai];
  }

  /**
   * With at least one configured token the price list lines up with the token
   * list: `10·PRECISION` for each configured token, `PRECISION` for DAI,
   * `20·PRECISION` for ETH.
   */
  lemma {:induction false} PricesAligned<T>(configured: seq<T>, dai: T, eth: T)
    requires |configured| >= 1
    ensures var p := TokenPrices(|configured|); var n := |configured|;
      |p| == |TokenAddrs(configured, dai, eth)|
      && (forall i | 0 <= i < n :: p[i] == 10 * PRECISION)
      && p[n] == PRECISION && p[n + 1] == 20 * PRECISION
  {
    var n := |configured|;
    assert |Range(1, n)| == n;
  }

  /** With no configured token, `[1..0]` counts down to `[1, 0]`: four prices for the two tokens DAI and ETH. */
  lemma {:induction false} PricesAtZero<T>(dai: T, eth: T)
    ensures |TokenAddrs([], dai, eth)| == 2
    ensures TokenPrices(0) == [10 * PRECISION, 10 * PRECISION, PRECISION, 20 * PRECISION]
  {
    assert Range(1, 0) == [1, 0];
  }

  lemma {:induction false} AssignFresh<T>(m: map<T, T>, keys: seq<T>, vals: seq<T>, x: T)
    requires |keys| == |vals| && x !in keys
    ensures Lookup(Assign(m, keys, vals), x) == Lookup(m, x)
    decreases |keys|
  {
    if |keys| > 0 {
      assert x !in keys[1..];
      AssignFresh(m[keys[0] := vals[0]], keys[1..], vals[1..], x);
    }
  }

  /** With distinct keys, the sequential assignments leave key `keys[i]` bound to `vals[i]`. */
  lemma {:induction false} AssignDistinct<T>(m: map<T, T>, keys: seq<T>, vals: seq<T>, i: nat)
    requires |keys| == |vals| && Distinct(keys) && i < |keys|
    ensures Lookup(Assign(m, keys, vals), keys[i]) == Some(vals[i])
    decreases |keys|
  {
    if i == 0 {
      assert keys[0] !in keys[1..] by {
        forall j | 0 <= j < |keys| - 1 ensures keys[1..][j] != keys[0] {
          assert keys[1..][j] == keys[j + 1];
        }
      }
      AssignFresh(m[keys[0] := vals[0]], keys[1..], vals[1..], keys[0]);
    } else {
      assert Distinct(keys[1..]) by {
        forall a, b | 0 <= a < b < |keys| - 1 ensures keys[1..][a] != keys[1..][b] {
          assert keys[1..][a] == keys[a + 1] && keys[1..][b] == keys[b + 1];
        }
      }
      AssignDistinct(m[keys[0] := vals[0]], keys[1..], vals[1..], i - 1);
    }
  }

  lemma {:induction false} AssignKeys<T>(m: map<T, T>, keys: seq<T>, vals: seq<T>)
    requires |keys| == |vals|
    ensures Assign(m, keys, vals).Keys == m.Keys + set x | x in keys
    decreases |keys|
  {
    if |keys| > 0 {
      AssignKeys(m[keys[0] := vals[0]], keys[1..], vals[1..]);
      assert (set x | x in keys) == {keys[0]} + set x | x in keys[1..];
    }
  }

  /**
   * Every token except ETH gets exactly the cToken created for it, ETH maps to
   * CEther, and nothing else is a key.
   */
  lemma {:induction false} CompoundTokensContents<T>(configured: seq<T>, dai: T, eth: T, created: seq<T>, cEther: T)
    requires Env(configured, dai, eth) && |created| == |configured| + 1
    ensures var t := TokenAddrs(configured, dai, eth);
      |created| == |Underlyings(t)|
      && var m := CompoundTokens(t, created, eth, cEther);
      m.Keys == (set x | x in t)
      && (forall i | 0 <= i < |configured| + 1 :: Lookup(m, t[i]) == Some(created[i]))
      && Lookup(m, eth) == Some(cEther)
  {
    var t := TokenAddrs(configured, dai, eth);
    var u := configured + [dai];
    UnderlyingsAreAllButEth(configured, dai, eth);
    assert Distinct(u) by {
      forall a, b | 0 <= a < b < |u| ensures u[a] != u[b] {
        assert u[a] == t[a] && u[b] == t[b];
      }
    }
    var before := Assign(map[], u, created);
    AssignKeys(map[], u, created);
    assert (set x | x in t) == (set x | x in u) + {eth} by {
      assert t == u + [eth];
    }
    forall i | 0 <= i < |configured| + 1
      ensures Lookup(CompoundTokens(t, created, eth, cEther), t[i]) == Some(created[i])
    {
      AssignDistinct(map[], u, created, i);
      assert t[i] == u[i] && t[i] != t[|t| - 1];
    }
  }

  /**
   * The oracle's cToken list is the token list mapped through the map, so it
   * is index-aligned with the tokens: the created cToken for each token but
   * ETH, and CEther for ETH.
   */
  lemma {:induction false} OracleCTokensAligned<T>(configured: seq<T>, dai: T, eth: T, created: seq<T>, cEther: T)
    requires Env(configured, dai, eth) && |created| == |configured| + 1
    ensures var t := TokenAddrs(configured, dai, eth);
      |created| == |Underlyings(t)|
      && var o := OracleCTokens(CompoundTokens(t, created, eth, cEther), t);
      |o| == |t|
      && (forall i | 0 <= i < |configured| + 1 :: o[i] == Some(created[i]))
      && o[|configured| + 1] == Some(cEther)
  {
    CompoundTokensContents(configured, dai, eth, created, cEther);
  }

  /**
   * Both mint loops mint one trillion of each token but ETH, once each and in
   * list order: to the Kyber mock, and to the token's own cToken.
   */
  lemma {:induction false} MintTargets<T>(configured: seq<T>, dai: T, eth: T, created: seq<T>, cEther: T, kyber: T)
    requires Env(configured, dai, eth) && |created| == |configured| + 1
    ensures var t := TokenAddrs(configured, dai, eth);
      |created| == |Underlyings(t)|
      && var k := KyberMints(t, kyber);
      var c := MarketMints(t, CompoundTokens(t, created, eth, cEther));
      |k| == |c| == |configured| + 1
      && (forall i | 0 <= i < |k| :: k[i] == Mint(t[i], Some(kyber), MintAmount))
      && (forall i | 0 <= i < |c| :: c[i] == Mint(t[i], Some(created[i]), MintAmount))
      && (forall i | 0 <= i < |k| :: k[i].token != eth && c[i].token != eth)
  {
    var t := TokenAddrs(configured, dai, eth);
    UnderlyingsAreAllButEth(configured, dai, eth);
    CompoundTokensContents(configured, dai, eth, created, cEther);
    forall i | 0 <= i < |configured| + 1 ensures t[i] != eth {
      assert t[|t| - 1] == eth;
    }
  }

  lemma {:induction false} FundTokensAligned<T>(configured: seq<T>, dai: T, eth: T)
    requires Env(configured, dai, eth) && |configured| >= 1
    ensures var t := TokenAddrs(configured, dai, eth);
      Through(t, |t| - 3) == configured
      && FundTokens(t, eth) == configured + [eth]
      && dai !in configured + [eth]
  {
    var t := TokenAddrs(configured, dai, eth);
    var n := |configured|;
    ThroughKeeps(t, |t| - 3);
    assert t[..n] == configured;
    forall i | 0 <= i < n ensures configured[i] != dai {
      assert t[i] == configured[i] && t[n] == dai && t[i] != t[n];
    }
    assert t[n] != t[n + 1];
  }

  /**
   * With at least one configured token the fund gets the configured tokens and
   * ETH, and their cTokens and CEther: `n + 1` entries each, index-aligned,
   * without DAI.
   */
  lemma {:induction false} FundListsAligned<T>(configured: seq<T>, dai: T, eth: T, created: seq<T>, cEther: T)
    requires Env(configured, dai, eth) && |created| == |configured| + 1 && |configured| >= 1
    ensures var t := TokenAddrs(configured, dai, eth);
      |created| == |Underlyings(t)|
      && var f := FundTokens(t, eth);
      var c := FundCTokens(t, CompoundTokens(t, created, eth, cEther), cEther);
      f == configured + [eth]
      && |c| == |f|
      && (forall i | 0 <= i < |configured| :: c[i] == Some(created[i]))
      && c[|configured|] == Some(cEther)
      && dai !in f
  {
    var t := TokenAddrs(configured, dai, eth);
    var n := |configured|;
    CompoundTokensContents(configured, dai, eth, created, cEther);
    FundTokensAligned(configured, dai, eth);
    var m := CompoundTokens(t, created, eth, cEther);
    forall i | 0 <= i < n
      ensures FundCTokens(t, m, cEther)[i] == Some(created[i])
    {
      assert configured[i] == t[i];
    }
  }

  /**
   * With no configured token, `tokenAddrs[..-1]` is the whole list `[DAI, ETH]`,
   * so the fund gets `[DAI, ETH, ETH]` and `[cDAI, CEther, CEther]`.
   */
  lemma {:induction false} FundListsAtZero<T>(dai: T, eth: T, cDai: T, cEther: T)
    requires dai != eth
    ensures var t := TokenAddrs([], dai, eth);
      |Underlyings(t)| == 1
      && FundTokens(t, eth) == [dai, eth, eth]
      && FundCTokens(t, CompoundTokens(t, [cDai], eth, cEther), cEther) == [Some(cDai), Some(cEther), Some(cEther)]
  {
    var t := TokenAddrs([], dai, eth);
    ThroughKeeps(t, -1);
    ThroughKeeps(t, 0);
    assert Underlyings(t) == [dai];
    assert [dai][1..] == [] && [cDai][1..] == [];
    assert Assign(map[], [dai], [cDai]) == Assign(map[dai := cDai], [], []);
    var m := CompoundTokens(t, [cDai], eth, cEther);
    assert m == map[dai := cDai, eth := cEther];
    assert Through(t, -1) == [dai, eth];
  }
}

=== FILE: rinkeby_factory.dfy ===
/**
 * `deploy-rinkeby-factory.js`: the factory suite on Rinkeby, with a mock PEAK
 * token it mints and hands to PeakStaking as a minter.
 */
module RinkebyFactory {
  import opened Wrappers
  import opened Steps
  import opened Traces
  import opened FundProtocol
  import opened Roles
  import opened Build
  import opened Views
  import opened SuiteSections

  /** `TestToken.new('Market Peak (test)', 'PEAK-test', 8)`. */
  const MockPeakArgs: seq<Arg> := [Text("Market Peak (test)"), Text("PEAK-test"), Amount(8)]

  /** The mock PEAK token, minted to the deploying account, and its log line. */
  method MockPeak(t0: Trace) returns (t: Trace)
    requires WF(t0) && Accounts in Defined(t0)
    requires CustodyOf(t0).pending.None?
    ensures WF(t)
    ensures Defined(t) == Defined(t0) + {PeakTokenHandle}
    ensures StageOf(t) == StageOf(t0)
    ensures NoticesOf(t) == NoticesOf(t0)
    ensures RolesOf(t) == RolesOf(t0)
    ensures CustodyOf(t) == CustodyOf(t0)
    ensures Sequence(t) == Sequence(t0) + [Deploy(PeakTokenHandle, TestToken, MockPeakArgs)]
      + [Send(None, PeakTokenHandle, Mint, [FirstAccount, Amount(PeakSupply)], Deployer)]
      + [Log(PeakToken, Ref(PeakTokenHandle))]
  {
    t := Deployed(t0, PeakTokenHandle, TestToken, MockPeakArgs);
    t := Sent(t, None, PeakTokenHandle, Mint, [FirstAccount, Amount(PeakSupply)], Deployer);
    t := Logged(t, PeakToken, Ref(PeakTokenHandle));
  }

  /** PeakReward's constructor arguments here: wallet, staking, the mock token, DAI, the mock oracle. */
  const RewardArgs: seq<Arg> :=
    [Config(MARKETPEAK_WALLET_ADDR), Ref(Staking), Ref(PeakTokenHandle), Config(DAI_ADDR), Ref(Oracle)]

  /** The oracle, PeakStaking and PeakReward with their log lines, then the minter grant to PeakStaking. */
  method PeakSuite(t0: Trace) returns (t: Trace)
    requires WF(t0) && PeakTokenHandle in Defined(t0)
    requires CustodyOf(t0).pending.None?
    ensures WF(t)
    ensures Defined(t) == Defined(t0) + {Oracle, Staking, Reward}
    ensures StageOf(t) == StageOf(t0)
    ensures NoticesOf(t) == NoticesOf(t0)
    ensures RolesOf(t) == RolesOf(t0) + [SignerAdded(Holder(Staking)), MinterAdded(PeakTokenHandle, Holder(Staking), Deployer)]
    ensures Signers(RolesOf(t)) == Signers(RolesOf(t0)) + {Holder(Staking)}
    ensures CustodyOf(t) == CustodyOf(t0)
  {
    t := Deployed(t0, Oracle, TestUniswapOracle, []);
    t := StakingAndReward(t, Ref(PeakTokenHandle), RewardArgs);
    t := Logged(t, PeakStaking, Ref(Staking));
    t := Logged(t, PeakReward, Ref(Reward));
    t := MinterGranted(t, PeakTokenHandle, Deployer);
  }

  /**
   * Everything before the order templates: the core contracts, the mock PEAK
   * token, PeakStaking and PeakReward with the minter grant, then
   * BetokenFactory taking over PeakReward's signer role from the deploying
   * account.
   */
  method FactorySuite() returns (t: Trace)
    ensures WF(t)
    ensures StageOf(t) == Idle && NoticesOf(t) == []
    ensures RolesOf(t) ==
      [SignerAdded(Holder(Staking)), MinterAdded(PeakTokenHandle, Holder(Staking), Deployer)]
      + [SignerAdded(Holder(Factory)), SignerRenounced(DeployerAccount)]
    ensures Signers(RolesOf(t)) == {Holder(Staking), Holder(Factory)}
    ensures CustodyOf(t) == Custody(None, true)
  {
    t := Then(Empty, GetAccounts(Accounts));
    t := CoreContracts(t);
    t := MockPeak(t);
    t := PeakSuite(t);
    assert RolesOf(t) == [SignerAdded(Holder(Staking)), MinterAdded(PeakTokenHandle, Holder(Staking), Deployer)];
    FactoryArgsWithin(Config(DAI_ADDR), Config(KYBER_ADDR), Address(ZeroAddr), Defined(t));
    t := FactoryTakesOver(t, FactoryArgs(Config(DAI_ADDR), Config(KYBER_ADDR), Address(ZeroAddr)));
  }

  /**
   * The whole script.  It never touches the fund protocol; PeakStaking is
   * PeakReward's signer and the PEAK minter, BetokenFactory becomes a signer
   * and the deploying account stops being one; every order template gives up
   * ownership as the very next awaited step after its deployment.
   */
  method Script() returns (t: Trace)
    ensures WF(t)
    ensures Events(Sequence(t)) == [] && NoticesOf(t) == []
    ensures RolesOf(t) ==
      WithTemplateRoles(
        [SignerAdded(Holder(Staking)), MinterAdded(PeakTokenHandle, Holder(Staking), Deployer)]
        + [SignerAdded(Holder(Factory)), SignerRenounced(DeployerAccount)])
      + [OrderFactoryBuilt(TemplateArgs)]
    ensures Signers(RolesOf(t)) == {Holder(Staking), Holder(Factory)}
    ensures RenouncedRightAfter(AwaitedSteps(Sequence(t)))
  {
    t := FactorySuite();
    t := OrderSuite(t);
    NoFundProtocol(t);
    CustodyKept(t);
  }
}

=== FILE: rinkeby_fund.dfy ===
/**
 * `deploy-rinkeby-fund.js`: a fund created from an existing BetokenFactory,
 * with three init phases and no `nextPhase()`.
 */
module RinkebyFund {
  import opened Wrappers
  import opened Steps
  import opened Traces
  import opened FundProtocol
  import opened Roles
  import opened Build
  import opened Views
  import opened FundSections

  /**
   * The whole script.  Its protocol calls are exactly preview, commit, bind,
   * `initFund1..3`; both log lines come after all of them; it makes no role
   * call; it binds only the factory, the previewed address, the fund and the
   * proxy address, so it deploys nothing.
   */
  method Script() returns (t: Trace)
    ensures WF(t)
    ensures Events(Sequence(t)) == Protocol(3, false)
    ensures forall i | 0 <= i < Length(t) && IsNotice(Sequence(t)[i]) :: Events(Sequence(t)[..i]) == Protocol(3, false)
    ensures RolesOf(t) == []
    ensures Defined(t) == {Factory, FundAddr, Fund, ProxyAddr}
    ensures Length(t) > 0 && Sequence(t)[0] == ConfiguredFactory
    ensures DeploysNothing(Sequence(t))
    ensures NoticesOf(t) == [Bound(3), Bound(3)]
    ensures Length(t) >= 3 && Sequence(t)[Length(t) - 3..] == AnnounceSteps
  {
    ThreePhasesWithin({Factory, FundAddr, Fund});
    t := FundFromConfiguredFactory(ThreePhases);
    var opening := Sequence(t);
    t := Announce(t);
    var closing := AnnounceSteps;
    assert Sequence(t) == opening + closing;
    FundScriptClosed(t, opening, closing, 3, false);
    EndsWith(t, opening, closing);
  }
}

=== FILE: roles.dfy ===
/**
 * Role management done by the scripts: PeakReward's signer set, minter grants
 * on the PEAK token, and ownership of the four Compound order templates,
 * which the scripts give up as soon as each template exists.
 */
module Roles {
  import opened Wrappers
  import opened Steps

  /** An account holding a role: the deploying account `accounts[0]`, or a bound contract. */
  datatype Party = DeployerAccount | Holder(n: Name)

  function PartyOf(a: Arg): Option<Party> {
    match a
    case FirstAccount => Some(DeployerAccount)
    case Ref(x) => Some(Holder(x))
    case _ => None
  }

  datatype RoleEvent =
    | SignerAdded(p: Party)                          // peakReward.addSigner(p)
    | SignerRenounced(p: Party)                      // peakReward.renounceSigner(p)
    | MinterAdded(token: Name, p: Party, sender: Sender) // token.addMinter(p), sent by `sender`
    | TemplateDeployed(x: Name)                      // an order template's constructor
    | OwnershipRenounced(x: Name)                    // x.renounceOwnership()
    | OrderFactoryBuilt(templates: seq<Arg>)         // CompoundOrderFactory's first four arguments

  function RoleEventOf(s: Step): Option<RoleEvent> {
    if s.Deploy? then
      if IsOrderTemplate(s.contract) then Some(TemplateDeployed(s.out))
      else if s.contract.CompoundOrderFactory? then Some(OrderFactoryBuilt(if |s.args| < 4 then s.args else s.args[..4]))
      else None
    else if !s.Send? then None
    else if s.fn.RenounceOwnership? then Some(OwnershipRenounced(s.target))
    else if !(s.fn.AddMinter? || s.fn.AddSigner? || s.fn.RenounceSigner?) || |s.args| != 1 || PartyOf(s.args[0]).None? then None
    else if s.fn.AddMinter? then Some(MinterAdded(s.target, PartyOf(s.args[0]).value, s.sender))
    else if s.target != Instance(PeakReward) then None
    else if s.fn.AddSigner? then Some(SignerAdded(PartyOf(s.args[0]).value))
    else Some(SignerRenounced(PartyOf(s.args[0]).value))
  }

  /** The role events of a step sequence, in order. */
  function RoleEvents(ss: seq<Step>): seq<RoleEvent> {
    if |ss| == 0 then []
    else
      var e := RoleEventOf(ss[|ss| - 1]);
      RoleEvents(ss[..|ss| - 1]) + (if e.Some? then [e.value] else [])
  }

  /**
   * PeakReward's signers after the events, starting from its deployer, whom the
   * contract's constructor makes the first signer.
   */
  function Signers(es: seq<RoleEvent>): set<Party> {
    if |es| == 0 then {DeployerAccount}
    else
      var before := Signers(es[..|es| - 1]);
      match es[|es| - 1]
      case SignerAdded(p) => before + {p}
      case SignerRenounced(p) => before - {p}
      case _ => before
  }

  /** One more role event changes the signers only if it adds or renounces one. */
  lemma {:induction false} SignersSnoc(es: seq<RoleEvent>, e: RoleEvent)
    ensures Signers(es + [e]) == match e
      case SignerAdded(p) => Signers(es) + {p}
      case SignerRenounced(p) => Signers(es) - {p}
      case _ => Signers(es)
  {
    assert (es + [e])[..|es|] == es;
  }

  /** The last signer event about `p`, if any. */
  function LastSignerEvent(es: seq<RoleEvent>, p: Party): Option<RoleEvent> {
    if |es| == 0 then None
    else
      var e := es[|es| - 1];
      if (e.SignerAdded? || e.SignerRenounced?) && e.p == p then Some(e)
      else LastSignerEvent(es[..|es| - 1], p)
  }

  /** A party is a signer exactly when its last signer event added it, or it is the deployer and nothing touched it. */
  lemma {:induction false} SignersByLastEvent(es: seq<RoleEvent>, p: Party)
    ensures p in Signers(es) <==>
      (LastSignerEvent(es, p).Some? && LastSignerEvent(es, p).value.SignerAdded?)
      || (LastSignerEvent(es, p).None? && p == DeployerAccount)
  {
    if |es| > 0 {
      SignersByLastEvent(es[..|es| - 1], p);
    }
  }

  /**
   * Custody of a freshly deployed template: `pending` is a template whose
   * ownership has not been renounced yet, `kept` that every renouncement so
   * far came as the very next awaited step after its template's deployment.
   */
  datatype Custody = Custody(pending: Option<Name>, kept: bool)

  function Watch(c: Custody, s: Step): Custody {
    if !Awaited(s) then c
    else if s.Deploy? && IsOrderTemplate(s.contract) then Custody(Some(s.out), c.kept && c.pending.None?)
    else if s.Send? && s.fn.RenounceOwnership? then Custody(None, c.kept && c.pending == Some(s.target))
    else Custody(None, c.kept && c.pending.None?)
  }

  function CustodyAfter(ss: seq<Step>): Custody {
    if |ss| == 0 then Custody(None, true) else Watch(CustodyAfter(ss[..|ss| - 1]), ss[|ss| - 1])
  }

  /** The awaited steps of a sequence, in order. */
  function AwaitedSteps(ss: seq<Step>): seq<Step> {
    if |ss| == 0 then []
    else AwaitedSteps(ss[..|ss| - 1]) + (if Awaited(ss[|ss| - 1]) then [ss[|ss| - 1]] else [])
  }

  predicate DeploysTemplate(s: Step) {
    s.Deploy? && IsOrderTemplate(s.contract)
  }

  predicate Renounces(s: Step, x: Name) {
    s.Send? && s.fn == RenounceOwnership && s.target == x
  }

  /**
   * Among awaited steps, every template deployment is followed at once by that
   * template's `renounceOwnership`, and every `renounceOwnership` follows its
   * template's deployment at once.
   */
  predicate RenouncedRightAfter(a: seq<Step>) {
    (forall i | 0 <= i < |a| && DeploysTemplate(a[i]) :: i + 1 < |a| && Renounces(a[i + 1], a[i].out))
    && (forall i | 0 <= i < |a| && a[i].Send? && a[i].fn == RenounceOwnership ::
          0 < i && DeploysTemplate(a[i - 1]) && a[i - 1].out == a[i].target)
  }

  /** The template still waiting for its renouncement: the last awaited step, if it deployed one. */
  function PendingOf(a: seq<Step>): Option<Name> {
    if |a| > 0 && DeploysTemplate(a[|a| - 1]) then Some(a[|a| - 1].out) else None
  }

  /** `RenouncedRightAfter`, except that the last awaited step may be a template still waiting. */
  predicate RenouncedSoFar(a: seq<Step>) {
    (forall i | 0 <= i < |a| && DeploysTemplate(a[i]) :: i + 1 == |a| || Renounces(a[i + 1], a[i].out))
    && (forall i | 0 <= i < |a| && a[i].Send? && a[i].fn == RenounceOwnership ::
          0 < i && DeploysTemplate(a[i - 1]) && a[i - 1].out == a[i].target)
  }

  lemma {:induction false} AwaitedStepsSnoc(ss: seq<Step>, s: Step)
    ensures AwaitedSteps(ss + [s]) == AwaitedSteps(ss) + (if Awaited(s) then [s] else [])
  {
    assert (ss + [s])[..|ss|] == ss;
  }

  lemma {:induction false} CustodyPendingIsLast(ss: seq<Step>)
    ensures CustodyAfter(ss).pending == PendingOf(AwaitedSteps(ss))
  {
    if |ss| > 0 {
      var init := ss[..|ss| - 1];
      var s := ss[|ss| - 1];
      assert ss == init + [s];
      CustodyPendingIsLast(init);
      AwaitedStepsSnoc(init, s);
    }
  }

  /** A longer sequence that renounces so far has a prefix that does, and its last step keeps custody. */
  lemma RenouncedSoFarShrinks(a: seq<Step>, s: Step)
    requires Awaited(s) && RenouncedSoFar(a + [s])
    ensures RenouncedSoFar(a) && Watch(Custody(PendingOf(a), true), s).kept
  {
    var b := a + [s];
    assert forall i | 0 <= i < |a| :: b[i] == a[i];
    forall i | 0 <= i < |a| && DeploysTemplate(a[i])
      ensures i + 1 == |a| || Renounces(a[i + 1], a[i].out)
    {
      assert DeploysTemplate(b[i]);
    }
    if PendingOf(a).Some? {
      assert b[|a|] == s && DeploysTemplate(b[|a| - 1]);
    }
    if s.Send? && s.fn == RenounceOwnership {
      assert b[|a|] == s;
    }
  }

  /** A sequence that renounces so far, extended by a step that keeps custody, still does. */
  lemma RenouncedSoFarGrows(a: seq<Step>, s: Step)
    requires Awaited(s) && RenouncedSoFar(a) && Watch(Custody(PendingOf(a), true), s).kept
    ensures RenouncedSoFar(a + [s])
  {
    var b := a + [s];
    forall i | 0 <= i < |b| && DeploysTemplate(b[i])
      ensures i + 1 == |b| || Renounces(b[i + 1], b[i].out)
    {
      if i + 1 == |a| {
        assert PendingOf(a) == Some(b[i].out);
      } else if i < |a| {
        assert DeploysTemplate(a[i]);
      }
    }
    forall i | 0 <= i < |b| && b[i].Send? && b[i].fn == RenounceOwnership
      ensures 0 < i && DeploysTemplate(b[i - 1]) && b[i - 1].out == b[i].target
    {
      if i < |a| {
        assert a[i] == b[i];
      }
    }
  }

  lemma {:induction false} CustodyTracksRenouncements(ss: seq<Step>)
    ensures CustodyAfter(ss).kept <==> RenouncedSoFar(AwaitedSteps(ss))
  {
    if |ss| > 0 {
      var init := ss[..|ss| - 1];
      var s := ss[|ss| - 1];
      assert ss == init + [s];
      CustodyTracksRenouncements(init);
      CustodyPendingIsLast(init);
      AwaitedStepsSnoc(init, s);
      var a := AwaitedSteps(init);
      assert CustodyAfter(ss) == Watch(CustodyAfter(init), s);
      if !Awaited(s) {
        assert AwaitedSteps(ss) == a;
      }
      if Awaited(s) && RenouncedSoFar(a + [s]) {
        RenouncedSoFarShrinks(a, s);
      }
      if Awaited(s) && RenouncedSoFar(a) && Watch(Custody(PendingOf(a), true), s).kept {
        RenouncedSoFarGrows(a, s);
      }
    }
  }

  /** With nothing left waiting, custody was kept exactly when every template was renounced at once. */
  lemma CustodyMeansRenouncedRightAfter(ss: seq<Step>)
    requires CustodyAfter(ss).pending.None?
    ensures CustodyAfter(ss).kept <==> RenouncedRightAfter(AwaitedSteps(ss))
  {
    CustodyTracksRenouncements(ss);
    CustodyPendingIsLast(ss);
  }
}

=== FILE: runner.dfy ===
/**
 * Running a script: `main().then(() => process.exit(0)).catch(error => { ...;
 * process.exit(1) })`.  The steps run in order; the first one that throws
 * (a binding read before it was initialised, or an awaited call whose promise
 * rejects) ends `main`, nothing after it runs, and the process exits with 1.
 * Which awaited calls reject is up to the chain and the contracts behind it,
 * so it is a parameter: the set of step indices that reject if they are
 * reached.
 */
module Runner {
  import opened Wrappers
  import opened Steps
  import opened Traces

  /** A line printed by `console.log(`Deployed <subject> at <value>`)`. */
  datatype Line = Line(subject: Contract, value: Arg)

  /** Why `main()` rejected, and at which step. */
  datatype Fault = ReferenceError(at: nat) | Rejected(at: nat)

  /** The rejection handed to `.catch`, with the lines printed before it. */
  datatype Crash = Crash(fault: Fault, printed: seq<Line>)

  function LineOf(s: Step): seq<Line> {
    if s.Log? then [Line(s.subject, s.value)] else []
  }

  /** The lines a sequence of steps prints when all of it runs. */
  function Lines(ss: seq<Step>): seq<Line> {
    if |ss| == 0 then [] else Lines(ss[..|ss| - 1]) + LineOf(ss[|ss| - 1])
  }

  /** `main()` over the steps: the lines printed, or the first fault and the lines printed before it. */
  function Run(ss: seq<Step>, rejects: set<nat>): Result<seq<Line>, Crash> {
    if |ss| == 0 then Success([])
    else
      var i := |ss| - 1;
      var before := Run(ss[..i], rejects);
      if before.Failure? then before
      else if !UsesWithin(ss[i], Produced(ss[..i])) then Failure(Crash(ReferenceError(i), before.value))
      else if Awaited(ss[i]) && i in rejects then Failure(Crash(Rejected(i), before.value))
      else Success(before.value + LineOf(ss[i]))
  }

  function ExitCode(r: Result<seq<Line>, Crash>): nat {
    if r.Success? then 0 else 1
  }

  /** The first step at or after `j` that rejects when reached, or `|ss|`. */
  function HaltFrom(ss: seq<Step>, rejects: set<nat>, j: nat): (h: nat)
    requires j <= |ss|
    ensures j <= h <= |ss|
    ensures forall i | j <= i < h :: !(Awaited(ss[i]) && i in rejects)
    ensures h < |ss| ==> Awaited(ss[h]) && h in rejects
    decreases |ss| - j
  {
    if j == |ss| then j
    else if Awaited(ss[j]) && j in rejects then j
    else HaltFrom(ss, rejects, j + 1)
  }

  /** Where a run stops: the first awaited step that rejects, or the end. */
  function Halt(ss: seq<Step>, rejects: set<nat>): nat {
    HaltFrom(ss, rejects, 0)
  }

  lemma HaltOfPrefix(ss: seq<Step>, rejects: set<nat>, i: nat)
    requires i <= |ss|
    ensures Halt(ss[..i], rejects) == if Halt(ss, rejects) < i then Halt(ss, rejects) else i
  {
    var h, g := Halt(ss, rejects), Halt(ss[..i], rejects);
    if h < i {
      assert ss[..i][h] == ss[h];
    }
    if g < i {
      assert ss[..i][g] == ss[g];
    }
  }

  lemma RefsBeforeUsePrefix(ss: seq<Step>, i: nat)
    requires RefsBeforeUse(ss) && i <= |ss|
    ensures RefsBeforeUse(ss[..i])
  {
    forall j | 0 <= j < i ensures UsesWithin(ss[..i][j], Produced(ss[..i][..j])) {
      assert ss[..i][j] == ss[j] && ss[..i][..j] == ss[..j];
    }
  }

  lemma StopsBeforeLast(ss: seq<Step>, rejects: set<nat>)
    requires |ss| > 0 && Halt(ss, rejects) < |ss| - 1
    requires var init := ss[..|ss| - 1];
      Run(init, rejects) == Failure(Crash(Rejected(Halt(ss, rejects)), Lines(init[..Halt(ss, rejects)])))
    ensures Run(ss, rejects) == Failure(Crash(Rejected(Halt(ss, rejects)), Lines(ss[..Halt(ss, rejects)])))
  {
    var h := Halt(ss, rejects);
    assert ss[..|ss| - 1][..h] == ss[..h];
  }

  lemma RunsToLast(ss: seq<Step>, rejects: set<nat>)
    requires |ss| > 0 && Halt(ss, rejects) >= |ss| - 1
    requires UsesWithin(ss[|ss| - 1], Produced(ss[..|ss| - 1]))
    requires Run(ss[..|ss| - 1], rejects) == Success(Lines(ss[..|ss| - 1]))
    ensures var h := Halt(ss, rejects);
      Run(ss, rejects) == if h < |ss| then Failure(Crash(Rejected(h), Lines(ss[..h]))) else Success(Lines(ss))
  {
    assert ss[..|ss|] == ss;
  }

  /**
   * A script that reads only initialised bindings stops exactly at its first
   * rejecting step, having printed the lines of the steps before it; when no
   * step rejects it prints all its lines.
   */
  lemma {:induction false} RunStopsAtFirstRejection(ss: seq<Step>, rejects: set<nat>)
    requires RefsBeforeUse(ss)
    ensures var h := Halt(ss, rejects);
      Run(ss, rejects) == if h < |ss| then Failure(Crash(Rejected(h), Lines(ss[..h]))) else Success(Lines(ss))
  {
    if |ss| > 0 {
      var i := |ss| - 1;
      var init := ss[..i];
      var h := Halt(ss, rejects);
      assert Run(init, rejects) == if h < i then Failure(Crash(Rejected(h), Lines(init[..h]))) else Success(Lines(init)) by {
        RefsBeforeUsePrefix(ss, i);
        RunStopsAtFirstRejection(init, rejects);
        HaltOfPrefix(ss, rejects, i);
      }
      if h < i {
        StopsBeforeLast(ss, rejects);
      } else {
        assert UsesWithin(ss[i], Produced(init));
        RunsToLast(ss, rejects);
      }
    }
  }

  /** Reading before initialising is the only way to a reference error, and a well-formed script never does. */
  lemma NoReferenceError(t: Trace, rejects: set<nat>)
    requires WF(t)
    ensures Run(Sequence(t), rejects).Failure? ==> Run(Sequence(t), rejects).error.fault.Rejected?
  {
    WFIsRefsBeforeUse(t);
    RunStopsAtFirstRejection(Sequence(t), rejects);
  }

  /** The exit code is 0 exactly when no awaited step of the script rejects. */
  lemma ExitCodeContract(t: Trace, rejects: set<nat>)
    requires WF(t)
    ensures ExitCode(Run(Sequence(t), rejects)) == 0
      <==> forall i | 0 <= i < Length(t) && Awaited(Sequence(t)[i]) :: i !in rejects
  {
    WFIsRefsBeforeUse(t);
    RunStopsAtFirstRejection(Sequence(t), rejects);
  }

  /** Nothing runs past a rejection: the printed lines are those of the steps before the first one. */
  lemma AbortsAtFirstRejection(t: Trace, rejects: set<nat>)
    requires WF(t)
    ensures var r := Run(Sequence(t), rejects);
      r.Failure? ==>
        var h := r.error.fault.at;
        h < Length(t) && h in rejects && Awaited(Sequence(t)[h])
        && (forall i | 0 <= i < h && Awaited(Sequence(t)[i]) :: i !in rejects)
        && r.error.printed == Lines(Sequence(t)[..h])
  {
    WFIsRefsBeforeUse(t);
    RunStopsAtFirstRejection(Sequence(t), rejects);
  }
}

=== FILE: steps.dfy ===
/**
 * The vocabulary of the deployment scripts.  Every `await` of a script (and
 * every synchronous `setAsDeployed` or `console.log` between them) is one
 * `Step`; a step names the binding it initialises, the bindings it reads and
 * the call it makes.  Addresses are never computed: a binding stands for the
 * contract or address it holds.
 */
module Steps {
  import opened Wrappers

  /** Artifacts loaded with `artifacts.require(...)`. */
  datatype Contract =
    | BetokenFund | BetokenProxy | BetokenFactory
    | BetokenLogic | BetokenLogic2 | BetokenLogic3
    | MiniMeToken | MiniMeTokenFactory
    | ShortCERC20Order | ShortCEtherOrder | LongCERC20Order | LongCEtherOrder
    | CompoundOrderFactory
    | PeakStaking | PeakReward | PeakToken
    | TestToken | TestTokenFactory | TestKyberNetwork | TestPriceOracle
    | TestComptroller | TestCERC20Factory | TestCEther | TestUniswapOracle

  /** The four Compound order templates handed to `CompoundOrderFactory`. */
  predicate IsOrderTemplate(c: Contract) {
    c.ShortCERC20Order? || c.ShortCEtherOrder? || c.LongCERC20Order? || c.LongCEtherOrder?
  }

  /**
   * The values a script binds.  Loop iterations bind indexed names: `j` counts
   * the configured tokens, and index `n` (one past the last configured token)
   * is DAI's entry.
   */
  datatype Name =
    | Accounts                          // web3.eth.getAccounts()
    | Instance(c: Contract)             // the script's one handle on a deployed or attached artifact
    | Unnamed(c: Contract)              // `await C.new()` handed straight to `C.setAsDeployed`
    | Registry(c: Contract)             // the artifact's deployed instance after `C.setAsDeployed`
    | FundTemplate                      // the BetokenFund template deployed for BetokenFactory
    | FundAddr                          // the address previewed by `createFund.call()`
    | ProxyAddr                         // `betokenFund.proxyAddr()`
    | DaiAddr | Dai                     // the TestDAI address and the TestToken handle on it
    | PeakTokenAddr | PeakTokenHandle   // the PEAK token's address and the handle on it
    | ReferralTokenAddr | ReferralToken // the referral MiniMe token's address and handle
    | TokenAddr(j: nat)                 // the address of the j-th configured test token
    | CTokenAddr(j: nat)                // the cToken created for tokenAddrs[j]
    | MintHandle(market: bool, j: nat)  // `tokenObj` in iteration j of the Kyber (false) or market (true) mint loop

  /** The fields of a configuration document a script reads (`config.KEY`). */
  datatype Key =
    | BETOKEN_FACTORY_ADDR | DAI_ADDR | KYBER_ADDR | ONEINCH_ADDR | PEAK_ADDR
    | MARKETPEAK_WALLET_ADDR | PEAK_UNISWAP_ORACLE_ADDR
    | COMPOUND_COMPTROLLER_ADDR | COMPOUND_ORACLE_ADDR | COMPOUND_CDAI_ADDR | COMPOUND_CETH_ADDR
    | COMPOUND_FACTORY_ADDR | KYBER_TOKENS | COMPOUND_CTOKENS
    | REPUTATION_TOKEN_NAME | REPUTATION_TOKEN_SYMBOL | SHARE_TOKEN_NAME | SHARE_TOKEN_SYMBOL
    | NEW_MANAGER_KAIRO | MAX_NEW_MANAGERS_PER_CYCLE | KAIRO_PRICE | PEAK_MANAGER_STAKE_REQUIRED
    | IS_PERMISSIONED | DEVELOPER_ACCOUNT | DevFundingRate | PhaseLengths

  /** The fields of one entry of the token list document `kn_tokens.json`. */
  datatype TokenField = TokenName | TokenSymbol | TokenDecimals

  /** Constructor and call arguments. */
  datatype Arg =
    | Ref(name: Name)                      // a binding, or its `.address`
    | FirstAccount                         // accounts[0]
    | Config(key: Key)                     // config.KEY
    | Listed(j: nat, field: TokenField)    // tokensInfo[j].field
    | Text(text: string)                   // a string literal
    | Address(addr: string)                // a hard-coded address literal
    | Amount(n: nat)                       // an integer amount, already converted by bnToString
    | Flag(b: bool)
    | Undefined                            // what a JavaScript object yields for a missing key
    | Array(items: seq<Arg>)

  datatype Method =
    | NewToken | CreateCloneToken | Mint | AddMinter | Init
    | AddSigner | RenounceSigner | RenounceOwnership
    | CreateFund | InitFund(phase: nat) | NextPhase | ProxyAddrOf

  /** Who signs a transaction: the default account, or an explicit `{ from: ... }`. */
  datatype Sender = Deployer | From(addr: string)

  datatype Step =
    | GetAccounts(out: Name)                                 // await web3.eth.getAccounts()
    | Deploy(out: Name, contract: Contract, args: seq<Arg>)  // await C.new(args)
    | Attach(out: Name, contract: Contract, at: Arg)         // await C.at(address)
    | Resolve(out: Name, contract: Contract)                 // await C.deployed()
    | Send(result: Option<Name>, target: Name, fn: Method, args: seq<Arg>, sender: Sender)
                                                             // await target.fn(args), binding a receipt field
    | Call(out: Name, target: Name, fn: Method)              // await target.fn.call() or a view
    | Transfer(to: Name, wei: nat)                           // await web3.eth.sendTransaction from accounts[0]
    | Register(contract: Contract, handle: Name)             // C.setAsDeployed(handle), synchronous
    | Log(subject: Contract, value: Arg)                     // console.log(`Deployed <subject> at <value>`)

  /** Steps whose promise is awaited and can therefore reject. */
  predicate Awaited(s: Step) {
    !(s.Register? || s.Log?)
  }

  /** The binding a step initialises, if any. */
  function Output(s: Step): Option<Name> {
    match s
    case GetAccounts(out) => Some(out)
    case Deploy(out, _, _) => Some(out)
    case Attach(out, _, _) => Some(out)
    case Resolve(out, _) => Some(out)
    case Send(result, _, _, _, _) => result
    case Call(out, _, _) => Some(out)
    case Register(c, _) => Some(Registry(c))
    case _ => None
  }

  function Outputs(s: Step): set<Name> {
    if Output(s).Some? then {Output(s).value} else {}
  }

  /** Every binding the argument reads is in `d`. */
  predicate ArgWithin(a: Arg, d: set<Name>) {
    match a
    case Ref(x) => x in d
    case FirstAccount => Accounts in d
    case Array(items) => forall i | 0 <= i < |items| :: ArgWithin(items[i], d)
    case _ => true
  }

  predicate ArgsWithin(args: seq<Arg>, d: set<Name>) {
    forall i | 0 <= i < |args| :: ArgWithin(args[i], d)
  }

  /** An argument that reads only bindings of `d` still does once more are bound. */
  lemma {:induction false} ArgWithinGrows(a: Arg, d: set<Name>, e: set<Name>)
    requires d <= e && ArgWithin(a, d)
    ensures ArgWithin(a, e)
  {
    if a.Array? {
      forall i | 0 <= i < |a.items| ensures ArgWithin(a.items[i], e) {
        ArgWithinGrows(a.items[i], d, e);
      }
    }
  }

  /** Every binding the step reads (its receiver, its arguments, the registry entry) is in `d`. */
  predicate UsesWithin(s: Step, d: set<Name>) {
    match s
    case GetAccounts(_) => true
    case Deploy(_, _, args) => ArgsWithin(args, d)
    case Attach(_, _, at) => ArgWithin(at, d)
    case Resolve(_, c) => Registry(c) in d
    case Send(_, target, _, args, _) => target in d && ArgsWithin(args, d)
    case Call(_, target, _) => target in d
    case Transfer(to, _) => Accounts in d && to in d
    case Register(_, handle) => handle in d
    case Log(_, value) => ArgWithin(value, d)
  }
}

=== FILE: suite_sections.dfy ===
/**
 * The blocks the factory-suite scripts share: the fund template, the three
 * logic contracts and the MiniMe factory; PeakStaking and PeakReward wired to
 * each other; BetokenFactory and PeakReward's signer grants; the four
 * Compound order templates, each giving up ownership at once; and
 * CompoundOrderFactory built from them.  Each block states what it binds and
 * what it does to the monitors `Then` maintains.
 */
module SuiteSections {
  import opened Wrappers
  import opened Steps
  import opened Traces
  import opened FundProtocol
  import opened Roles
  import opened Build

  const Logic := Instance(BetokenLogic)
  const Logic2 := Instance(BetokenLogic2)
  const Logic3 := Instance(BetokenLogic3)
  const MiniMe := Instance(MiniMeTokenFactory)
  const Staking := Instance(PeakStaking)
  const Reward := Instance(PeakReward)
  const Oracle := Instance(TestUniswapOracle)
  const OrderFactory := Instance(CompoundOrderFactory)

  /** One billion PEAK at eight decimals, `1e9 * 1e8`. */
  const PeakSupply: nat := 100_000_000_000_000_000

  /** `ZERO_ADDR`. */
  const ZeroAddr: string := "0x0000000000000000000000000000000000000000"

  /** The handles `CoreContracts` binds. */
  const Core: set<Name> := {FundTemplate, Logic, Logic2, Logic3, MiniMe}

  /** `BetokenFund.new()` as the factory's template, the three logic contracts, `MiniMeTokenFactory.new()`. */
  method CoreContracts(t0: Trace) returns (t: Trace)
    requires WF(t0) && CustodyOf(t0).pending.None?
    ensures WF(t)
    ensures Defined(t) == Defined(t0) + Core
    ensures StageOf(t) == StageOf(t0)
    ensures NoticesOf(t) == NoticesOf(t0)
    ensures RolesOf(t) == RolesOf(t0)
    ensures CustodyOf(t) == CustodyOf(t0)
    ensures Sequence(t) == Sequence(t0) + [Deploy(FundTemplate, BetokenFund, [])] + LogicSteps
      + [Deploy(MiniMe, MiniMeTokenFactory, [])]
  {
    t := Deployed(t0, FundTemplate, BetokenFund, []);
    t := LogicContracts(t);
    t := Deployed(t, MiniMe, MiniMeTokenFactory, []);
  }

  /** `BetokenLogic.new()`, `BetokenLogic2.new()`, `BetokenLogic3.new()`, in that order. */
  const LogicSteps: seq<Step> :=
    [Deploy(Logic, BetokenLogic, []), Deploy(Logic2, BetokenLogic2, []), Deploy(Logic3, BetokenLogic3, [])]

  /** `BetokenLogic.new()`, `BetokenLogic2.new()`, `BetokenLogic3.new()`. */
  method LogicContracts(t0: Trace) returns (t: Trace)
    requires WF(t0) && CustodyOf(t0).pending.None?
    ensures WF(t)
    ensures Defined(t) == Defined(t0) + {Logic, Logic2, Logic3}
    ensures StageOf(t) == StageOf(t0)
    ensures NoticesOf(t) == NoticesOf(t0)
    ensures RolesOf(t) == RolesOf(t0)
    ensures CustodyOf(t) == CustodyOf(t0)
    ensures Sequence(t) == Sequence(t0) + LogicSteps
  {
    t := Deployed(t0, Logic, BetokenLogic, []);
    t := Deployed(t, Logic2, BetokenLogic2, []);
    t := Deployed(t, Logic3, BetokenLogic3, []);
  }

  /** `reward.addSigner(p)`: `p` joins PeakReward's signers. */
  method SignerGranted(t0: Trace, p: Name) returns (t: Trace)
    requires WF(t0) && Reward in Defined(t0) && p in Defined(t0) && CustodyOf(t0).pending.None?
    ensures WF(t)
    ensures Defined(t) == Defined(t0)
    ensures StageOf(t) == StageOf(t0)
    ensures NoticesOf(t) == NoticesOf(t0)
    ensures RolesOf(t) == RolesOf(t0) + [SignerAdded(Holder(p))]
    ensures Signers(RolesOf(t)) == Signers(RolesOf(t0)) + {Holder(p)}
    ensures CustodyOf(t) == CustodyOf(t0)
    ensures Sequence(t) == Sequence(t0) + [Send(None, Reward, AddSigner, [Ref(p)], Deployer)]
  {
    t := Then(t0, Send(None, Reward, AddSigner, [Ref(p)], Deployer));
    SignersSnoc(RolesOf(t0), SignerAdded(Holder(p)));
  }

  /**
   * `PeakStaking.new(peak)`, then `PeakReward.new(rewardArgs)`, which may read
   * the staking contract, then `staking.init(reward)` and
   * `reward.addSigner(staking)`: the staking contract joins the signers.
   */
  method StakingAndReward(t0: Trace, peak: Arg, rewardArgs: seq<Arg>) returns (t: Trace)
    requires WF(t0)
    requires ArgWithin(peak, Defined(t0)) && ArgsWithin(rewardArgs, Defined(t0) + {Staking})
    requires CustodyOf(t0).pending.None?
    ensures WF(t)
    ensures Defined(t) == Defined(t0) + {Staking, Reward}
    ensures StageOf(t) == StageOf(t0)
    ensures NoticesOf(t) == NoticesOf(t0)
    ensures RolesOf(t) == RolesOf(t0) + [SignerAdded(Holder(Staking))]
    ensures Signers(RolesOf(t)) == Signers(RolesOf(t0)) + {Holder(Staking)}
    ensures CustodyOf(t) == CustodyOf(t0)
    ensures Sequence(t) == Sequence(t0) + [Deploy(Staking, PeakStaking, [peak])] + [Deploy(Reward, PeakReward, rewardArgs)]
      + [Send(None, Staking, Init, [Ref(Reward)], Deployer)] + [Send(None, Reward, AddSigner, [Ref(Staking)], Deployer)]
  {
    t := Deployed(t0, Staking, PeakStaking, [peak]);
    t := Deployed(t, Reward, PeakReward, rewardArgs);
    t := Sent(t, None, Staking, Init, [Ref(Reward)], Deployer);
    t := SignerGranted(t, Staking);
  }

  /** `token.addMinter(staking)`, signed by `sender`: a minter grant, which leaves PeakReward's signers alone. */
  method MinterGranted(t0: Trace, token: Name, sender: Sender) returns (t: Trace)
    requires WF(t0) && token in Defined(t0) && Staking in Defined(t0) && CustodyOf(t0).pending.None?
    ensures WF(t)
    ensures Defined(t) == Defined(t0)
    ensures StageOf(t) == StageOf(t0)
    ensures NoticesOf(t) == NoticesOf(t0)
    ensures RolesOf(t) == RolesOf(t0) + [MinterAdded(token, Holder(Staking), sender)]
    ensures Signers(RolesOf(t)) == Signers(RolesOf(t0))
    ensures CustodyOf(t) == CustodyOf(t0)
    ensures Sequence(t) == Sequence(t0) + [Send(None, token, AddMinter, [Ref(Staking)], sender)]
  {
    t := Then(t0, Send(None, token, AddMinter, [Ref(Staking)], sender));
    SignersSnoc(RolesOf(t0), MinterAdded(token, Holder(Staking), sender));
  }

  /**
   * BetokenFactory's ten constructor arguments where the factory scripts and
   * the fixture pass them: DAI, Kyber, 1inch, the fund template, the three
   * logic contracts, PeakReward, PeakStaking, the MiniMe factory.
   */
  function FactoryArgs(dai: Arg, kyber: Arg, oneInch: Arg): seq<Arg> {
    [dai, kyber, oneInch, Ref(FundTemplate), Ref(Logic), Ref(Logic2), Ref(Logic3), Ref(Reward), Ref(Staking), Ref(MiniMe)]
  }

  lemma FactoryArgsWithin(dai: Arg, kyber: Arg, oneInch: Arg, d: set<Name>)
    requires ArgWithin(dai, d) && ArgWithin(kyber, d) && ArgWithin(oneInch, d)
    requires FundTemplate in d && Logic in d && Logic2 in d && Logic3 in d && Reward in d && Staking in d && MiniMe in d
    ensures ArgsWithin(FactoryArgs(dai, kyber, oneInch), d)
  {
  }

  /** `BetokenFactory.new(args)`, then `reward.addSigner(factory)`: the factory joins the signers. */
  method FactoryAndSigner(t0: Trace, args: seq<Arg>) returns (t: Trace)
    requires WF(t0) && Reward in Defined(t0) && ArgsWithin(args, Defined(t0))
    requires CustodyOf(t0).pending.None?
    ensures WF(t)
    ensures Defined(t) == Defined(t0) + {Factory}
    ensures StageOf(t) == StageOf(t0)
    ensures NoticesOf(t) == NoticesOf(t0)
    ensures RolesOf(t) == RolesOf(t0) + [SignerAdded(Holder(Factory))]
    ensures Signers(RolesOf(t)) == Signers(RolesOf(t0)) + {Holder(Factory)}
    ensures CustodyOf(t) == CustodyOf(t0)
    ensures Sequence(t) == Sequence(t0) + [Deploy(Factory, BetokenFactory, args)]
      + [Send(None, Reward, AddSigner, [Ref(Factory)], Deployer)]
  {
    t := Deployed(t0, Factory, BetokenFactory, args);
    t := SignerGranted(t, Factory);
  }

  /** `reward.renounceSigner(accounts[0])`: the deploying account leaves the signers. */
  method DeployerSteppedDown(t0: Trace) returns (t: Trace)
    requires WF(t0) && Reward in Defined(t0) && Accounts in Defined(t0) && CustodyOf(t0).pending.None?
    ensures WF(t)
    ensures Defined(t) == Defined(t0)
    ensures StageOf(t) == StageOf(t0)
    ensures NoticesOf(t) == NoticesOf(t0)
    ensures RolesOf(t) == RolesOf(t0) + [SignerRenounced(DeployerAccount)]
    ensures Signers(RolesOf(t)) == Signers(RolesOf(t0)) - {DeployerAccount}
    ensures CustodyOf(t) == CustodyOf(t0)
    ensures Sequence(t) == Sequence(t0) + [Send(None, Reward, RenounceSigner, [FirstAccount], Deployer)]
  {
    t := Then(t0, Send(None, Reward, RenounceSigner, [FirstAccount], Deployer));
    SignersSnoc(RolesOf(t0), SignerRenounced(DeployerAccount));
  }

  /** `C.new()` for an order template: it is pending until its ownership is renounced. */
  method TemplateBuilt(t0: Trace, c: Contract) returns (t: Trace)
    requires IsOrderTemplate(c) && WF(t0) && CustodyOf(t0).pending.None?
    ensures WF(t)
    ensures Defined(t) == Defined(t0) + {Instance(c)}
    ensures StageOf(t) == StageOf(t0)
    ensures NoticesOf(t) == NoticesOf(t0)
    ensures RolesOf(t) == RolesOf(t0) + [TemplateDeployed(Instance(c))]
    ensures Signers(RolesOf(t)) == Signers(RolesOf(t0))
    ensures CustodyOf(t) == Custody(Some(Instance(c)), CustodyOf(t0).kept)
    ensures Sequence(t) == Sequence(t0) + [Deploy(Instance(c), c, [])]
  {
    t := Then(t0, Deploy(Instance(c), c, []));
    SignersSnoc(RolesOf(t0), TemplateDeployed(Instance(c)));
  }

  /** `x.renounceOwnership()` on the pending template: custody is closed and kept. */
  method TemplateRenounced(t0: Trace, x: Name) returns (t: Trace)
    requires WF(t0) && x in Defined(t0) && CustodyOf(t0).pending == Some(x)
    ensures WF(t)
    ensures Defined(t) == Defined(t0)
    ensures StageOf(t) == StageOf(t0)
    ensures NoticesOf(t) == NoticesOf(t0)
    ensures RolesOf(t) == RolesOf(t0) + [OwnershipRenounced(x)]
    ensures Signers(RolesOf(t)) == Signers(RolesOf(t0))
    ensures CustodyOf(t) == Custody(None, CustodyOf(t0).kept)
    ensures Sequence(t) == Sequence(t0) + [Send(None, x, RenounceOwnership, [], Deployer)]
  {
    t := Then(t0, Send(None, x, RenounceOwnership, [], Deployer));
    SignersSnoc(RolesOf(t0), OwnershipRenounced(x));
  }

  /** In the fixture `C.setAsDeployed(template)`, a registration that leaves custody waiting; in the scripts nothing. */
  method TemplateRegistered(t0: Trace, c: Contract, register: bool) returns (t: Trace)
    requires IsOrderTemplate(c) && WF(t0) && Instance(c) in Defined(t0)
    ensures WF(t)
    ensures Defined(t) == Defined(t0) + (if register then {Registry(c)} else {})
    ensures StageOf(t) == StageOf(t0)
    ensures NoticesOf(t) == NoticesOf(t0)
    ensures RolesOf(t) == RolesOf(t0)
    ensures CustodyOf(t) == CustodyOf(t0)
    ensures Sequence(t) == Sequence(t0) + (if register then [Register(c, Instance(c))] else [])
  {
    if register {
      t := Registered(t0, c, Instance(c));
    } else {
      t := t0;
    }
  }

  /**
   * One order template: `C.new()`, in the fixture `C.setAsDeployed(...)`, then
   * `renounceOwnership()` on it.  The template is pending between the two
   * awaited steps and custody is kept.
   */
  method OrderTemplate(t0: Trace, c: Contract, register: bool) returns (t: Trace)
    requires IsOrderTemplate(c)
    requires WF(t0)
    requires CustodyOf(t0).pending.None?
    ensures WF(t)
    ensures Defined(t) == Defined(t0) + TemplateNames(c, register)
    ensures StageOf(t) == StageOf(t0)
    ensures NoticesOf(t) == NoticesOf(t0)
    ensures RolesOf(t) == RolesOf(t0) + TemplateRolesOf(c)
    ensures Signers(RolesOf(t)) == Signers(RolesOf(t0))
    ensures CustodyOf(t) == CustodyOf(t0)
    ensures Sequence(t) == Sequence(t0) + TemplateSteps(c, register)
  {
    t := TemplateBuilt(t0, c);
    t := TemplateRegistered(t, c, register);
    t := TemplateRenounced(t, Instance(c));
    assert RolesOf(t0) + [TemplateDeployed(Instance(c))] + [OwnershipRenounced(Instance(c))] == RolesOf(t0) + TemplateRolesOf(c);
  }

  /** The template addresses CompoundOrderFactory takes first, in its argument order. */
  const TemplateArgs: seq<Arg> :=
    [Ref(Instance(ShortCERC20Order)), Ref(Instance(ShortCEtherOrder)),
     Ref(Instance(LongCERC20Order)), Ref(Instance(LongCEtherOrder))]

  /** What one template adds to the role events: its deployment, then its renouncement. */
  function TemplateRolesOf(c: Contract): seq<RoleEvent> {
    [TemplateDeployed(Instance(c)), OwnershipRenounced(Instance(c))]
  }

  /** `roles` followed by the four templates' role events, in deployment order. */
  function WithTemplateRoles(roles: seq<RoleEvent>): seq<RoleEvent> {
    roles + TemplateRolesOf(ShortCERC20Order) + TemplateRolesOf(ShortCEtherOrder)
    + TemplateRolesOf(LongCERC20Order) + TemplateRolesOf(LongCEtherOrder)
  }

  /** The steps of one template: `C.new()`, its registration when `register`, then `renounceOwnership()`. */
  function TemplateSteps(c: Contract, register: bool): seq<Step> {
    [Deploy(Instance(c), c, [])] + (if register then [Register(c, Instance(c))] else [])
    + [Send(None, Instance(c), RenounceOwnership, [], Deployer)]
  }

  /** `steps` followed by the four templates' steps, in deployment order. */
  function WithTemplateSteps(steps: seq<Step>, register: bool): seq<Step> {
    steps + TemplateSteps(ShortCERC20Order, register) + TemplateSteps(ShortCEtherOrder, register)
    + TemplateSteps(LongCERC20Order, register) + TemplateSteps(LongCEtherOrder, register)
  }

  /** The four templates' handles. */
  const Templates: set<Name> :=
    {Instance(ShortCERC20Order), Instance(ShortCEtherOrder), Instance(LongCERC20Order), Instance(LongCEtherOrder)}

  /** The registry entries of the four templates. */
  const TemplateRegistries: set<Name> :=
    {Registry(ShortCERC20Order), Registry(ShortCEtherOrder), Registry(LongCERC20Order), Registry(LongCEtherOrder)}

  /** The bindings one order template adds: its handle, and its registry entry when `register`. */
  function TemplateNames(c: Contract, register: bool): set<Name> {
    if register then {Instance(c), Registry(c)} else {Instance(c)}
  }

  lemma TemplateNamesOfAll(register: bool)
    ensures TemplateNames(ShortCERC20Order, register) + TemplateNames(ShortCEtherOrder, register)
      + TemplateNames(LongCERC20Order, register) + TemplateNames(LongCEtherOrder, register)
      == Templates + (if register then TemplateRegistries else {})
  {
  }

  /** The four templates, Short CERC20, Short CEther, Long CERC20, Long CEther, each registered when `register`. */
  method OrderTemplates(t0: Trace, register: bool) returns (t: Trace)
    requires WF(t0) && CustodyOf(t0).pending.None?
    ensures WF(t)
    ensures Defined(t) == Defined(t0) + Templates + (if register then TemplateRegistries else {})
    ensures StageOf(t) == StageOf(t0)
    ensures NoticesOf(t) == NoticesOf(t0)
    ensures RolesOf(t) == WithTemplateRoles(RolesOf(t0))
    ensures Signers(RolesOf(t)) == Signers(RolesOf(t0))
    ensures CustodyOf(t) == CustodyOf(t0)
    ensures Sequence(t) == WithTemplateSteps(Sequence(t0), register)
  {
    t := OrderTemplate(t0, ShortCERC20Order, register);
    t := OrderTemplate(t, ShortCEtherOrder, register);
    t := OrderTemplate(t, LongCERC20Order, register);
    t := OrderTemplate(t, LongCEtherOrder, register);
    TemplateNamesOfAll(register);
  }

  /** `CompoundOrderFactory.new(<the four templates>, rest...)`. */
  method BuildOrderFactory(t0: Trace, rest: seq<Arg>) returns (t: Trace)
    requires WF(t0) && ArgsWithin(TemplateArgs + rest, Defined(t0))
    requires CustodyOf(t0).pending.None?
    ensures WF(t)
    ensures Defined(t) == Defined(t0) + {OrderFactory}
    ensures StageOf(t) == StageOf(t0)
    ensures NoticesOf(t) == NoticesOf(t0)
    ensures RolesOf(t) == RolesOf(t0) + [OrderFactoryBuilt(TemplateArgs)]
    ensures Signers(RolesOf(t)) == Signers(RolesOf(t0))
    ensures CustodyOf(t) == CustodyOf(t0)
    ensures Sequence(t) == Sequence(t0) + [Deploy(OrderFactory, CompoundOrderFactory, TemplateArgs + rest)]
  {
    assert (TemplateArgs + rest)[..4] == TemplateArgs;
    t := Then(t0, Deploy(OrderFactory, CompoundOrderFactory, TemplateArgs + rest));
    SignersSnoc(RolesOf(t0), OrderFactoryBuilt(TemplateArgs));
  }

  /** The arguments after the four templates that both factory scripts pass to CompoundOrderFactory. */
  const OrderFactoryConfig: seq<Arg> :=
    [Config(DAI_ADDR), Config(KYBER_ADDR), Config(COMPOUND_COMPTROLLER_ADDR),
     Config(COMPOUND_ORACLE_ADDR), Config(COMPOUND_CDAI_ADDR), Config(COMPOUND_CETH_ADDR)]

  /**
   * BetokenFactory and the signer hand-over of the two factory scripts: the
   * factory joins PeakReward's signers, the deploying account leaves them, and
   * the factory's address is printed.
   */
  method FactoryTakesOver(t0: Trace, args: seq<Arg>) returns (t: Trace)
    requires WF(t0) && Reward in Defined(t0) && Accounts in Defined(t0)
    requires ArgsWithin(args, Defined(t0)) && CustodyOf(t0).pending.None?
    ensures WF(t)
    ensures Defined(t) == Defined(t0) + {Factory}
    ensures StageOf(t) == StageOf(t0)
    ensures NoticesOf(t) == NoticesOf(t0)
    ensures RolesOf(t) == RolesOf(t0) + [SignerAdded(Holder(Factory)), SignerRenounced(DeployerAccount)]
    ensures Signers(RolesOf(t)) == Signers(RolesOf(t0)) + {Holder(Factory)} - {DeployerAccount}
    ensures CustodyOf(t) == CustodyOf(t0)
    ensures Sequence(t) == Sequence(t0) + [Deploy(Factory, BetokenFactory, args)]
      + [Send(None, Reward, AddSigner, [Ref(Factory)], Deployer)]
      + [Send(None, Reward, RenounceSigner, [FirstAccount], Deployer)] + [Log(BetokenFactory, Ref(Factory))]
  {
    t := FactoryAndSigner(t0, args);
    t := DeployerSteppedDown(t);
    t := Logged(t, BetokenFactory, Ref(Factory));
  }

  /** The order suite of the two factory scripts: the four templates, CompoundOrderFactory, its log line. */
  method OrderSuite(t0: Trace) returns (t: Trace)
    requires WF(t0) && CustodyOf(t0).pending.None?
    ensures WF(t)
    ensures Defined(t) == Defined(t0) + Templates + {OrderFactory}
    ensures StageOf(t) == StageOf(t0)
    ensures NoticesOf(t) == NoticesOf(t0)
    ensures RolesOf(t) == WithTemplateRoles(RolesOf(t0)) + [OrderFactoryBuilt(TemplateArgs)]
    ensures Signers(RolesOf(t)) == Signers(RolesOf(t0))
    ensures CustodyOf(t) == CustodyOf(t0)
    ensures Sequence(t) == WithTemplateSteps(Sequence(t0), false)
      + [Deploy(OrderFactory, CompoundOrderFactory, TemplateArgs + OrderFactoryConfig)]
      + [Log(CompoundOrderFactory, Ref(OrderFactory))]
  {
    t := OrderTemplates(t0, false);
    assert ArgsWithin(TemplateArgs + OrderFactoryConfig, Defined(t)) by {
      var a := TemplateArgs + OrderFactoryConfig;
      assert forall i | 4 <= i < |a| :: a[i] == OrderFactoryConfig[i - 4];
    }
    t := BuildOrderFactory(t, OrderFactoryConfig);
    t := Logged(t, CompoundOrderFactory, Ref(OrderFactory));
  }
}

=== FILE: traces.dfy ===
/**
 * A script's steps in source order.  `Trace` grows at its end, the way a
 * script is read; `Sequence` is the same trace as a sequence.  `WF` is
 * reference-before-use computed step by step, and `RefsBeforeUse` states the
 * same over the sequence.
 */
module Traces {
  import opened Steps

  datatype Trace = Empty | Snoc(init: Trace, last: Step)

  function Sequence(t: Trace): (ss: seq<Step>)
    ensures |ss| == Length(t)
  {
    match t
    case Empty => []
    case Snoc(init, s) => Sequence(init) + [s]
  }

  function Length(t: Trace): nat {
    match t
    case Empty => 0
    case Snoc(init, _) => Length(init) + 1
  }

  /** The bindings initialised by the trace. */
  function Defined(t: Trace): set<Name> {
    match t
    case Empty => {}
    case Snoc(init, s) => Extend(Defined(init), s)
  }

  /** The bindings in scope after `s`, given those in scope before it. */
  function Extend(d: set<Name>, s: Step): set<Name> {
    if Output(s).Some? then d + {Output(s).value} else d
  }

  /** Each step reads only bindings that earlier steps initialised. */
  predicate WF(t: Trace) {
    match t
    case Empty => true
    case Snoc(init, s) => WF(init) && UsesWithin(s, Defined(init))
  }

  /** No step of `ss` deploys a contract: every handle is attached to an address that already exists. */
  predicate DeploysNothing(ss: seq<Step>) {
    forall i | 0 <= i < |ss| :: !ss[i].Deploy?
  }

  lemma DeploysNothingAppend(a: seq<Step>, b: seq<Step>)
    ensures DeploysNothing(a + b) <==> DeploysNothing(a) && DeploysNothing(b)
  {
    assert forall i | 0 <= i < |a| :: (a + b)[i] == a[i];
    assert forall i | 0 <= i < |b| :: (a + b)[|a| + i] == b[i];
  }

  /** A trace that is `before` followed by `tail` ends with `tail`. */
  lemma EndsWith(t: Trace, before: seq<Step>, tail: seq<Step>)
    requires Sequence(t) == before + tail
    ensures Length(t) >= |tail| && Sequence(t)[Length(t) - |tail|..] == tail
  {
  }

  /** The bindings initialised by a sequence of steps. */
  function Produced(ss: seq<Step>): set<Name> {
    if |ss| == 0 then {} else Extend(Produced(ss[..|ss| - 1]), ss[|ss| - 1])
  }

  /** Step `i` reads only what steps `0..i-1` initialised. */
  predicate RefsBeforeUse(ss: seq<Step>) {
    forall i | 0 <= i < |ss| :: UsesWithin(ss[i], Produced(ss[..i]))
  }

  lemma {:induction false} DefinedIsProduced(t: Trace)
    ensures Defined(t) == Produced(Sequence(t))
  {
    match t
    case Empty =>
    case Snoc(init, s) =>
      DefinedIsProduced(init);
      assert Sequence(t)[..|Sequence(t)| - 1] == Sequence(init);
  }

  lemma RefsBeforeUseSnoc(ss: seq<Step>, s: Step)
    ensures RefsBeforeUse(ss + [s]) <==> RefsBeforeUse(ss) && UsesWithin(s, Produced(ss))
  {
    var b := ss + [s];
    assert b[..|ss|] == ss && b[|ss|] == s;
    assert forall i | 0 <= i < |ss| :: b[i] == ss[i] && b[..i] == ss[..i];
  }

  /** The step-by-step check and the whole-sequence statement agree, in both directions. */
  lemma {:induction false} WFIsRefsBeforeUse(t: Trace)
    ensures WF(t) <==> RefsBeforeUse(Sequence(t))
  {
    match t
    case Empty =>
    case Snoc(init, s) =>
      WFIsRefsBeforeUse(init);
      DefinedIsProduced(init);
      RefsBeforeUseSnoc(Sequence(init), s);
  }
}

=== FILE: views.dfy ===
/**
 * The monitors `Then` maintains, seen as plain folds over the script's step
 * sequence: the stage, notices, role events and custody of a trace are those
 * of `Sequence(t)`.  The declarative statements about the protocol, the
 * signers and the templates apply to every script through these views.
 */
module Views {
  import opened Wrappers
  import opened Steps
  import opened Traces
  import opened FundProtocol
  import opened Roles
  import opened Build

  /** The fund stage at every fund notice of a step sequence, in order. */
  function NoticeStages(ss: seq<Step>): seq<Stage> {
    if |ss| == 0 then []
    else
      var init := ss[..|ss| - 1];
      NoticeStages(init) + (if IsNotice(ss[|ss| - 1]) then [StageAfter(Events(init))] else [])
  }

  lemma {:induction false} EventsSnoc(ss: seq<Step>, s: Step)
    ensures Events(ss + [s]) == Events(ss) + (if EventOf(s).Some? then [EventOf(s).value] else [])
    ensures RoleEvents(ss + [s]) == RoleEvents(ss) + (if RoleEventOf(s).Some? then [RoleEventOf(s).value] else [])
    ensures CustodyAfter(ss + [s]) == Watch(CustodyAfter(ss), s)
    ensures NoticeStages(ss + [s]) == NoticeStages(ss) + (if IsNotice(s) then [StageAfter(Events(ss))] else [])
  {
    assert (ss + [s])[..|ss|] == ss;
  }

  lemma {:induction false} StageView(t: Trace)
    ensures StageOf(t) == StageAfter(Events(Sequence(t)))
  {
    match t
    case Empty =>
    case Snoc(init, s) =>
      StageView(init);
      EventsSnoc(Sequence(init), s);
      if EventOf(s).Some? {
        StageAfterSnoc(Events(Sequence(init)), EventOf(s).value);
      } else {
        assert Events(Sequence(init)) + [] == Events(Sequence(init));
      }
  }

  lemma {:induction false} NoticesView(t: Trace)
    ensures NoticesOf(t) == NoticeStages(Sequence(t))
  {
    match t
    case Empty =>
    case Snoc(init, s) =>
      NoticesView(init);
      StageView(init);
      EventsSnoc(Sequence(init), s);
  }

  lemma {:induction false} RolesView(t: Trace)
    ensures RolesOf(t) == RoleEvents(Sequence(t))
  {
    match t
    case Empty =>
    case Snoc(init, s) =>
      RolesView(init);
      EventsSnoc(Sequence(init), s);
  }

  lemma {:induction false} CustodyView(t: Trace)
    ensures CustodyOf(t) == CustodyAfter(Sequence(t))
  {
    match t
    case Empty =>
    case Snoc(init, s) =>
      CustodyView(init);
      EventsSnoc(Sequence(init), s);
  }

  /** A fund notice at step `i` sees the stage the events before it reached. */
  lemma {:induction false} NoticeSeesStage(ss: seq<Step>, i: nat)
    requires i < |ss| && IsNotice(ss[i])
    ensures StageAfter(Events(ss[..i])) in NoticeStages(ss)
    decreases |ss|
  {
    var init := ss[..|ss| - 1];
    if i < |ss| - 1 {
      assert init[..i] == ss[..i] && init[i] == ss[i];
      NoticeSeesStage(init, i);
    } else {
      assert init == ss[..i];
    }
  }

  /**
   * When every fund notice of a trace saw `k` init phases done (and `nextPhase`
   * if `advance`), the protocol events before each notice are exactly the
   * protocol: the log lines and the registration come after all of it.
   */
  lemma NoticesFollowProtocol(t: Trace, k: nat, advance: bool, i: nat)
    requires forall j | 0 <= j < |NoticesOf(t)| :: NoticesOf(t)[j] == (if advance then Advanced(k) else Bound(k))
    requires i < Length(t) && IsNotice(Sequence(t)[i])
    ensures Events(Sequence(t)[..i]) == Protocol(k, advance)
  {
    NoticesView(t);
    NoticeSeesStage(Sequence(t), i);
    CompletedMeansProtocol(Events(Sequence(t)[..i]), k, advance);
  }

  /** A trace's protocol events are exactly the protocol when its final stage says so. */
  lemma FinalStageMeansProtocol(t: Trace, k: nat, advance: bool)
    requires StageOf(t) == (if advance then Advanced(k) else Bound(k))
    ensures Events(Sequence(t)) == Protocol(k, advance)
  {
    StageView(t);
    CompletedMeansProtocol(Events(Sequence(t)), k, advance);
  }

  /**
   * A script that ends after `k` init phases (and `nextPhase` if `advance`),
   * and at whose every fund notice that was already so, made exactly the
   * protocol's calls, all of them before its first notice.
   */
  lemma ProtocolBeforeNotices(t: Trace, k: nat, advance: bool)
    requires StageOf(t) == (if advance then Advanced(k) else Bound(k))
    requires forall j | 0 <= j < |NoticesOf(t)| :: NoticesOf(t)[j] == (if advance then Advanced(k) else Bound(k))
    ensures Events(Sequence(t)) == Protocol(k, advance)
    ensures forall i | 0 <= i < Length(t) && IsNotice(Sequence(t)[i]) :: Events(Sequence(t)[..i]) == Protocol(k, advance)
  {
    FinalStageMeansProtocol(t, k, advance);
    forall i | 0 <= i < Length(t) && IsNotice(Sequence(t)[i])
      ensures Events(Sequence(t)[..i]) == Protocol(k, advance)
    {
      NoticesFollowProtocol(t, k, advance, i);
    }
  }

  /** A trace whose stage is still `Idle` made no protocol call at all. */
  lemma NoFundProtocol(t: Trace)
    requires StageOf(t) == Idle
    ensures Events(Sequence(t)) == []
  {
    StageView(t);
    StageSpellsProtocol(Events(Sequence(t)), Idle);
  }

  /** Custody closed and kept: every order template gave up ownership as the next awaited step. */
  lemma CustodyKept(t: Trace)
    requires CustodyOf(t) == Custody(None, true)
    ensures RenouncedRightAfter(AwaitedSteps(Sequence(t)))
  {
    CustodyView(t);
    CustodyMeansRenouncedRightAfter(Sequence(t));
  }
}

=== FILE: wrappers.dfy ===
/** Failure-carrying wrappers shared by the whole model. */
module Wrappers {

  datatype Option<+T> = None | Some(value: T)

  /** The outcome of a promise chain: resolved with a value or rejected with an error. */
  datatype Result<+R, +E> = Success(value: R) | Failure(error: E) {
    predicate IsFailure() { Failure? }
    function PropagateFailure<U>(): Result<U, E>
      requires Failure?
    {
      Failure(error)
    }
    function Extract(): R
      requires Success?
    {
      value
    }
  }
}
